=== FILE: README.md ===
# monster / mnster data binding, modelled in Dafny

This project models the binding engine of the `monster` library in its three
shipped forms:

- `dist/mnster.js` (module `Mnster`). It has a registry of named binding
  handlers (`binding`, `clean`). A view binds the template element and every
  element `querySelectorAll('*')` lists below it. A throwing handler is caught
  and logged, and binding goes on.
- `dist/monster.js` (module `Monster`). It has a fixed table of bindings plus
  `mns-on…` event attributes. A view binds the template and its element
  children only. Nothing is caught, so the first throw ends the whole view.
- `src/monster.js` (module `MonsterSource`). This is the earliest binder. It
  has three bindings (`text`, `attr`, `each`). It resolves paths through
  truthiness, and `each` loops by index up to `length`.

Shared modules:

| module | contents |
|---|---|
| `JsValues` | JavaScript values, truthiness, `+ ''`, property lookup and path walks |
| `JsStrings` | `split`, `replace` with a string, the number-to-key conversion |
| `Dom` | the document as a heap of elements addressed by reference; clones as markup; `querySelectorAll('*')` order |
| `BindingNames` | how an attribute name becomes a binding type |

How effects are modelled:

- Every operation is a pure function from a state to a state.
- A user handler's call is an event in the log.
- A console message or a thrown error is part of the outcome.

**The `bindRoot` parameter of `MonsterSource`.**

- `false` is the code as written: the template element itself is never bound.
- `true` is the corrected binder: it binds the template first, as the two
  later builds do.

Every other property of `MonsterSource` is proved for both values.

## Model

| member | source | states |
|---|---|---|
| Mnster.Resolve | dist/mnster.js:33-46 | the result is `null` exactly when some step of the dotted path meets `undefined` or `null`. Otherwise it is the value at the end of the walk, strictly smaller than the scope. It is never `undefined`. |
| MnsterProofs.WalkNoneIff | dist/mnster.js:38-44 | a walk stops exactly when there is a step whose property is missing or `null` and every earlier step was defined |
| MnsterProofs.ResolveNullIff | dist/mnster.js:33-46 | `_getFromModel` gives `null` iff the path is blocked at some segment. Otherwise it gives the walked value. |
| MnsterProofs.ResolveComposes | dist/mnster.js:33-46 | resolving `p.q` is resolving `q` in what `p` resolves to. A blocked `p` gives `null`. |
| MnsterProofs.ResolveContext | dist/mnster.js:57-59 | in the scope `{[context]: model}`, the path `context` gives back the model, or `null` for a missing model |
| MnsterProofs.ResolveArrayIndex | dist/mnster.js:33-46 | `ctx.n` reaches the n-th element of an array model, with `null` for holes |
| Mnster.Register | dist/mnster.js:181-195 | the three error messages in their order of precedence. Success iff the name is a string, the method a function, and no live binding has that name. Only that name changes. |
| Mnster.Clean | dist/mnster.js:202-210 | fails only on a non-string name. Afterwards the name is not live. An unknown name leaves the registry as it was, and no other name changes. |
| MnsterProofs.RegisterTwiceFails | dist/mnster.js:190-192 | registering a name a second time reports that the binding already exists |
| MnsterProofs.CleanThenRegister | dist/mnster.js:202-210 | after `clean`, the name can be registered again, with the new handler |
| MnsterProofs.RegisterThenClean | dist/mnster.js:181-210 | `binding` then `clean` of a fresh name restores exactly the set of live bindings |
| MnsterProofs.CleanedNeverDispatched | dist/mnster.js:107-116 | once its type is cleaned, an attribute is skipped: the state is unchanged |
| Mnster.TextBinding | dist/mnster.js:213-218 | the text becomes `data + ''`, or `''` for `null`; only the children change |
| MnsterProofs.TextOfFalsyValues | dist/mnster.js:217 | `0` and `false` still print; only `null` (and `''`) give an empty text |
| Mnster.AttrBinding | dist/mnster.js:220-228 | no change for an empty name or a `null` value. Otherwise the attribute named after `mns-attr-` gets `value + ''`, or the `setAttribute` error for an invalid name. Other attributes are untouched. |
| Mnster.DataBinding | dist/mnster.js:230-238 | the same, for the `data-…` attribute named after `mns-`: no change for a `null` value or when only `data-` is left; otherwise that attribute gets `value + ''` or the `setAttribute` error, and every attribute of another name keeps its value |
| Mnster.ShowBinding | dist/mnster.js:240-242 | display is `block` iff the value is truthy, `none` iff it is falsy; nothing else changes |
| Mnster.HideBinding | dist/mnster.js:244-246 | display is `none` iff the value is truthy, `block` iff it is falsy; nothing else changes |
| MnsterProofs.ShowHideOpposite | dist/mnster.js:240-246 | `show` and `hide` on the same value never agree |
| Mnster.OnBinding | dist/mnster.js:248-265 | throws iff the controller is `undefined` or `null`. Otherwise a controller function under the attribute's value becomes a listener for the event named after `mns-on-`, and anything else leaves the element unchanged. Only listeners change. |
| MnsterProofs.OnIdempotent | dist/mnster.js:252-263 | adding the same listener twice is adding it once |
| MnsterProofs.OnWithoutControllerLogs | dist/mnster.js:248-249 | with no controller (a nullish `root`), an `on` attribute throws and the error is logged, with the document kept |
| Mnster.Builtin | dist/mnster.js:213-265 | a built-in handler fails only as `attr` or `data` with a non-null value, or as `on` without a controller, and `on` fails exactly then. `text` keeps display and attributes. |
| Mnster.Commit | dist/mnster.js:109-119 | a handler's result is written to its node; a throw is logged and the document kept |
| Mnster.CallCustom | dist/mnster.js:110-116 | a user handler leaves the document alone and is logged with the node, attribute, resolved value and controller it received |
| Mnster.Invoke | dist/mnster.js:104-119 | only the node itself can change. A name without `mns-`, or whose type is not live, changes nothing. |
| MnsterProofs.InvokeQuiet | dist/mnster.js:107-119 | a live user handler that does not throw adds exactly its call to the log |
| Mnster.BindAttrs | dist/mnster.js:101-121 | binding attributes touches only that node |
| MnsterProofs.AttributesLastFirst | dist/mnster.js:101-102 | attributes are visited from the last to the first: the calls logged are the attribute list reversed |
| MnsterProofs.AttributesLastFirstStep | dist/mnster.js:101-102 | one step of that induction: the last remaining attribute is called first |
| Mnster.BindNode | dist/mnster.js:92-124 | only the node changes, and a node without attributes is left as it was |
| MnsterProofs.BindNodeQuiet | dist/mnster.js:92-124 | with only well-behaved user handlers, a node logs its attributes' calls in reverse order and keeps the document |
| Mnster.BindAll | dist/mnster.js:78-82 | nodes outside the list are untouched |
| MnsterProofs.NodesLastFirst | dist/mnster.js:78-82 | the listed nodes are bound from the last to the first |
| MnsterProofs.NodesLastFirstStep | dist/mnster.js:78-82 | one step of that induction: the last remaining node is bound first |
| Mnster.ViewBind | dist/mnster.js:54-85 | only the template and its descendants change. The view keeps the descendant list taken before binding. A template without attributes keeps its own element. |
| MnsterProofs.ViewBindQuietLog | dist/mnster.js:69-83 | with only well-behaved user handlers, a whole view keeps the document and logs the template's calls first, then those of the descendants from the last to the first |
| MnsterProofs.DescendantsFollow | dist/mnster.js:73 | in the list of descendants, each element is followed immediately by its own descendants (document order) |
| Mnster.Update | dist/mnster.js:130-144 | only the template and the captured nodes change |
| MnsterProofs.CreationIsFirstUpdate | dist/mnster.js:130-144 | creating a view does exactly what `update` on that view does |
| MnsterProofs.ViewBindIsolated | dist/mnster.js:109-119 | whichever user handlers throw, the document coming out of a view is the same |
| MnsterProofs.BindAllIsolated | dist/mnster.js:78-82 | the same, for a list of nodes |
| MnsterProofs.BindNodeIsolated | dist/mnster.js:92-124 | the same, for one node |
| MnsterProofs.BindAttrsIsolated | dist/mnster.js:101-121 | the same, for a prefix of a node's attributes |
| MnsterProofs.InvokeIsolated | dist/mnster.js:109-119 | the same, for one attribute |
| MnsterProofs.HandlerIsolated | dist/mnster.js:109-119 | the same, for one handler other than `each`: a user handler never writes the document and a built-in one writes what it computes |
| MnsterProofs.EachHandlerIsolated | dist/mnster.js:267-304 | the same, for an `each` binding and its nested views |
| MnsterProofs.EachItemsIsolated | dist/mnster.js:284-301 | the same, for the loop over entries |
| MnsterProofs.EachItemIsolated | dist/mnster.js:285-300 | the same, for one entry |
| Mnster.EachTemplate | dist/mnster.js:276-279 | the cached template is reused once it exists. Otherwise the template is a copy of every child. |
| MnsterProofs.EachCachesOnce | dist/mnster.js:276-279 | after the first `each`, the template is fixed, whatever the children become |
| Mnster.EachHandler | dist/mnster.js:267-304 | only the host changes. Its template is cached. Apart from children and cache it is unchanged. Its element children, after the re-parse, number the own entries of the data times the template's top-level elements. |
| MnsterProofs.EachOfNothingIsEmpty | dist/mnster.js:282-284 | `null`, `[]` or `{}` leave the host with no children |
| Mnster.EachItems | dist/mnster.js:284-301 | entries times the template's elements are added to the host's element children; nothing but the host's children changes |
| Mnster.EachItem | dist/mnster.js:285-300 | one entry adds one element child per element of the template, all of them fresh nodes; nothing but the host's children changes |
| Mnster.ItemView | dist/mnster.js:286-297 | the nested view of an entry only adds nodes: the heap before it is kept, and the new `div` holds one element per element of the template |
| Dom.Reparse | dist/mnster.js:299 | parsing serialised markup gives the parser's normal form: adjacent text merged, empty text dropped, at every depth. The elements and the text are those of the input. |
| Dom.AppendHtml | dist/mnster.js:299 | `p.innerHTML += q.innerHTML` replaces the children of `p` by fresh nodes; no other node changes; the element children of `p` are its old ones plus those of `q` |
| DomProofs.MeetingTextsMerge | dist/mnster.js:299 | an indented template appended twice gives `"\n"`, `li`, `"\n\n"`, `li`, `"\n"`: the texts that meet merge into one node |
| DomProofs.ReparseIdempotent | dist/mnster.js:299 | re-parsing what was parsed changes nothing |
| MnsterProofs.EachShowsEveryEntry | dist/mnster.js:284-301 | for a template `<li mns-text=…>`, the host's content is one `li` per entry, in order, the k-th showing the binding's path in the view of entry k |
| MnsterProofs.RowField | dist/mnster.js:290-297 | in an entry's view, `ctx.f` shows field `f` of a truthy entry (nothing for `null`), and nothing for a falsy entry bound as `{}` |
| MnsterProofs.EachShowsFields | dist/mnster.js:284-301 | for `<li mns-text="ctx.f">`, the k-th `li` shows field `f` of entry k, or nothing for a falsy entry, and there is one `li` per entry |
| MnsterProofs.FalsyEntryIsEmptyObject | dist/mnster.js:290 | a falsy entry is bound exactly as `{}` would be |
| Mnster.CreateView | dist/mnster.js:153-173 | an invalid template, or a missing context/model, throws the matching message, in that order. Success iff neither happens. The view has the template, its descendants, the stringified context, the model and the controller (defaulting to the global object). |
| BindingNames.PlainNameRoutes | dist/mnster.js:104 | `mns-<type>`, with a type that has no `-<alnum>` run, dispatches to `<type>` |
| BindingNames.QualifiedNameRoutes | dist/monster.js:135 | `mns-<type><-a-b…>`: every `-alnum` run after the type is stripped |
| BindingNames.HyphenatedTypeUnreachable | dist/mnster.js:104 | no attribute name ever yields a type `a-b`, so a binding registered under a hyphenated name is unreachable |
| BindingNames.SourceStripsOneSegment | src/monster.js:17 | the first build strips only the first `-letters` run: `mns-t-w<rest>` gives `t<rest>` |
| Monster.Resolve | dist/monster.js:41-54 | a blocked path gives `''`. Otherwise it gives the walked value, strictly smaller than the scope. Never `undefined` or `null`. |
| MonsterProofs.ResolveAcrossBuilds | dist/monster.js:41-54 | the resolver of `monster` is that of `mnster` with `null` replaced by `''` |
| Monster.TextBinding | dist/monster.js:162-165 | the text becomes `data + ''`; no element children are added; only the children change |
| MonsterProofs.TextAcrossBuilds | dist/monster.js:162-165 | `text` binds the same element in both later builds, for every path |
| Monster.AttrBinding | dist/monster.js:166-171 | fails iff the name after `mns-attr-` is not a valid attribute name. The attribute gets `value + ''`. No other attribute changes. |
| MonsterProofs.AttrOnMissAcrossBuilds | dist/monster.js:166-171 | on a missing path `monster` writes an empty attribute where `mnster` leaves the element alone |
| Monster.DataBinding | dist/monster.js:173-178 | the same, for the attribute named after `mns-`: fails iff that name is invalid, sets it to `value + ''`, and every attribute of another name keeps its value |
| Monster.ClassBinding | dist/monster.js:225-230 | an empty path changes nothing. Otherwise it fails iff the class string is empty or holds whitespace, and adds it on success. Only classes change. |
| MonsterProofs.ClassOnMissThrows | dist/monster.js:225-230 | a class path that resolves nowhere throws, because `''` is not a valid token |
| Monster.OnBinding | dist/monster.js:232-239 | fails iff there is no controller. A controller function becomes the handler property named after `mns-`. Otherwise nothing changes. |
| Monster.Builtin | dist/monster.js:162-239 | no table binding adds an element child. `on` called from the table always throws. |
| MonsterProofs.TableOnThrows | dist/monster.js:138-139 | an attribute whose type is `on` goes through the table without a controller and throws |
| MonsterProofs.QualifiedOnThrows | dist/monster.js:135-139 | so `mns-on-click` always throws |
| MonsterProofs.PlainOnAttaches | dist/monster.js:140-142 | `mns-on<event>` with an unlisted type attaches the controller's function as the handler property `on<event>` |
| MonsterProofs.ClickSpellings | dist/monster.js:135-142 | `mns-onclick` sets `onclick`, and `mns-on-click` throws |
| Monster.Commit | dist/monster.js:136-143 | a result is written to its node, and a throw becomes the state's fault |
| Monster.Invoke | dist/monster.js:133-143 | only the node changes, and only by fresh children; a name without `mns-` changes nothing |
| MonsterProofs.EarlierTextWins | dist/monster.js:132-145 | attributes are read from the last to the first, so of two text bindings on one node the first one decides the text |
| MonsterProofs.ThrowEndsNode | dist/monster.js:132-145 | the first throwing attribute ends the node's binding with that fault |
| Monster.BindAttrs | dist/monster.js:132-145 | only the node changes, and after a fault nothing does |
| Monster.BindNode | dist/monster.js:123-147 | the same for a whole node; a node without attributes is unchanged |
| Monster.BindKids | dist/monster.js:107-113 | only the template's element children change, and after a fault nothing does |
| MonsterProofs.KidsLastFirst | dist/monster.js:107-113 | children are bound from the last to the first, skipping non-elements |
| MonsterProofs.KidsLastFirstStep | dist/monster.js:107-113 | one step of that induction |
| MonsterProofs.KidsLastFirstMore | dist/monster.js:107-113 | the inductive case of that fold, for an element child reached without a fault |
| MonsterProofs.OtherNodeKeeps | dist/monster.js:110 | a text child is skipped, and binding a different element keeps the template |
| Monster.ViewBind | dist/monster.js:80-116 | only the template and its element children change; a pending fault stops everything; the view records template, context, model and controller |
| MonsterProofs.ViewIsFold | dist/monster.js:95-116 | a view binds the template, then folds over its children in reverse |
| Monster.Update | dist/monster.js:153-159 | only the template's element children change |
| Monster.UpdateKids | dist/monster.js:156-158 | the same, and after a fault nothing changes |
| MonsterProofs.UpdateFirstLast | dist/monster.js:156-158 | `update` binds the live child nodes from the first to the last |
| MonsterProofs.UpdateFirstLastStep | dist/monster.js:156-158 | one step of that induction |
| MonsterProofs.UpdateFirstLastStop | dist/monster.js:156-158 | a fault, the end of the range or a text child at the head gives the fold's own value |
| MonsterProofs.UpdateIsFold | dist/monster.js:153-159 | `update` is the first-to-last fold over the children; it does not bind the template itself |
| Monster.EachTemplate | dist/monster.js:188-191 | the cached clone is reused. Otherwise there is a template iff the host has an element child. |
| MonsterProofs.EachKeepsTemplate | dist/monster.js:188-191 | after `each`, the host's cached template is the one it used |
| Monster.EachHandler | dist/monster.js:180-211 | only the host changes. Without an element child it throws. Otherwise the template is cached and only the host's children change. Without a fault there is one new child per own entry of the data. |
| MonsterProofs.EachOnMissEmpties | dist/monster.js:180-211 | a missing collection (`''`) renders nothing and throws nothing |
| Monster.EachItems | dist/monster.js:194-208 | only the host's children change; without a fault there is one new child per entry |
| Monster.EachItem | dist/monster.js:195-207 | the new child is a fresh element appended to the host |
| MonsterProofs.EachItemLeaf | dist/monster.js:195-207 | for a template `<li mns-text=…>`, one entry appends one fresh node showing the binding's path in the entry's view (an empty object for a falsy entry) |
| MonsterProofs.EachItemsLeaves | dist/monster.js:194-208 | the loop appends one fresh node per entry, in order, the k-th showing entry k's text, and throws nothing |
| MonsterProofs.EachShowsEveryEntry | dist/monster.js:180-211 | for such a template, the host's children are exactly one new node per entry, in order, the k-th showing the path in the view of entry k |
| MonsterProofs.EachShowsFields | dist/monster.js:180-211 | for `<li mns-text="ctx.f">`, the k-th new node shows field `f` of entry k: `''` for a missing field or a falsy entry |
| MonsterProofs.FalsyEntryIsEmptyObject | dist/monster.js:198 | a falsy entry is bound exactly as `{}` would be |
| Monster.CreateView | dist/monster.js:246-268 | an invalid template logs, and missing options throw. A missing context or model logs, and nothing else does. With both present it throws iff binding throws, and otherwise creates the view with the given context, model and controller (defaulting to the global object). A created or throwing view changes only the template and its children. |
| MonsterSource.TruthyWalk | src/monster.js:45-58 | each step keeps a truthy property or becomes `false`; what remains is `false` or truthy and strictly smaller |
| MonsterSourceProofs.TruthyWalkAgrees | src/monster.js:45-58 | that walk is the plain walk when the plain walk lands on a truthy value, and `false` otherwise |
| MonsterSource.Resolve | src/monster.js:45-58 | the result is `false` or a truthy value smaller than the scope |
| MonsterSourceProofs.ResolveAcrossBuilds | src/monster.js:45-58 | the first build keeps what `monster` resolves when it is truthy and gives `false` otherwise |
| MonsterSourceProofs.SplitPair | src/monster.js:46 | `p.q` splits into `p` and `q` |
| MonsterSource.TextBinding | src/monster.js:61-64 | the text is the value when truthy and `''` otherwise; only text children; only children change |
| MonsterSourceProofs.TextAcrossBuilds | src/monster.js:61-64 | the text agrees with `monster` except that falsy values are blanked |
| MonsterSource.AttrBinding | src/monster.js:65-70 | fails iff the name is invalid. The attribute gets the value, or `''` for a falsy one. Every attribute of another name keeps its value, and nothing but attributes changes. |
| MonsterSource.LoopBound | src/monster.js:82 | the loop runs `length` times for a non-negative integer, once for `true`, and never otherwise |
| MonsterSource.EachPath | src/monster.js:72 | the collection path `context.name` always has at least two dotted segments, so the lookup starts at the context |
| MonsterSourceProofs.EachMissEmpties | src/monster.js:71-82 | a context naming no truthy property leaves the host empty without a throw, keeping the template |
| MonsterSourceProofs.UnwrappedEachEmpties | src/monster.js:33-35 | a view made with context `''` has no context, so `each` looks under `"undefined"` and renders nothing |
| MonsterSource.EachHandler | src/monster.js:71-101 | only the host changes. Without an element child it throws. Otherwise the clone is cached and only the host's children change. Without a fault there is one child per `LoopBound(length)`. |
| MonsterSource.EachItems | src/monster.js:82-98 | only the host's children change; without a fault one child per index |
| MonsterSource.EachItem | src/monster.js:83-97 | only the host changes. An element clone is appended. A falsy entry logs the missing-model message and throws nothing. |
| MonsterSource.Commit | src/monster.js:65-70 | a result is written to its node, a throw becomes the fault; the log is kept |
| MonsterSourceProofs.SourceTypeOfPlain | src/monster.js:126 | `mns-<t>` without a hyphen has type `t` |
| MonsterSourceProofs.SourceNames | src/monster.js:60-101 | `mns-text` is a binding; `mns-show` names `show`, which this table lacks |
| MonsterSource.Invoke | src/monster.js:125-128 | only the node changes. A name without `mns-` changes nothing. A type outside the table throws "not a function". |
| MonsterSourceProofs.TextAttrInvoke | src/monster.js:125-127 | `mns-text="p"` sets the node's text to what `p` resolves to |
| MonsterSource.BindAttrs | src/monster.js:120-129 | only the node changes, and after a fault nothing does |
| MonsterSource.BindNode | src/monster.js:116-130 | the same for the whole node; no attributes, no change |
| MonsterSourceProofs.TextOnlyNode | src/monster.js:116-130 | a node whose one attribute is `mns-text` gets that text and nothing else |
| MonsterSource.BindAll | src/monster.js:109-113 | nodes outside the list are untouched, and after a fault nothing changes |
| MonsterSourceProofs.BindAllSplits | src/monster.js:109-113 | the node list is bound in document order: binding `a + b` binds `a`, then `b` |
| MonsterSourceProofs.LaterTextWins | src/monster.js:120-129 | attributes are read from the first to the last, so of two text bindings on one node the second one decides the text |
| MonsterSource.ViewBind | src/monster.js:104-114 | the node list is the descendants. Only the template and its descendants change. As written, the template itself never changes. |
| MonsterSource.Construct | src/monster.js:19-43 | a falsy template logs its message, then a falsy model logs its message. A non-element template throws. A view results iff the template is an element, the model truthy and binding does not throw. Its scope is the model (context `''`) or `{[context]: model}`, and it lists the template's descendants. |
| MonsterSource.CreateView | src/monster.js:132-141 | missing options throw. Otherwise a falsy template logs, then a falsy model logs, then a template that is not an element throws a TypeError. A view exists iff the template is an element, the model truthy and binding does not throw; it lists the template's descendants and its scope is the model (context `''`) or `{[context]: model}`. |
| MonsterSourceProofs.UnknownBindingNoView | src/monster.js:125-141 | a `mns-` type outside the table (such as `mns-show`) throws while binding, so `monster.view` returns no view |
| MonsterSourceProofs.ItemFieldResolves | src/monster.js:88-95 | in an item view with context `ctx`, the path `ctx.field` reads the entry's `field` |
| MonsterSourceProofs.CorrectedRootBound | src/monster.js:104-114 | when the template is bound first, a template with `mns-text="p"` shows what `p` resolves to |
| MonsterSourceProofs.LeafViewAsWritten | src/monster.js:107 | as written, a view over a template without children changes nothing |
| MonsterSourceProofs.EachItemAsWritten | src/monster.js:107 | as written, `<li mns-text="song.title">` is appended for an entry but stays empty |
| MonsterSourceProofs.EachItemCorrected | src/monster.js:104-114 | with the template bound, the same `<li>` shows the entry's field |
| MonsterSourceProofs.EachItemLeaf | src/monster.js:83-97 | for the item template `<li mns-text="alias.field">`, one entry appends one fresh node: empty as written, and showing the entry's field when the template is bound |
| MonsterSourceProofs.EachItemsLeaves | src/monster.js:82-98 | the index loop appends one fresh node per entry, in order, each showing its entry's text, and throws nothing |
| MonsterSourceProofs.EachShowsEveryEntry | src/monster.js:71-101 | over an array, the host's children are exactly one new node per entry, in order, the k-th showing entry k's text |
| MonsterSourceProofs.EachShowsNothingAsWritten | src/monster.js:82-107 | as written, every appended `<li>` is empty |
| MonsterSourceProofs.EachShowsFieldsCorrected | src/monster.js:82-98 | with the template bound, the k-th `<li>` shows field `field` of entry k, and `''` for a falsy entry or field |

## Left out

- Markup parsing: only markup that the model itself serialised is parsed back (the `each` clones and `innerHTML +=`). `Reparse` models what the parser does to such markup: adjacent text is merged and empty text dropped. It keeps tag, attributes, display, classes and text, but drops listeners, handler properties and expando caches. It does not model the parser's context rules, for those strings or any other: an element the context discards, or one the parser inserts, is not represented. Parsing an arbitrary string (entities, `<`, implied and misnested tags) is not modelled either.
- Mnster.EachHandler: the `mnster` `each` parses its content in a `div` three times: the cache (`dist/mnster.js:277-278`), each entry's copy (`dist/mnster.js:287`), and the host itself through `innerHTML +=` (`dist/mnster.js:299`). A `div` ignores the start and end tags of `tr`, `td`, `th`, `tbody`, `thead`, `tfoot`, `caption`, `col` and `colgroup`. It also inserts a `tbody` between a `table` and its rows. So `<tbody mns-each-rows="r"><tr>…</tr></tbody>` renders no rows in the browser, while the model gives one `tr` per entry. The count of element children and the per-entry content hold only for templates that a `div` context parses back unchanged, meaning none of those nine elements at any depth and no `table` without its row group.
- Mnster.EachTemplate: the same restriction; the cached markup keeps the table elements a `div` would drop.
- Mnster.EachItems: the same restriction on its count.
- Mnster.EachItem: the same restriction on its count.
- Mnster.ItemView: the same restriction; the `div` is given the cached markup as it stands.
- Dom.Reparse: the same restriction; it models the text merging of a parse but no context rule.
- Dom.AppendHtml: the same restriction; its count assumes the host's context parses the appended markup unchanged.
- MnsterProofs.EachShowsEveryEntry: the same restriction; it promises one row per entry for any tag, including `tr` and `td`.
- MnsterProofs.EachShowsFields: the same restriction, as for `EachShowsEveryEntry`.
- JsValues.ToStr: a function renders as the fixed placeholder `"function"`. In JavaScript, `String(fn)` is the function's source text, which a text binding would show, but the model keeps no source text for functions.
- JsValues.Get: a function has no properties in the model. In JavaScript its own `length` (the arity) and `name` exist, so `src/monster.js:82` would loop `fn.length` times over a function collection, where the model runs the loop no times.
- Mnster.TextBinding: the value is shown as one text node. `innerHTML = content + ''` would parse a value holding markup, such as `'<span>x</span>'`, into element children, and that is not modelled because the model has no HTML parser for arbitrary strings. The `each` content lemmas (`MnsterProofs.EachShowsEveryEntry` and the like) describe entries shown through this binding, so they inherit the restriction.
- Monster.TextBinding: the same. The ensures that no element child is added holds only for values without markup.
- MonsterSource.TextBinding: the same. The ensures that every child is a text node holds only for values without markup.
- Monster.Builtin: the ensures that no table binding adds an element child rests on the text binding above, so it holds only for values without markup.
- Dom.Follows: the heap is acyclic by construction, because a child is traversed only when its reference is larger than its parent's. `Descendants` skips a child with a smaller reference, and `Serialize` writes it as empty text. Every heap the operations build meets this order, but a document that breaks it is not modelled.
- Attributes, display and classes are independent fields of an element. In the DOM, `setAttribute('class', …)` or `setAttribute('style', …)` (for example through `mns-attr-class`) rewrites the class list or the display, and `classList.add` rewrites the `class` attribute. Those interactions are not modelled.
- Values are finite trees. Cyclic or shared models, and a model mutated in place before `update()`, cannot be represented; a changed model can only be passed as a new view's model.
- Prototype properties: `_bindings[type]`, `type in _bindings` and `prop[key]` never find `constructor`, `__proto__`, `toString` or string and number methods. Values only have their own properties.
- Strings as collections: `for … in` over a string, and `length` or index properties of a string, are not modelled (`Get` on a primitive is `undefined`).
- MonsterSource.LoopBound: only an integer `length` or `true` gives iterations; `ToNumber` of a string, object or fractional `length` is not modelled.
- Enumeration order: objects are lists of distinct keys in insertion order, so integer-like keys are not moved to the front as JavaScript does.
- Browser fallbacks: `attachEvent`, `on<event>` properties (`dist/mnster.js`), and the `className` path of `_addClass` are left out. Only `addEventListener` and `classList` are modelled.
- Monster.OnBinding: `method.bind(node)` is modelled as the function's identity; the bound `this` is not represented.
- Console output: `console.log` / `console.error` become entries of a log or an outcome value; timing and formatting are not modelled.
- User handlers: a handler registered with `mnster.binding` is an opaque function id. Its DOM effects are not modelled; only the call and whether it throws are.
- MonsterSource.Construct: when the constructor logs and returns early, `new` still yields a bare object without template or model; the model represents that outcome as no view.
- The global object (`root`) is a parameter, and may be `undefined` or `null` (as under AMD, where the factory gets no argument). The UMD wrappers themselves (AMD / CommonJS / global export) are not modelled.
- `test/*.spec.js`, `karma.conf.js` and `gulpfile.js` are not part of this model.

## Findings

| source | as written | input that shows it | evidently intended | confidence | as-written member | corrected member |
|---|---|---|---|---|---|---|
| src/monster.js:107 | `querySelectorAll('*')` lists only descendants, so a view never binds the template element itself, and each item view created by `each` leaves the item element unbound | `<ul mns-each-songs="song"><li mns-text="song.title"></li></ul>`, context `person`, model `{songs: [{title: 'Black'}]}`: the `li` is appended with no text | bind the template first, as `dist/monster.js:103` and `dist/mnster.js:76` do; `test/monster.spec.js:145-150` expects the item text | not executed; medium | MonsterSourceProofs.EachItemAsWritten | MonsterSourceProofs.EachItemCorrected |

=== FILE: dom.dfy ===
/**
  An abstract DOM: elements live in a heap indexed by reference, so that a
  node list captured once (as `querySelectorAll` returns it) keeps pointing at
  the same elements even after they have been detached from the tree.

  Allocation is parent-first, so the children of a freshly created element
  always have larger references than the element itself. Traversals follow
  only such forward references, which makes them total on every heap.
 */
module Dom {
  import opened Wrappers
  import opened JsStrings
  import opened Sequences

  type Ref = nat

  datatype Attr = Attr(name: string, value: string)

  /** `element.style.display`: unset, `'block'` or `'none'`. */
  datatype Display = Unset | Block | Hidden

  datatype Child = TextNode(text: string) | CommentNode(text: string) | ElementNode(ref: Ref)

  /** An `addEventListener(event, fn)` registration; the DOM ignores duplicates. */
  datatype Listener = Listener(event: string, handler: nat)

  /** Serialised markup, as `innerHTML` produces and parses it, and as `cloneNode(true)` copies it. */
  datatype Markup =
    | MText(text: string)
    | MComment(text: string)
    | MElement(tag: string, attrs: seq<Attr>, display: Display, classes: seq<string>, kids: seq<Markup>)

  datatype Element = Element(
    tag: string,
    attrs: seq<Attr>,
    children: seq<Child>,
    display: Display,
    classes: seq<string>,
    listeners: set<Listener>,
    /** Event-handler properties such as `node.onclick`, holding a function id. */
    handlers: map<string, nat>,
    /** The expando property in which mnster's `each` caches the host's content. */
    cache: Option<seq<Markup>>,
    /** The expando property in which monster's `each` keeps a clone of the host's first element child. */
    clone: Option<Markup>)

  type Heap = seq<Element>

  /** What a view is asked to bind: an element, another kind of node, some other truthy value, or a falsy one. */
  datatype TemplateArg = ElementArg(ref: Ref) | OtherNodeArg | OtherTruthyArg | FalsyArg

  /** Exceptions the DOM and the JavaScript runtime raise, plus a failing user handler. */
  datatype Fault =
    | InvalidCharacterError(name: string)
    | SyntaxError(token: string)
    | TypeError(reason: string)
    | HandlerError(id: nat)

  // ----- attribute names (the XML `Name` production) -----

  predicate IsNameStartChar(c: char) {
    || c == ':' || c == '_' || IsAsciiLetter(c)
    || ('À' <= c <= 'Ö') || ('Ø' <= c <= 'ö') || ('ø' <= c <= '˿')
    || ('Ͱ' <= c <= 'ͽ') || ('Ϳ' <= c <= '῿') || ('‌' <= c <= '‍')
    || ('⁰' <= c <= '↏') || ('Ⰰ' <= c <= '⿯') || ('、' <= c <= '퟿')
    || ('豈' <= c <= '﷏') || ('ﷰ' <= c <= '�')
  }

  predicate IsNameChar(c: char) {
    || IsNameStartChar(c) || c == '-' || c == '.' || IsDigit(c) || c == '·'
    || ('̀' <= c <= 'ͯ') || ('‿' <= c <= '⁀')
  }

  /** Names `setAttribute` accepts without an `InvalidCharacterError`. */
  predicate ValidName(name: string) {
    && |name| >= 1
    && IsNameStartChar(name[0])
    && forall k :: 1 <= k < |name| ==> IsNameChar(name[k])
  }

  // ----- single-element operations -----

  /** A bare element as `document.createElement(tag)` returns it. */
  function NewElement(tag: string): Element {
    Element(tag, [], [], Unset, [], {}, map[], None, None)
  }

  /** `getAttribute(name)`: the first attribute with that name. */
  function GetAttr(attrs: seq<Attr>, name: string): Option<string> {
    if |attrs| == 0 then None
    else if attrs[0].name == name then Some(attrs[0].value)
    else GetAttr(attrs[1..], name)
  }

  /** Replaces the value of the first attribute called `name`, or appends one. */
  function PutAttr(attrs: seq<Attr>, name: string, value: string): (r: seq<Attr>)
    ensures GetAttr(r, name) == Some(value)
    ensures forall n :: n != name ==> GetAttr(r, n) == GetAttr(attrs, n)
    ensures |r| == |attrs| || |r| == |attrs| + 1
    ensures forall k :: 0 <= k < |attrs| ==> r[k].name == attrs[k].name
  {
    if |attrs| == 0 then [Attr(name, value)]
    else if attrs[0].name == name then [Attr(name, value)] + attrs[1..]
    else [attrs[0]] + PutAttr(attrs[1..], name, value)
  }

  /**
    `element.setAttribute(name, value)` in an HTML document: the name must be
    an XML name, and is stored ASCII-lower-cased. Existing attributes keep
    their position; a new one is appended.
   */
  function SetAttribute(e: Element, name: string, value: string): (r: Result<Element, Fault>)
    ensures r.Err? <==> !ValidName(name)
    ensures r.Err? ==> r.error == InvalidCharacterError(name)
    ensures r.Ok? ==> GetAttr(r.value.attrs, AsciiLower(name)) == Some(value)
    ensures r.Ok? ==> forall n :: n != AsciiLower(name) ==> GetAttr(r.value.attrs, n) == GetAttr(e.attrs, n)
    ensures r.Ok? ==> r.value == e.(attrs := r.value.attrs) && |r.value.attrs| >= |e.attrs|
  {
    if !ValidName(name) then Err(InvalidCharacterError(name))
    else Ok(e.(attrs := PutAttr(e.attrs, AsciiLower(name), value)))
  }

  /** The text an element shows when its children are text nodes only. */
  function TextOf(e: Element): string {
    TextOfChildren(e.children)
  }

  function TextOfChildren(cs: seq<Child>): string {
    if |cs| == 0 then ""
    else (if cs[0].TextNode? then cs[0].text else "") + TextOfChildren(cs[1..])
  }

  /** `element.innerHTML = s` for a string without markup: one text node, or none for `''`. */
  function SetText(e: Element, s: string): (r: Element)
    ensures TextOf(r) == s
    ensures forall k :: 0 <= k < |r.children| ==> r.children[k].TextNode?
    ensures r == e.(children := r.children)
  {
    if s == "" then e.(children := [])
    else
      assert TextOfChildren([TextNode(s)]) == s + TextOfChildren([]);
      e.(children := [TextNode(s)])
  }

  /** `element.classList.add(token)`. */
  function AddClass(e: Element, token: string): (r: Result<Element, Fault>)
    ensures r.Err? <==> token == "" || exists k :: 0 <= k < |token| && IsAsciiWhitespace(token[k])
    ensures r.Ok? ==> token in r.value.classes
    ensures r.Ok? ==> forall c :: c in e.classes ==> c in r.value.classes
    ensures r.Ok? ==> forall c :: c in r.value.classes ==> c in e.classes || c == token
    ensures r.Ok? ==> |r.value.classes| >= |e.classes| && r.value.classes[..|e.classes|] == e.classes
    ensures r.Ok? ==> r.value == e.(classes := r.value.classes)
  {
    if token == "" then Err(SyntaxError(token))
    else if exists k :: 0 <= k < |token| && IsAsciiWhitespace(token[k]) then Err(InvalidCharacterError(token))
    else if token in e.classes then Ok(e)
    else Ok(e.(classes := e.classes + [token]))
  }

  // ----- the heap -----

  /** Replaces the element at `r`; a no-op for references outside the heap. */
  function Put(h: Heap, r: Ref, e: Element): (h': Heap)
    ensures |h'| == |h|
    ensures r < |h| ==> h'[r] == e
    ensures forall q :: 0 <= q < |h| && q != r ==> h'[q] == h[q]
  {
    if r < |h| then h[r := e] else h
  }

  /** A child reference a traversal from parent `p` follows: forward and inside the heap. */
  predicate Follows(h: Heap, p: Ref, c: Ref) {
    p < c < |h|
  }

  /** Creates fresh elements for `m` (parent before children); returns the new node. */
  function AllocOne(h: Heap, m: Markup): (r: (Heap, Child))
    ensures |r.0| >= |h| && r.0[..|h|] == h
    ensures r.1.ElementNode? <==> m.MElement?
    ensures r.1.ElementNode? ==> |h| == r.1.ref < |r.0|
    ensures r.1.ElementNode? ==> forall k :: 0 <= k < |r.0[r.1.ref].children| && r.0[r.1.ref].children[k].ElementNode? ==>
                                   |h| < r.0[r.1.ref].children[k].ref
    ensures m.MText? ==> r.1 == TextNode(m.text)
    ensures m.MComment? ==> r.1 == CommentNode(m.text)
    decreases m, 1
  {
    match m
    case MText(t) => (h, TextNode(t))
    case MComment(t) => (h, CommentNode(t))
    case MElement(tag, attrs, d, cls, kids) =>
      var r := |h|;
      var h1 := h + [Element(tag, attrs, [], d, cls, {}, map[], None, None)];
      var (h2, cs) := AllocSeq(h1, kids);
      var h3 := h2[r := h2[r].(children := cs)];
      assert h3[..|h|] == h2[..|h|] == h1[..|h|] == h;
      (h3, ElementNode(r))
  }

  /** Creates fresh nodes for a sequence of markup, as parsing an `innerHTML` string does. */
  function AllocSeq(h: Heap, ms: seq<Markup>): (r: (Heap, seq<Child>))
    ensures |r.0| >= |h| && r.0[..|h|] == h
    ensures forall q :: 0 <= q < |h| ==> r.0[q] == h[q]
    ensures |r.1| == |ms|
    ensures forall k :: 0 <= k < |ms| ==> (r.1[k].ElementNode? <==> ms[k].MElement?)
    ensures forall k :: 0 <= k < |ms| && r.1[k].ElementNode? ==> |h| <= r.1[k].ref < |r.0|
    decreases ms, 0
  {
    if |ms| == 0 then (h, [])
    else
      var (h1, c) := AllocOne(h, ms[0]);
      var (h2, cs) := AllocSeq(h1, ms[1..]);
      assert h2[..|h|] == h1[..|h|];
      (h2, [c] + cs)
  }

  /** `document.createElement('div')` followed by `div.innerHTML = content`. */
  function NewDiv(h: Heap, content: seq<Markup>): (r: (Heap, Ref))
    ensures r.1 == |h| < |r.0| && r.0[..|h|] == h
    ensures forall q :: 0 <= q < |h| ==> r.0[q] == h[q]
    ensures r.0[r.1].attrs == [] && |r.0[r.1].children| == |content|
    ensures forall k :: 0 <= k < |content| ==> (r.0[r.1].children[k].ElementNode? <==> content[k].MElement?)
    ensures forall k :: 0 <= k < |content| && r.0[r.1].children[k].ElementNode? ==> Follows(r.0, r.1, r.0[r.1].children[k].ref)
  {
    var r := |h|;
    var h1 := h + [NewElement("div")];
    var (h2, cs) := AllocSeq(h1, content);
    assert h2[..|h|] == h1[..|h|];
    (h2[r := h2[r].(children := cs)], r)
  }

  /** The markup of the element at `r` (its `outerHTML`, or a deep `cloneNode`). */
  function Serialize(h: Heap, r: Ref): Markup
    decreases |h| - r, 1
  {
    if r < |h| then
      var e := h[r];
      MElement(e.tag, e.attrs, e.display, e.classes, SerializeKids(h, r, e.children))
    else MText("")
  }

  /** The markup of the children of `p` (its `innerHTML`). */
  function SerializeKids(h: Heap, p: Ref, kids: seq<Child>): (ms: seq<Markup>)
    ensures |ms| == |kids|
    ensures forall k :: 0 <= k < |kids| ==> (ms[k].MElement? <==> kids[k].ElementNode? && Follows(h, p, kids[k].ref))
    decreases |h| - p, 0, |kids|
  {
    if |kids| == 0 then []
    else
      var first :=
        match kids[0]
        case TextNode(t) => MText(t)
        case CommentNode(t) => MComment(t)
        case ElementNode(c) => if Follows(h, p, c) then Serialize(h, c) else MText("");
      [first] + SerializeKids(h, p, kids[1..])
  }

  // ----- re-parsing -----

  /** How many of `ms` are elements. */
  function MarkupElements(ms: seq<Markup>): nat {
    if |ms| == 0 then 0 else (if ms[0].MElement? then 1 else 0) + MarkupElements(ms[1..])
  }

  /** How many of `kids` are element children a traversal from `p` follows. */
  function FollowedKids(h: Heap, p: Ref, kids: seq<Child>): nat {
    if |kids| == 0 then 0
    else (if kids[0].ElementNode? && Follows(h, p, kids[0].ref) then 1 else 0) + FollowedKids(h, p, kids[1..])
  }

  /** The text directly among `ms`, as `textContent` gathers it one level down. */
  function MarkupText(ms: seq<Markup>): string {
    if |ms| == 0 then "" else (if ms[0].MText? then ms[0].text else "") + MarkupText(ms[1..])
  }

  /** Markup as the HTML parser leaves it: no empty text and no two texts side by side, at any depth. */
  predicate Parsed(ms: seq<Markup>)
    decreases ms
  {
    |ms| == 0 ||
    (&& (match ms[0]
         case MText(t) => t != "" && (|ms| == 1 || !ms[1].MText?)
         case MComment(_) => true
         case MElement(_, _, _, _, kids) => Parsed(kids))
     && Parsed(ms[1..]))
  }

  /**
    What serialising `ms` to an `innerHTML` string and parsing the string
    back gives: text side by side becomes one text node and empty text
    disappears, at every depth; elements and comments stay as they were.
    The parser's context rules (a `div` drops table rows and cells) are
    not part of this normal form.
   */
  function Reparse(ms: seq<Markup>): (r: seq<Markup>)
    ensures Parsed(r)
    ensures MarkupElements(r) == MarkupElements(ms)
    ensures MarkupText(r) == MarkupText(ms)
    ensures |r| > 0 && r[0].MText? ==> |ms| > 0 && ms[0].MText?
    decreases ms
  {
    if |ms| == 0 then []
    else
      var rest := Reparse(ms[1..]);
      match ms[0]
      case MText(t) =>
        if t == "" then rest
        else if |rest| > 0 && rest[0].MText? then
          var r := [MText(t + rest[0].text)] + rest[1..];
          assert r[1..] == rest[1..];
          assert MarkupText(rest) == rest[0].text + MarkupText(rest[1..]);
          assert MarkupElements(rest) == MarkupElements(rest[1..]);
          AppendAssoc(t, rest[0].text, MarkupText(rest[1..]));
          r
        else
          var r := [MText(t)] + rest;
          assert r[1..] == rest;
          r
      case MComment(t) =>
        var r := [MComment(t)] + rest;
        assert r[1..] == rest;
        r
      case MElement(tag, attrs, d, cls, kids) =>
        var r := [MElement(tag, attrs, d, cls, Reparse(kids))] + rest;
        assert r[1..] == rest;
        r
  }

  /** Every element child of `r` is a node of the heap. */
  predicate KidsInHeap(h: Heap, r: Ref)
    requires r < |h|
  {
    forall k :: 0 <= k < |h[r].children| && h[r].children[k].ElementNode? ==> h[r].children[k].ref < |h|
  }

  lemma {:induction false} MarkupElementsAppend(a: seq<Markup>, b: seq<Markup>)
    ensures MarkupElements(a + b) == MarkupElements(a) + MarkupElements(b)
    decreases |a|
  {
    if |a| > 0 {
      assert (a + b)[1..] == a[1..] + b;
      MarkupElementsAppend(a[1..], b);
    } else {
      assert a + b == b;
    }
  }

  /** Children that line up with markup, followed element for element, count as many elements. */
  lemma {:induction false} FollowedMarkup(h: Heap, p: Ref, kids: seq<Child>, ms: seq<Markup>)
    requires |kids| == |ms|
    requires forall k :: 0 <= k < |kids| ==> (ms[k].MElement? <==> kids[k].ElementNode? && Follows(h, p, kids[k].ref))
    ensures FollowedKids(h, p, kids) == MarkupElements(ms)
    decreases |kids|
  {
    if |kids| > 0 {
      FollowedMarkup(h, p, kids[1..], ms[1..]);
    }
  }

  /** The same children, followed from two heaps alike, count alike. */
  lemma {:induction false} FollowedAgree(h: Heap, h': Heap, p: Ref, kids: seq<Child>)
    requires forall k :: 0 <= k < |kids| && kids[k].ElementNode? ==> (Follows(h, p, kids[k].ref) <==> Follows(h', p, kids[k].ref))
    ensures FollowedKids(h, p, kids) == FollowedKids(h', p, kids)
    decreases |kids|
  {
    if |kids| > 0 {
      FollowedAgree(h, h', p, kids[1..]);
    }
  }

  /** Fresh nodes parsed under a parent already in the heap are followed exactly where the markup has elements. */
  lemma AllocFollowed(h: Heap, ms: seq<Markup>, p: Ref, h': Heap)
    requires p < |h| && |h'| == |AllocSeq(h, ms).0|
    ensures FollowedKids(h', p, AllocSeq(h, ms).1) == MarkupElements(ms)
  {
    FollowedMarkup(h', p, AllocSeq(h, ms).1, ms);
  }

  /**
    `p.innerHTML += q.innerHTML`: the children of `p` and of `q` are
    serialised one after the other, the string is parsed back, and the fresh
    nodes replace the children of `p`.
   */
  function AppendHtml(h: Heap, p: Ref, q: Ref): (h': Heap)
    requires p < |h|
    ensures |h'| >= |h|
    ensures forall n :: 0 <= n < |h| && n != p ==> h'[n] == h[n]
    ensures h'[p] == h[p].(children := h'[p].children)
    ensures KidsInHeap(h', p)
    ensures forall k :: 0 <= k < |h'[p].children| && h'[p].children[k].ElementNode? ==> |h| <= h'[p].children[k].ref
    ensures FollowedKids(h', p, h'[p].children) == FollowedKids(h, p, h[p].children) + FollowedKids(h, q, if q < |h| then h[q].children else [])
  {
    var ours := SerializeKids(h, p, h[p].children);
    var theirs := SerializeKids(h, q, if q < |h| then h[q].children else []);
    var markup := Reparse(ours + theirs);
    var (h1, kids) := AllocSeq(h, markup);
    var h' := h1[p := h1[p].(children := kids)];
    AllocFollowed(h, markup, p, h');
    MarkupElementsAppend(ours, theirs);
    FollowedMarkup(h, p, h[p].children, ours);
    FollowedMarkup(h, q, if q < |h| then h[q].children else [], theirs);
    h'
  }

  /** The element descendants of `r` in document order, as `querySelectorAll('*')` lists them. */
  function Descendants(h: Heap, r: Ref): (ds: seq<Ref>)
    ensures forall k :: 0 <= k < |ds| ==> r < ds[k] < |h|
    decreases |h| - r, 1
  {
    if r < |h| then DescendantsOfKids(h, r, h[r].children) else []
  }

  function DescendantsOfKids(h: Heap, p: Ref, kids: seq<Child>): (ds: seq<Ref>)
    ensures forall k :: 0 <= k < |ds| ==> p < ds[k] < |h|
    decreases |h| - p, 0, |kids|
  {
    if |kids| == 0 then [] else KidBlock(h, p, kids[0]) + DescendantsOfKids(h, p, kids[1..])
  }

  /** The part of the list one child of `p` contributes: the child, then its own descendants. */
  function KidBlock(h: Heap, p: Ref, kid: Child): (ds: seq<Ref>)
    ensures forall k :: 0 <= k < |ds| ==> p < ds[k] < |h|
    decreases |h| - p, 0, 0
  {
    match kid
    case ElementNode(c) => if Follows(h, p, c) then [c] + Descendants(h, c) else []
    case _ => []
  }

  /** `element.children[0]`: the first element child. */
  function FirstElementChild(h: Heap, r: Ref): (c: Option<Ref>)
    ensures c.Some? ==> Follows(h, r, c.value)
  {
    if r < |h| then FirstElementAmong(h, r, h[r].children) else None
  }

  function FirstElementAmong(h: Heap, p: Ref, kids: seq<Child>): (c: Option<Ref>)
    ensures c.Some? ==> Follows(h, p, c.value)
  {
    if |kids| == 0 then None
    else if kids[0].ElementNode? && Follows(h, p, kids[0].ref) then Some(kids[0].ref)
    else FirstElementAmong(h, p, kids[1..])
  }
}

=== FILE: dom_proofs.dfy ===
/**
  Properties of the document model: what re-parsing changes, and that
  parsing markup into fresh nodes and serialising them gives the markup back.
 */
module DomProofs {
  import opened Wrappers
  import opened Dom
  import opened Sequences

  // ----- re-parsing -----

  /** Markup the parser could have produced comes back from a re-parse unchanged. */
  lemma {:induction false} ReparseParsed(ms: seq<Markup>)
    requires Parsed(ms)
    ensures Reparse(ms) == ms
    decreases ms
  {
    if |ms| > 0 {
      ReparseParsed(ms[1..]);
      assert ms == [ms[0]] + ms[1..];
      match ms[0]
      case MText(_) =>
      case MComment(_) =>
      case MElement(_, _, _, _, kids) => ReparseParsed(kids);
    }
  }

  /** Re-parsing twice is re-parsing once. */
  lemma ReparseIdempotent(ms: seq<Markup>)
    ensures Reparse(Reparse(ms)) == Reparse(ms)
  {
    ReparseParsed(Reparse(ms));
  }

  /** A list of elements, each with parsed content, is parsed markup. */
  lemma {:induction false} ElementsParsed(ms: seq<Markup>)
    requires forall k :: 0 <= k < |ms| ==> ms[k].MElement? && Parsed(ms[k].kids)
    ensures Parsed(ms)
    decreases |ms|
  {
    if |ms| > 0 {
      ElementsParsed(ms[1..]);
    }
  }

  /**
    Content with text on both sides of an element, appended to itself: the
    two texts that meet become one node, so five nodes come back, not six.
   */
  lemma MeetingTextsMerge(t: string, e: Markup)
    requires t != "" && e.MElement? && Parsed(e.kids)
    ensures Reparse([MText(t), e, MText(t)] + [MText(t), e, MText(t)]) == [MText(t), e, MText(t + t), e, MText(t)]
  {
    ReparseParsed(e.kids);
    var x := MText(t);
    var empty: seq<Markup> := [];
    var a := [x] + empty;
    var b := [e] + a;
    var c := [x] + b;
    var d := [x] + c;
    var f := [e] + d;
    var g := [x] + f;
    ReparseEmpty();
    ReparseText(t, empty);
    ReparseElement(e, a);
    ReparseText(t, b);
    ReparseText(t, c);
    ReparseElement(e, d);
    ReparseText(t, f);
    assert [x, e, x] + [x, e, x] == g;
  }

  lemma ReparseEmpty()
    ensures Reparse([]) == []
  {
  }

  /** A re-parse step on text: it joins text that the rest starts with. */
  lemma ReparseText(t: string, rest: seq<Markup>)
    requires t != ""
    ensures var r := Reparse(rest);
            Reparse([MText(t)] + rest) == if |r| > 0 && r[0].MText? then [MText(t + r[0].text)] + r[1..] else [MText(t)] + r
  {
    assert ([MText(t)] + rest)[0] == MText(t) && ([MText(t)] + rest)[1..] == rest;
  }

  /** A re-parse step on an element whose content is already parsed: the element stays. */
  lemma ReparseElement(e: Markup, rest: seq<Markup>)
    requires e.MElement? && Reparse(e.kids) == e.kids
    ensures Reparse([e] + rest) == [e] + Reparse(rest)
  {
    assert ([e] + rest)[0] == e && ([e] + rest)[1..] == rest;
  }

  // ----- parsing, then serialising -----

  /** Every element child of node `q` comes after it and is inside the heap. */
  predicate ForwardKids(h: Heap, q: Ref)
    requires q < |h|
  {
    forall k :: 0 <= k < |h[q].children| && h[q].children[k].ElementNode? ==> q < h[q].children[k].ref < |h|
  }

  /** The nodes from `lo` on form a closed forest: their element children point forward and stay inside the heap. */
  predicate Closed(h: Heap, lo: nat) {
    forall q :: lo <= q < |h| ==> ForwardKids(h, q)
  }

  /** Serialising a node of a closed forest reads only that forest, so a heap that agrees on it serialises alike. */
  lemma {:induction false} SerializeFrame(h: Heap, h': Heap, lo: nat, c: Ref)
    requires lo <= c < |h| <= |h'| && Closed(h, lo)
    requires forall q :: lo <= q < |h| ==> h'[q] == h[q]
    ensures Serialize(h', c) == Serialize(h, c)
    decreases |h| - c, 1
  {
    assert ForwardKids(h, c);
    KidsFrame(h, h', lo, c, h[c].children);
  }

  lemma {:induction false} KidsFrame(h: Heap, h': Heap, lo: nat, p: Ref, kids: seq<Child>)
    requires |h| <= |h'| && Closed(h, lo)
    requires forall q :: lo <= q < |h| ==> h'[q] == h[q]
    requires forall k :: 0 <= k < |kids| && kids[k].ElementNode? ==> p < kids[k].ref && lo <= kids[k].ref < |h|
    ensures SerializeKids(h', p, kids) == SerializeKids(h, p, kids)
    decreases |h| - p, 0, |kids|
  {
    if |kids| > 0 {
      KidsFrame(h, h', lo, p, kids[1..]);
      if kids[0].ElementNode? {
        SerializeFrame(h, h', lo, kids[0].ref);
      }
    }
  }

  /** One piece of markup parsed into fresh nodes: they form a closed forest, and an element serialises back to the markup. */
  lemma {:induction false} AllocOneRoundTrip(h: Heap, m: Markup)
    ensures Closed(AllocOne(h, m).0, |h|)
    ensures AllocOne(h, m).1.ElementNode? ==> Serialize(AllocOne(h, m).0, AllocOne(h, m).1.ref) == m
    decreases m, 1
  {
    match m
    case MText(_) =>
    case MComment(_) =>
    case MElement(tag, attrs, d, cls, kids) =>
      var r := |h|;
      var h1 := h + [Element(tag, attrs, [], d, cls, {}, map[], None, None)];
      var (h2, cs) := AllocSeq(h1, kids);
      var h3 := h2[r := h2[r].(children := cs)];
      assert AllocOne(h, m) == (h3, ElementNode(r));
      AllocSeqRoundTrip(h1, kids, r);
      KidsFrame(h2, h3, r + 1, r, cs);
      assert ForwardKids(h3, r);
      forall q | r < q < |h3| ensures ForwardKids(h3, q) {
        assert ForwardKids(h2, q);
      }
  }

  /**
    A sequence of markup parsed into fresh nodes under a parent already in
    the heap: they form a closed forest, and serialising them as that
    parent's children gives the markup back.
   */
  lemma {:induction false} AllocSeqRoundTrip(h: Heap, ms: seq<Markup>, p: Ref)
    requires p < |h|
    ensures Closed(AllocSeq(h, ms).0, |h|)
    ensures SerializeKids(AllocSeq(h, ms).0, p, AllocSeq(h, ms).1) == ms
    decreases ms, 0
  {
    if |ms| > 0 {
      var (h1, c) := AllocOne(h, ms[0]);
      var (h2, cs) := AllocSeq(h1, ms[1..]);
      assert AllocSeq(h, ms) == (h2, [c] + cs);
      AllocOneRoundTrip(h, ms[0]);
      AllocSeqRoundTrip(h1, ms[1..], p);
      assert ([c] + cs)[1..] == cs;
      if c.ElementNode? {
        SerializeFrame(h1, h2, |h|, c.ref);
      }
      assert ms == [ms[0]] + ms[1..];
      forall q | |h| <= q < |h1| ensures ForwardKids(h2, q) {
        assert ForwardKids(h1, q);
      }
    }
  }

  /**
    After `p.innerHTML += q.innerHTML`, the children of `p` are fresh nodes
    that serialise to the re-parse of the two serialisations, one after the
    other.
   */
  lemma AppendHtmlShows(h: Heap, p: Ref, q: Ref)
    requires p < |h|
    ensures var h' := AppendHtml(h, p, q);
            && Closed(h', |h|)
            && (forall k :: 0 <= k < |h'[p].children| && h'[p].children[k].ElementNode? ==> |h| <= h'[p].children[k].ref)
            && SerializeKids(h', p, h'[p].children)
               == Reparse(SerializeKids(h, p, h[p].children) + SerializeKids(h, q, if q < |h| then h[q].children else []))
  {
    var markup := Reparse(SerializeKids(h, p, h[p].children) + SerializeKids(h, q, if q < |h| then h[q].children else []));
    var (h1, kids) := AllocSeq(h, markup);
    var h' := h1[p := h1[p].(children := kids)];
    assert AppendHtml(h, p, q) == h';
    AllocSeqRoundTrip(h, markup, p);
    KidsFrame(h1, h', |h|, p, kids);
    forall n | |h| <= n < |h'| ensures ForwardKids(h', n) {
      assert ForwardKids(h1, n);
    }
  }

  // ----- a copy of a one-element template -----

  /** A new `div` holding one element without content: the div, then that element, at the end of the heap. */
  lemma NewDivLeaf(h: Heap, tag: string, attrs: seq<Attr>, d: Display, cls: seq<string>)
    ensures var (h', t) := NewDiv(h, [MElement(tag, attrs, d, cls, [])]);
            && t == |h| && |h'| == |h| + 2 && h'[..|h|] == h
            && h'[t] == NewElement("div").(children := [ElementNode(t + 1)])
            && h'[t + 1] == Element(tag, attrs, [], d, cls, {}, map[], None, None)
            && Descendants(h', t) == [t + 1]
  {
    var leaf := MElement(tag, attrs, d, cls, []);
    var t := |h|;
    var h1 := h + [NewElement("div")];
    var li := Element(tag, attrs, [], d, cls, {}, map[], None, None);
    var h2 := h1 + [li];
    assert AllocSeq(h2, []) == (h2, []);
    assert h2[t + 1 := h2[t + 1].(children := [])] == h2;
    assert AllocOne(h1, leaf) == (h2, ElementNode(t + 1));
    assert AllocSeq(h1, [leaf]) == (h2, [ElementNode(t + 1)]) by {
      assert [leaf][1..] == [];
      assert AllocSeq(h2, [leaf][1..]) == (h2, []);
      assert [ElementNode(t + 1)] + [] == [ElementNode(t + 1)];
    }
    var h3 := h2[t := h2[t].(children := [ElementNode(t + 1)])];
    assert NewDiv(h, [leaf]) == (h3, t);
    assert Descendants(h3, t + 1) == [];
    assert KidBlock(h3, t, ElementNode(t + 1)) == [t + 1];
    assert DescendantsOfKids(h3, t, [ElementNode(t + 1)]) == [t + 1] + DescendantsOfKids(h3, t, []);
  }

  // ----- a host that shows rows -----

  /** Elements whose content is already as the parser leaves it. */
  predicate ParsedElements(ms: seq<Markup>) {
    forall k :: 0 <= k < |ms| ==> ms[k].MElement? && Parsed(ms[k].kids)
  }

  /**
    The children of host `r` are nodes from `lo` on, in a closed forest,
    and serialise to `rows`.
   */
  predicate HostShows(h: Heap, r: Ref, lo: nat, rows: seq<Markup>) {
    && r < lo <= |h| && Closed(h, lo)
    && (forall k :: 0 <= k < |h[r].children| && h[r].children[k].ElementNode? ==> lo <= h[r].children[k].ref < |h|)
    && SerializeKids(h, r, h[r].children) == rows
  }

  /** One more parsed element keeps a sequence of parsed elements parsed. */
  lemma ParsedElementsAppend(rows: seq<Markup>, row: Markup)
    requires ParsedElements(rows) && row.MElement? && Parsed(row.kids)
    ensures ParsedElements(rows + [row])
  {
    forall k | 0 <= k < |rows + [row]| ensures (rows + [row])[k].MElement? && Parsed((rows + [row])[k].kids) {
      if k < |rows| {
        assert (rows + [row])[k] == rows[k];
      } else {
        assert (rows + [row])[k] == row;
      }
    }
  }

  /** A heap that extends the host's heap still serialises the host to its rows. */
  lemma HostFrame(h: Heap, h2: Heap, r: Ref, lo: nat, rows: seq<Markup>)
    requires HostShows(h, r, lo, rows)
    requires |h2| > |h| && h2[..|h|] == h
    ensures h2[r] == h[r] && SerializeKids(h2, r, h2[r].children) == rows
  {
    assert forall q :: lo <= q < |h| ==> h2[q] == h[q] by {
      assert forall q :: 0 <= q < |h| ==> h2[q] == h2[..|h|][q];
    }
    assert h2[r] == h[r] by { assert h2[r] == h2[..|h|][r]; }
    KidsFrame(h, h2, lo, r, h[r].children);
  }

  /**
    A host showing parsed rows, after `innerHTML +=` the content of a new
    node (the one after the old heap) that serialises to one more parsed
    row, shows the rows with that row after them.
   */
  lemma RowAppended(h: Heap, h2: Heap, r: Ref, lo: nat, rows: seq<Markup>, row: Markup)
    requires HostShows(h, r, lo, rows) && ParsedElements(rows)
    requires |h2| > |h| && h2[..|h|] == h
    requires SerializeKids(h2, |h|, h2[|h|].children) == [row] && row.MElement? && Parsed(row.kids)
    ensures HostShows(AppendHtml(h2, r, |h|), r, |h2|, rows + [row])
  {
    HostFrame(h, h2, r, lo, rows);
    var h' := AppendHtml(h2, r, |h|);
    AppendHtmlShows(h2, r, |h|);
    assert SerializeKids(h', r, h'[r].children) == Reparse(rows + [row]);
    ParsedElementsAppend(rows, row);
    ElementsParsed(rows + [row]);
    ReparseParsed(rows + [row]);
  }

  // ----- fresh nodes appended to a host -----

  /** Consecutive fresh nodes, `n` to `n + m - 1`. */
  function Fresh(n: nat, m: nat): (cs: seq<Child>)
    ensures |cs| == m && forall k :: 0 <= k < m ==> cs[k] == ElementNode(n + k)
  {
    seq(m, k requires 0 <= k < m => ElementNode(n + k))
  }

  lemma FreshCons(n: nat, m: nat)
    ensures [ElementNode(n)] + Fresh(n + 1, m) == Fresh(n, m + 1)
  {
  }

  /** Appending one fresh node, then `m` more after it, appends `m + 1`. */
  lemma FreshAppend(cs: seq<Child>, n: nat, m: nat, cs1: seq<Child>, cs2: seq<Child>)
    requires cs1 == cs + [ElementNode(n)] && cs2 == cs1 + Fresh(n + 1, m)
    ensures cs2 == cs + Fresh(n, m + 1)
  {
    FreshCons(n, m);
    AppendAssoc(cs, [ElementNode(n)], Fresh(n + 1, m));
  }

  /** The nodes from `n` on show `texts`, one each. */
  predicate Shows(h: Heap, n: nat, texts: seq<string>) {
    n + |texts| <= |h| && forall k :: 0 <= k < |texts| ==> TextOf(h[n + k]) == texts[k]
  }

  lemma ShowsCons(h: Heap, n: nat, t: string, texts: seq<string>)
    requires n < |h| && TextOf(h[n]) == t && Shows(h, n + 1, texts)
    ensures Shows(h, n, [t] + texts)
  {
    forall k | 1 <= k <= |texts| ensures TextOf(h[n + k]) == ([t] + texts)[k] {
      assert TextOf(h[(n + 1) + (k - 1)]) == texts[k - 1];
    }
  }

  /**
    `h'` is `h` with one fresh node per text appended to host `r`, in
    order, each showing its text.
   */
  predicate Appended(h: Heap, h': Heap, r: Ref, texts: seq<string>) {
    && r < |h|
    && |h'| == |h| + |texts|
    && h'[r].children == h[r].children + Fresh(|h|, |texts|)
    && Shows(h', |h|, texts)
  }

  /** One node appended, then more after it that leave the first as it was, is all of them appended. */
  lemma AppendedCons(h: Heap, h1: Heap, h2: Heap, r: Ref, t: string, texts: seq<string>)
    requires Appended(h, h1, r, [t]) && Appended(h1, h2, r, texts)
    requires h2[|h|] == h1[|h|]
    ensures Appended(h, h2, r, [t] + texts)
  {
    assert TextOf(h1[|h| + 0]) == [t][0];
    assert Fresh(|h|, |[t]|) == [ElementNode(|h|)];
    FreshAppend(h[r].children, |h|, |texts|, h1[r].children, h2[r].children);
    ShowsCons(h2, |h|, t, texts);
  }
}

=== FILE: mnster.dfy ===
/**
  The binder of `mnster` v1.0.2 (dist/mnster.js).

  A view binds a template element and every element below it against the
  scope `{[context]: model}`. Each attribute whose name starts with `mns-`
  and whose derived type has a registered handler calls that handler with
  the value its path resolves to. A handler that throws is caught and logged;
  binding goes on with the next attribute.

  The DOM effects of user-registered handlers are outside the model: such a
  handler is recorded in the log with the arguments it received, and the
  environment says which of them throw.
 */
module Mnster {
  import opened Wrappers
  import opened JsStrings
  import opened JsValues
  import opened Dom
  import opened BindingNames

  // ----- the path resolver -----

  /**
    `_getFromModel(scope, path)`: split the path on `.` and descend while
    every step is defined and non-null; `null` as soon as one is not.
   */
  function Resolve(scope: Value, path: string): (r: Value)
    ensures !r.Undefined?
    ensures r.Null? <==> Walk(scope, Split(path, '.')).None?
    ensures !r.Null? ==> r == Walk(scope, Split(path, '.')).value && Size(r) + 2 <= Size(scope)
  {
    var segs := Split(path, '.');
    WalkSmaller(scope, segs);
    match Walk(scope, segs)
    case None => Null
    case Some(v) =>
      WalkLandsDefined(scope, segs);
      v
  }

  // ----- the registry -----

  datatype Handler = Text | Attribute | Data | Show | Hide | On | Each | Custom(id: nat)

  /** `_bindings`: a name maps to a handler, or to `null` once cleaned. */
  type Registry = map<string, Option<Handler>>

  /** `_bindings[name]` is truthy. */
  predicate Active(reg: Registry, name: string) {
    name in reg && reg[name].Some?
  }

  /** The registry after the built-in handlers have been registered. */
  const Builtins: Registry :=
    map["text" := Some(Text), "attr" := Some(Attribute), "data" := Some(Data), "show" := Some(Show),
        "hide" := Some(Hide), "on" := Some(On), "each" := Some(Each)]

  const NameNotString := "mnster.binding: name must be a string"
  const MethodMissing := "mnster.binding: you must specify a method"
  const AlreadyBound := "mnster.binding: a binding with this name already exists"
  const CleanNameNotString := "mnster.clean: name must be a string"

  /** `mnster.binding(name, method)`: registers a user handler. */
  function Register(reg: Registry, name: Value, fn: Value): (r: Result<Registry, string>)
    ensures !name.Str? ==> r == Err(NameNotString)
    ensures name.Str? && !fn.Fn? ==> r == Err(MethodMissing)
    ensures name.Str? && fn.Fn? && Active(reg, name.s) ==> r == Err(AlreadyBound)
    ensures r.Ok? <==> name.Str? && fn.Fn? && !Active(reg, name.s)
    ensures r.Ok? ==> name.s in r.value && r.value[name.s] == Some(Custom(fn.id))
    ensures r.Ok? ==> forall n :: n != name.s ==> (n in r.value <==> n in reg) && (n in reg ==> r.value[n] == reg[n])
  {
    if !name.Str? then Err(NameNotString)
    else if !fn.Fn? then Err(MethodMissing)
    else if Active(reg, name.s) then Err(AlreadyBound)
    else Ok(reg[name.s := Some(Custom(fn.id))])
  }

  /** `mnster.clean(name)`: sets a registered handler to `null`; a no-op otherwise. */
  function Clean(reg: Registry, name: Value): (r: Result<Registry, string>)
    ensures r.Err? <==> !name.Str?
    ensures r.Err? ==> r.error == CleanNameNotString
    ensures r.Ok? ==> !Active(r.value, name.s)
    ensures r.Ok? && !Active(reg, name.s) ==> r.value == reg
    ensures r.Ok? ==> forall n :: n != name.s ==> (n in r.value <==> n in reg) && (n in reg ==> r.value[n] == reg[n])
  {
    if !name.Str? then Err(CleanNameNotString)
    else if Active(reg, name.s) then Ok(reg[name.s := None])
    else Ok(reg)
  }

  // ----- the built-in handlers, on one element -----

  /** `text`: `innerHTML` becomes `''` for `null` and `String(value)` otherwise. */
  function TextBinding(e: Element, data: Value): (r: Element)
    ensures TextOf(r) == (if data.Null? then "" else ToStr(data))
    ensures r == e.(children := r.children)
  {
    SetText(e, if data.Null? then "" else ToStr(data))
  }

  /** `attr`: sets the attribute named by what follows `mns-attr-`, unless that is empty or the value is `null`. */
  function AttrBinding(e: Element, name: string, data: Value): (r: Result<Element, Fault>)
    ensures ReplaceFirst(name, "mns-attr-") == "" || data.Null? ==> r == Ok(e)
    ensures ReplaceFirst(name, "mns-attr-") != "" && !data.Null? ==>
              (r.Err? <==> !ValidName(ReplaceFirst(name, "mns-attr-")))
    ensures r.Ok? && ReplaceFirst(name, "mns-attr-") != "" && !data.Null? ==>
              GetAttr(r.value.attrs, AsciiLower(ReplaceFirst(name, "mns-attr-"))) == Some(ToStr(data))
    ensures r.Ok? ==> r.value == e.(attrs := r.value.attrs)
    ensures r.Ok? ==> forall n :: n != AsciiLower(ReplaceFirst(name, "mns-attr-")) ==> GetAttr(r.value.attrs, n) == GetAttr(e.attrs, n)
  {
    var attr := ReplaceFirst(name, "mns-attr-");
    if attr != "" && !data.Null? then SetAttribute(e, attr, ToStr(data)) else Ok(e)
  }

  /**
    `data`: sets the attribute named by what follows `mns-` (so `data-...`),
    unless the name without `data-` is empty or the value is `null`.
   */
  function DataBinding(e: Element, name: string, data: Value): (r: Result<Element, Fault>)
    ensures ReplaceFirst(ReplaceFirst(name, "mns-"), "data-") == "" || data.Null? ==> r == Ok(e)
    ensures ReplaceFirst(ReplaceFirst(name, "mns-"), "data-") != "" && !data.Null? ==>
              (r.Err? <==> !ValidName(ReplaceFirst(name, "mns-")))
    ensures r.Ok? && ReplaceFirst(ReplaceFirst(name, "mns-"), "data-") != "" && !data.Null? ==>
              GetAttr(r.value.attrs, AsciiLower(ReplaceFirst(name, "mns-"))) == Some(ToStr(data))
    ensures r.Ok? ==> r.value == e.(attrs := r.value.attrs)
    ensures r.Ok? ==> forall n :: n != AsciiLower(ReplaceFirst(name, "mns-")) ==> GetAttr(r.value.attrs, n) == GetAttr(e.attrs, n)
  {
    var attr := ReplaceFirst(name, "mns-");
    if ReplaceFirst(attr, "data-") != "" && !data.Null? then SetAttribute(e, attr, ToStr(data)) else Ok(e)
  }

  /** `show`: displayed as a block exactly when the value is truthy, hidden otherwise. */
  function ShowBinding(e: Element, data: Value): (r: Element)
    ensures r.display == Block <==> Truthy(data)
    ensures r.display == Hidden <==> !Truthy(data)
    ensures r == e.(display := r.display)
  {
    e.(display := if Truthy(data) then Block else Hidden)
  }

  /** `hide`: hidden exactly when the value is truthy, displayed as a block otherwise. */
  function HideBinding(e: Element, data: Value): (r: Element)
    ensures r.display == Hidden <==> Truthy(data)
    ensures r.display == Block <==> !Truthy(data)
    ensures r == e.(display := r.display)
  {
    e.(display := if Truthy(data) then Hidden else Block)
  }

  /**
    `on`: `controller[raw]` (the raw attribute value, not a path) is attached
    as a listener for the event named after `mns-on-`, when it is a function.
    Reading it throws when the controller is `undefined` or `null`.
   */
  function OnBinding(e: Element, name: string, raw: string, ctrl: Value): (r: Result<Element, Fault>)
    ensures r.Err? <==> ctrl.Undefined? || ctrl.Null?
    ensures r.Ok? && Get(ctrl, raw).Fn? ==>
              r.value.listeners == e.listeners + {Listener(ReplaceFirst(name, "mns-on-"), Get(ctrl, raw).id)}
    ensures r.Ok? && !Get(ctrl, raw).Fn? ==> r.value == e
    ensures r.Ok? ==> r.value == e.(listeners := r.value.listeners)
  {
    if ctrl.Undefined? || ctrl.Null? then Err(TypeError("the controller is undefined"))
    else
      var handler := Get(ctrl, raw);
      if handler.Fn? then Ok(e.(listeners := e.listeners + {Listener(ReplaceFirst(name, "mns-on-"), handler.id)})) else Ok(e)
  }

  // ----- views -----

  /** What the console receives, and what user handlers are called with. */
  datatype Event =
    | Called(id: nat, node: Ref, attribute: string, value: string, resolved: Value, controller: Value)
    | Logged(fault: Fault)

  datatype State = State(dom: Heap, log: seq<Event>)

  /** The registry, the global object, and the user handlers that throw when called. */
  datatype Env = Env(reg: Registry, root: Value, failing: set<nat>)

  /** A view as the constructor leaves it; `nodes` is the descendant list captured at creation. */
  datatype View = View(template: Ref, context: string, model: Value, controller: Value, nodes: seq<Ref>)

  /** Writes back a handler's element, or logs the exception it threw. */
  function Commit(st: State, r: Ref, res: Result<Element, Fault>): (st': State)
    ensures |st'.dom| == |st.dom|
    ensures forall q :: 0 <= q < |st.dom| && q != r ==> st'.dom[q] == st.dom[q]
    ensures res.Ok? ==> st' == st.(dom := Put(st.dom, r, res.value))
    ensures res.Err? ==> st' == st.(log := st.log + [Logged(res.error)])
  {
    match res
    case Ok(e) => st.(dom := Put(st.dom, r, e))
    case Err(f) => st.(log := st.log + [Logged(f)])
  }

  /** A user handler: recorded with its arguments; one that throws is also logged. */
  function CallCustom(env: Env, st: State, r: Ref, id: nat, a: Attr, data: Value, ctrl: Value): (st': State)
    ensures st'.dom == st.dom
    ensures |st'.log| > |st.log| && st'.log[|st.log|] == Called(id, r, a.name, a.value, data, ctrl)
  {
    var called := st.log + [Called(id, r, a.name, a.value, data, ctrl)];
    if id in env.failing then st.(log := called + [Logged(HandlerError(id))]) else st.(log := called)
  }

  /** `new View(...)`: captures the descendants, binds the template, then the captured list. */
  function ViewBind(env: Env, st: State, t: Ref, ctx: string, model: Value, ctrl: Value): (r: (State, View))
    ensures |r.0.dom| >= |st.dom|
    ensures forall q :: 0 <= q < |st.dom| && q != t && q !in Descendants(st.dom, t) ==> r.0.dom[q] == st.dom[q]
    ensures t < |st.dom| && st.dom[t].attrs == [] ==> r.0.dom[t] == st.dom[t]
    ensures r.1 == View(t, ctx, model, ctrl, Descendants(st.dom, t))
    decreases Size(Scope(ctx, model)), 4, 0, 0
  {
    var nodes := Descendants(st.dom, t);
    var scope := Scope(ctx, model);
    var st1 := BindNode(env, st, t, scope, ctrl);
    (BindAll(env, st1, nodes, scope, ctrl), View(t, ctx, model, ctrl, nodes))
  }

  /** The loop over a captured node list: the last node first. */
  function BindAll(env: Env, st: State, nodes: seq<Ref>, scope: Value, ctrl: Value): (st': State)
    ensures |st'.dom| >= |st.dom|
    ensures forall q :: 0 <= q < |st.dom| && q !in nodes ==> st'.dom[q] == st.dom[q]
    decreases Size(scope), 3, |nodes|, 0
  {
    if |nodes| == 0 then st
    else
      var st1 := BindNode(env, st, nodes[|nodes| - 1], scope, ctrl);
      BindAll(env, st1, nodes[..|nodes| - 1], scope, ctrl)
  }

  /** `view.bindNode(node)`: the node's attributes, the last one first. */
  function BindNode(env: Env, st: State, r: Ref, scope: Value, ctrl: Value): (st': State)
    ensures |st'.dom| >= |st.dom|
    ensures forall q :: 0 <= q < |st.dom| && q != r ==> st'.dom[q] == st.dom[q]
    ensures r >= |st.dom| || st.dom[r].attrs == [] ==> st' == st
    decreases Size(scope), 2, 0, 0
  {
    if r < |st.dom| then BindAttrs(env, st, r, |st.dom[r].attrs|, scope, ctrl) else st
  }

  /** Attributes `k - 1` down to `0` of node `r`, each read from the live attribute list. */
  function BindAttrs(env: Env, st: State, r: Ref, k: nat, scope: Value, ctrl: Value): (st': State)
    ensures |st'.dom| >= |st.dom|
    ensures forall q :: 0 <= q < |st.dom| && q != r ==> st'.dom[q] == st.dom[q]
    decreases Size(scope), 1, k, 0
  {
    if k == 0 then st
    else
      var st1 :=
        if r < |st.dom| && k - 1 < |st.dom[r].attrs| then Invoke(env, st, r, st.dom[r].attrs[k - 1], scope, ctrl)
        else st;
      BindAttrs(env, st1, r, k - 1, scope, ctrl)
  }

  /**
    One attribute: dispatched only when its name starts with `mns-` and the
    derived type has a truthy registry entry.
   */
  function Invoke(env: Env, st: State, r: Ref, a: Attr, scope: Value, ctrl: Value): (st': State)
    ensures |st'.dom| >= |st.dom|
    ensures forall q :: 0 <= q < |st.dom| && q != r ==> st'.dom[q] == st.dom[q]
    ensures !HasPrefix(a.name) || !Active(env.reg, BindingType(a.name)) ==> st' == st
    decreases Size(scope), 0, 2, 0
  {
    var kind := BindingType(a.name);
    if r >= |st.dom| || !HasPrefix(a.name) || !Active(env.reg, kind) then st
    else
      var data := Resolve(scope, a.value);
      match env.reg[kind].value
      case Each => EachHandler(env, st, r, a, scope)
      case Custom(id) => CallCustom(env, st, r, id, a, data, ctrl)
      case h => Commit(st, r, Builtin(h, st.dom[r], a, data, ctrl))
  }

  /** What a built-in handler other than `each` makes of the element it is called on. */
  function Builtin(h: Handler, e: Element, a: Attr, data: Value, ctrl: Value): (r: Result<Element, Fault>)
    requires !h.Each? && !h.Custom?
    ensures r.Err? ==> ((h.Attribute? || h.Data?) && !data.Null?) || (h.On? && (ctrl.Undefined? || ctrl.Null?))
    ensures h.On? ==> (r.Err? <==> ctrl.Undefined? || ctrl.Null?)
    ensures r.Ok? && h.Text? ==> r.value.display == e.display && r.value.attrs == e.attrs
  {
    match h
    case Text => Ok(TextBinding(e, data))
    case Attribute => AttrBinding(e, a.name, data)
    case Data => DataBinding(e, a.name, data)
    case Show => Ok(ShowBinding(e, data))
    case Hide => Ok(HideBinding(e, data))
    case On => OnBinding(e, a.name, a.value, ctrl)
  }

  /** The template an `each` host keeps: cached on the first call, reused afterwards. */
  function EachTemplate(h: Heap, r: Ref): (t: seq<Markup>)
    requires r < |h|
    ensures h[r].cache.Some? ==> t == h[r].cache.value
    ensures h[r].cache.None? ==> |t| == |h[r].children|
  {
    if h[r].cache.Some? then h[r].cache.value else SerializeKids(h, r, h[r].children)
  }

  /**
    `each`: caches the host's content on the first call, clears the host and
    appends one bound copy of the cached content per collection entry.
   */
  function EachHandler(env: Env, st: State, r: Ref, a: Attr, scope: Value): (st': State)
    ensures |st'.dom| >= |st.dom|
    ensures forall q :: 0 <= q < |st.dom| && q != r ==> st'.dom[q] == st.dom[q]
    ensures r < |st.dom| ==> st'.dom[r].cache == Some(EachTemplate(st.dom, r))
    ensures r < |st.dom| ==> st'.dom[r] == st.dom[r].(children := st'.dom[r].children, cache := st'.dom[r].cache)
    ensures r < |st.dom| ==> KidsInHeap(st'.dom, r)
    ensures r < |st.dom| ==> FollowedKids(st'.dom, r, st'.dom[r].children)
                             == |Items(Resolve(scope, a.value))| * MarkupElements(EachTemplate(st.dom, r))
    decreases Size(scope), 0, 1, 0
  {
    if r >= |st.dom| then st
    else
      var data := Resolve(scope, a.value);
      var cache := EachTemplate(st.dom, r);
      var st1 := st.(dom := st.dom[r := st.dom[r].(cache := Some(cache), children := [])]);
      ItemsSmaller(data);
      EachItems(env, st1, r, ReplaceFirst(a.name, "mns-each-"), Items(data), cache, scope)
  }

  /** The `for...in` loop of `each`: one nested view per entry, its content appended to the host. */
  function EachItems(env: Env, st: State, r: Ref, ctx: string, items: seq<Value>, cache: seq<Markup>, scope: Value): (st': State)
    requires forall k :: 0 <= k < |items| ==> Size(items[k]) + 4 <= Size(scope)
    ensures |st'.dom| >= |st.dom|
    ensures forall q :: 0 <= q < |st.dom| && q != r ==> st'.dom[q] == st.dom[q]
    ensures r < |st.dom| ==> st'.dom[r] == st.dom[r].(children := st'.dom[r].children)
    ensures r < |st.dom| && KidsInHeap(st.dom, r) ==> KidsInHeap(st'.dom, r)
    ensures r < |st.dom| && KidsInHeap(st.dom, r) ==>
              FollowedKids(st'.dom, r, st'.dom[r].children)
              == FollowedKids(st.dom, r, st.dom[r].children) + |items| * MarkupElements(cache)
    decreases Size(scope), 0, 0, |items| + 1
  {
    if |items| == 0 || r >= |st.dom| then st
    else
      var st1 := EachItem(env, st, r, ctx, items[0], cache, scope);
      assert |items| * MarkupElements(cache) == MarkupElements(cache) + (|items| - 1) * MarkupElements(cache);
      EachItems(env, st1, r, ctx, items[1..], cache, scope)
  }

  /**
    One entry of `each`: a `div` holding the cached content is bound as a view
    of the entry (an empty object for a falsy one) under the root controller,
    and the host's content is re-parsed with the div's content appended.
   */
  function EachItem(env: Env, st: State, r: Ref, ctx: string, item: Value, cache: seq<Markup>, scope: Value): (st': State)
    requires r < |st.dom| && Size(item) + 4 <= Size(scope)
    ensures |st'.dom| >= |st.dom|
    ensures forall q :: 0 <= q < |st.dom| && q != r ==> st'.dom[q] == st.dom[q]
    ensures st'.dom[r] == st.dom[r].(children := st'.dom[r].children)
    ensures KidsInHeap(st'.dom, r)
    ensures forall k :: 0 <= k < |st'.dom[r].children| && st'.dom[r].children[k].ElementNode? ==>
              |st.dom| <= st'.dom[r].children[k].ref
    ensures KidsInHeap(st.dom, r) ==>
              FollowedKids(st'.dom, r, st'.dom[r].children) == FollowedKids(st.dom, r, st.dom[r].children) + MarkupElements(cache)
    decreases Size(scope), 0, 0, 1
  {
    var st2 := ItemView(env, st, ctx, item, cache, scope);
    assert KidsInHeap(st.dom, r) ==>
             FollowedKids(st2.dom, r, st2.dom[r].children) == FollowedKids(st.dom, r, st.dom[r].children) by {
      if KidsInHeap(st.dom, r) {
        FollowedAgree(st2.dom, st.dom, r, st.dom[r].children);
      }
    }
    st2.(dom := AppendHtml(st2.dom, r, |st.dom|))
  }

  /**
    The nested view of one entry: a new `div` (the node after the heap)
    holding the cached content, bound against the entry under the root
    controller. Nothing that was in the heap changes.
   */
  function ItemView(env: Env, st: State, ctx: string, item: Value, cache: seq<Markup>, scope: Value): (st': State)
    requires Size(item) + 4 <= Size(scope)
    ensures |st'.dom| > |st.dom| && st'.dom[..|st.dom|] == st.dom
    ensures FollowedKids(st'.dom, |st.dom|, st'.dom[|st.dom|].children) == MarkupElements(cache)
    decreases Size(scope), 0, 0, 0
  {
    var (dom1, t) := NewDiv(st.dom, cache);
    var model := ItemModel(item);
    assert Size(model) + 2 <= Size(scope) by {
      SizePositive(item);
      assert Size(Obj([])) == 2;
    }
    ScopeSize(ctx, model);
    var (st2, _) := ViewBind(env, st.(dom := dom1), t, ctx, model, env.root);
    FollowedAgree(st2.dom, dom1, t, st2.dom[t].children);
    FollowedMarkup(dom1, t, dom1[t].children, cache);
    assert st2.dom[..|st.dom|] == st.dom by {
      forall q | 0 <= q < |st.dom| ensures st2.dom[q] == st.dom[q] {
        assert dom1[q] == st.dom[q];
      }
    }
    st2
  }

  /** `view.update()`: the same pass, over the template and the list captured at creation. */
  function Update(env: Env, st: State, v: View): (st': State)
    ensures |st'.dom| >= |st.dom|
    ensures forall q :: 0 <= q < |st.dom| && q != v.template && q !in v.nodes ==> st'.dom[q] == st.dom[q]
  {
    var scope := Scope(v.context, v.model);
    BindAll(env, BindNode(env, st, v.template, scope, v.controller), v.nodes, scope, v.controller)
  }

  // ----- mnster.view -----

  const TemplateInvalid := "mnster.view: You must pass a valid template as a first argument"
  const OptionsInvalid := "mnster.view: You must specify a context and a model"

  predicate ValidTemplate(st: State, template: TemplateArg) {
    template.ElementArg? && template.ref < |st.dom|
  }

  /** `mnster.view(template, options)` */
  function CreateView(env: Env, st: State, template: TemplateArg, options: Value): (r: Result<(State, View), string>)
    ensures !ValidTemplate(st, template) ==> r == Err(TemplateInvalid)
    ensures (ValidTemplate(st, template) && !(Truthy(options) && Truthy(Get(options, "context")) && Truthy(Get(options, "model"))))
              ==> r == Err(OptionsInvalid)
    ensures r.Ok? <==> ValidTemplate(st, template) && Truthy(options) && Truthy(Get(options, "context")) && Truthy(Get(options, "model"))
    ensures r.Ok? ==> r.value.1.template == template.ref && r.value.1.nodes == Descendants(st.dom, template.ref)
    ensures r.Ok? ==> r.value.1.context == ToStr(Get(options, "context")) && r.value.1.model == Get(options, "model")
    ensures r.Ok? ==> r.value.1.controller == (if Truthy(Get(options, "controller")) then Get(options, "controller") else env.root)
  {
    if !ValidTemplate(st, template) then Err(TemplateInvalid)
    else if !Truthy(options) || !Truthy(Get(options, "context")) || !Truthy(Get(options, "model")) then Err(OptionsInvalid)
    else
      var ctrl := if Truthy(Get(options, "controller")) then Get(options, "controller") else env.root;
      Ok(ViewBind(env, st, template.ref, ToStr(Get(options, "context")), Get(options, "model"), ctrl))
  }
}

=== FILE: mnster_proofs.dfy ===
/** Properties of the `mnster` binder that relate several operations or several calls. */
module MnsterProofs {
  import opened Wrappers
  import opened JsStrings
  import opened JsValues
  import opened Dom
  import opened BindingNames
  import opened Mnster
  import opened Sequences
  import opened DomProofs

  // ----- the resolver -----

  /** Step `k` of a walk along `segs` reaches an undefined or null property. */
  predicate BlockedAt(v: Value, segs: seq<string>, k: nat)
    requires k < |segs|
  {
    Walk(v, segs[..k]).Some? && (Get(Walk(v, segs[..k]).value, segs[k]).Undefined? || Get(Walk(v, segs[..k]).value, segs[k]).Null?)
  }

  lemma {:induction false} WalkNoneIff(v: Value, segs: seq<string>)
    ensures Walk(v, segs).None? <==> exists k: nat :: k < |segs| && BlockedAt(v, segs, k)
    decreases |segs|
  {
    if |segs| > 0 {
      assert segs[..0] == [];
      var w := Get(v, segs[0]);
      if !(w.Undefined? || w.Null?) {
        WalkNoneIff(w, segs[1..]);
        forall k: nat | 0 < k < |segs|
          ensures BlockedAt(v, segs, k) <==> BlockedAt(w, segs[1..], k - 1)
        {
          assert segs[..k][0] == segs[0] && segs[..k][1..] == segs[1..][..k - 1];
          assert segs[1..][k - 1] == segs[k];
        }
        if Walk(v, segs).None? {
          var j: nat :| j < |segs[1..]| && BlockedAt(w, segs[1..], j);
          assert BlockedAt(v, segs, j + 1);
        }
      } else {
        assert BlockedAt(v, segs, 0);
      }
    }
  }

  /**
    The resolver answers `null` exactly when some step of the path reaches an
    undefined or null property; otherwise it answers the value reached.
   */
  lemma ResolveNullIff(scope: Value, path: string)
    ensures Resolve(scope, path).Null? <==> exists k: nat :: k < |Split(path, '.')| && BlockedAt(scope, Split(path, '.'), k)
    ensures !Resolve(scope, path).Null? ==> Resolve(scope, path) == Walk(scope, Split(path, '.')).value
  {
    var segs := Split(path, '.');
    WalkNoneIff(scope, segs);
    if Resolve(scope, path).Null? {
      var k: nat :| k < |segs| && BlockedAt(scope, segs, k);
      assert k < |Split(path, '.')| && BlockedAt(scope, Split(path, '.'), k);
    }
  }

  /** Resolving `p.q` resolves `p`, then `q` from there. */
  lemma ResolveComposes(scope: Value, p: string, q: string)
    ensures Resolve(scope, p + "." + q) == (if Resolve(scope, p).Null? then Null else Resolve(Resolve(scope, p), q))
  {
    assert p + "." + q == p + ['.'] + q;
    SplitConcat(p, q, '.');
    WalkAppend(scope, Split(p, '.'), Split(q, '.'));
  }

  /** A context without dots names the model itself, which resolves unless it is undefined or null. */
  lemma ResolveContext(ctx: string, model: Value)
    requires '.' !in ctx
    ensures Resolve(Scope(ctx, model), ctx) == (if model.Undefined? || model.Null? then Null else model)
  {
    assert Split(ctx, '.') == [ctx];
    assert Get(Scope(ctx, model), ctx) == model;
    assert Walk(model, [ctx][1..]) == Some(model);
  }

  /** Numeric keys address array elements: `ctx.k` resolves to element `k` of an array model. */
  lemma ResolveArrayIndex(ctx: string, xs: seq<Value>, n: nat)
    requires '.' !in ctx && n < |xs|
    ensures Resolve(Scope(ctx, Arr(xs)), ctx + "." + NatToStr(n)) == (if xs[n].Undefined? || xs[n].Null? then Null else xs[n])
  {
    ResolveComposes(Scope(ctx, Arr(xs)), ctx, NatToStr(n));
    ResolveContext(ctx, Arr(xs));
    ArrayIndexKey(xs, n);
    assert '.' !in NatToStr(n) by {
      assert forall k :: 0 <= k < |NatToStr(n)| ==> IsDigit(NatToStr(n)[k]);
    }
    assert Split(NatToStr(n), '.') == [NatToStr(n)];
    assert Walk(xs[n], [NatToStr(n)][1..]) == Some(xs[n]);
    assert Resolve(Arr(xs), NatToStr(n)) == (if xs[n].Undefined? || xs[n].Null? then Null else xs[n]);
  }

  // ----- the registry -----

  /** Registering a name that is already bound fails and leaves the registry as it was. */
  lemma RegisterTwiceFails(reg: Registry, name: string, f: nat, g: nat)
    requires Register(reg, Str(name), Fn(f)).Ok?
    ensures Register(Register(reg, Str(name), Fn(f)).value, Str(name), Fn(g)) == Err(AlreadyBound)
  {
  }

  /** After `clean`, the name can be registered again, with the new handler. */
  lemma CleanThenRegister(reg: Registry, name: string, g: nat)
    ensures Clean(reg, Str(name)).Ok?
    ensures Register(Clean(reg, Str(name)).value, Str(name), Fn(g)).Ok?
    ensures Register(Clean(reg, Str(name)).value, Str(name), Fn(g)).value[name] == Some(Custom(g))
  {
  }

  /** Register followed by clean leaves every other name as it was and this one inactive. */
  lemma RegisterThenClean(reg: Registry, name: string, f: nat)
    requires !Active(reg, name)
    ensures Register(reg, Str(name), Fn(f)).Ok?
    ensures Clean(Register(reg, Str(name), Fn(f)).value, Str(name)).Ok?
    ensures forall n :: Active(Clean(Register(reg, Str(name), Fn(f)).value, Str(name)).value, n) <==> Active(reg, n)
  {
  }

  /** An attribute whose type has been cleaned is never dispatched. */
  lemma CleanedNeverDispatched(env: Env, st: State, r: Ref, a: Attr, scope: Value, ctrl: Value)
    requires Clean(env.reg, Str(BindingType(a.name))).Ok?
    ensures Invoke(env.(reg := Clean(env.reg, Str(BindingType(a.name))).value), st, r, a, scope, ctrl) == st
  {
  }

  // ----- the scan -----

  /** A user handler that does not throw. */
  predicate QuietCustom(env: Env, a: Attr) {
    && HasPrefix(a.name) && Active(env.reg, BindingType(a.name))
    && env.reg[BindingType(a.name)].value.Custom?
    && env.reg[BindingType(a.name)].value.id !in env.failing
  }

  /** The call a user handler records for attribute `a` of node `r`. */
  function CallFor(env: Env, r: Ref, a: Attr, scope: Value, ctrl: Value): Event {
    var id := if QuietCustom(env, a) then env.reg[BindingType(a.name)].value.id else 0;
    Called(id, r, a.name, a.value, Resolve(scope, a.value), ctrl)
  }

  /** The calls recorded for the attributes `attrs` of node `r`, in the order listed. */
  function AttrCalls(env: Env, r: Ref, attrs: seq<Attr>, scope: Value, ctrl: Value): seq<Event> {
    if |attrs| == 0 then [] else [CallFor(env, r, attrs[0], scope, ctrl)] + AttrCalls(env, r, attrs[1..], scope, ctrl)
  }

  lemma InvokeQuiet(env: Env, st: State, r: Ref, a: Attr, scope: Value, ctrl: Value)
    requires r < |st.dom| && QuietCustom(env, a)
    ensures Invoke(env, st, r, a, scope, ctrl) == st.(log := st.log + [CallFor(env, r, a, scope, ctrl)])
  {
  }

  /** Every attribute of node `n` is bound to a user handler that does not throw. */
  predicate AllQuiet(env: Env, h: Heap, n: Ref) {
    n < |h| && forall j :: 0 <= j < |h[n].attrs| ==> QuietCustom(env, h[n].attrs[j])
  }

  /** One step of the attribute loop over a quiet user binding: just the recorded call. */
  lemma BindAttrsQuietStep(env: Env, st: State, r: Ref, k: nat, scope: Value, ctrl: Value)
    requires AllQuiet(env, st.dom, r) && 0 < k <= |st.dom[r].attrs|
    ensures BindAttrs(env, st, r, k, scope, ctrl)
         == BindAttrs(env, st.(log := st.log + [CallFor(env, r, st.dom[r].attrs[k - 1], scope, ctrl)]), r, k - 1, scope, ctrl)
  {
    InvokeQuiet(env, st, r, st.dom[r].attrs[k - 1], scope, ctrl);
  }

  lemma AttrCallsCons(env: Env, r: Ref, a: Attr, rest: seq<Attr>, scope: Value, ctrl: Value)
    ensures AttrCalls(env, r, [a] + rest, scope, ctrl) == [CallFor(env, r, a, scope, ctrl)] + AttrCalls(env, r, rest, scope, ctrl)
  {
    assert ([a] + rest)[1..] == rest;
  }

  /** The state after the quiet call for attribute `k - 1` of node `r` has been recorded. */
  function AfterAttr(env: Env, st: State, r: Ref, k: nat, scope: Value, ctrl: Value): (s: State)
    requires r < |st.dom| && 0 < k <= |st.dom[r].attrs|
    ensures s.dom == st.dom
  {
    st.(log := st.log + [CallFor(env, r, st.dom[r].attrs[k - 1], scope, ctrl)])
  }

  /** The inductive step of `AttributesLastFirst`, given the claim for the remaining attributes. */
  lemma AttributesLastFirstStep(env: Env, st: State, st1: State, r: Ref, k: nat, scope: Value, ctrl: Value)
    requires AllQuiet(env, st.dom, r) && 0 < k <= |st.dom[r].attrs|
    requires st1 == AfterAttr(env, st, r, k, scope, ctrl)
    requires BindAttrs(env, st1, r, k - 1, scope, ctrl) ==
             State(st1.dom, st1.log + AttrCalls(env, r, Reversed(st1.dom[r].attrs[..k - 1]), scope, ctrl))
    ensures BindAttrs(env, st, r, k, scope, ctrl) ==
            State(st.dom, st.log + AttrCalls(env, r, Reversed(st.dom[r].attrs[..k]), scope, ctrl))
  {
    var attrs := st.dom[r].attrs;
    var rest := Reversed(attrs[..k - 1]);
    var call := CallFor(env, r, attrs[k - 1], scope, ctrl);
    BindAttrsQuietStep(env, st, r, k, scope, ctrl);
    ReversedLast(attrs, k);
    AttrCallsCons(env, r, attrs[k - 1], rest, scope, ctrl);
    AppendAssoc(st.log, [call], AttrCalls(env, r, rest, scope, ctrl));
  }

  /** The attributes of a node are dispatched last first, each exactly once. */
  lemma {:induction false} AttributesLastFirst(env: Env, st: State, r: Ref, k: nat, scope: Value, ctrl: Value)
    requires AllQuiet(env, st.dom, r) && k <= |st.dom[r].attrs|
    ensures BindAttrs(env, st, r, k, scope, ctrl) ==
            State(st.dom, st.log + AttrCalls(env, r, Reversed(st.dom[r].attrs[..k]), scope, ctrl))
    decreases k
  {
    if k > 0 {
      var st1 := AfterAttr(env, st, r, k, scope, ctrl);
      AttributesLastFirst(env, st1, r, k - 1, scope, ctrl);
      AttributesLastFirstStep(env, st, st1, r, k, scope, ctrl);
    } else {
      assert st.dom[r].attrs[..k] == [];
      assert st.log + [] == st.log;
    }
  }

  /** The calls recorded for the nodes in `order`, each node's attributes last first. */
  function NodeCalls(env: Env, h: Heap, order: seq<Ref>, scope: Value, ctrl: Value): seq<Event> {
    if |order| == 0 then []
    else
      var first := if order[0] < |h| then AttrCalls(env, order[0], Reversed(h[order[0]].attrs), scope, ctrl) else [];
      first + NodeCalls(env, h, order[1..], scope, ctrl)
  }

  /** A node whose attributes are all quiet only records their calls, the last attribute first. */
  lemma BindNodeQuiet(env: Env, st: State, n: Ref, scope: Value, ctrl: Value)
    requires AllQuiet(env, st.dom, n)
    ensures BindNode(env, st, n, scope, ctrl) == st.(log := st.log + AttrCalls(env, n, Reversed(st.dom[n].attrs), scope, ctrl))
  {
    var attrs := st.dom[n].attrs;
    AttributesLastFirst(env, st, n, |attrs|, scope, ctrl);
    assert attrs[..|attrs|] == attrs;
  }

  lemma NodeCallsLast(env: Env, h: Heap, nodes: seq<Ref>, scope: Value, ctrl: Value)
    requires |nodes| > 0 && nodes[|nodes| - 1] < |h|
    ensures NodeCalls(env, h, Reversed(nodes), scope, ctrl)
         == AttrCalls(env, nodes[|nodes| - 1], Reversed(h[nodes[|nodes| - 1]].attrs), scope, ctrl)
            + NodeCalls(env, h, Reversed(nodes[..|nodes| - 1]), scope, ctrl)
  {
    var n := nodes[|nodes| - 1];
    var init := nodes[..|nodes| - 1];
    assert Reversed(nodes) == [n] + Reversed(init);
    assert ([n] + Reversed(init))[1..] == Reversed(init);
  }

  /** The state after binding the last node of a quiet list: only its calls are added. */
  function AfterLast(env: Env, st: State, nodes: seq<Ref>, scope: Value, ctrl: Value): (s: State)
    requires |nodes| > 0 && nodes[|nodes| - 1] < |st.dom|
    ensures s.dom == st.dom
  {
    var n := nodes[|nodes| - 1];
    st.(log := st.log + AttrCalls(env, n, Reversed(st.dom[n].attrs), scope, ctrl))
  }

  /** The inductive step of `NodesLastFirst`, given the claim for the remaining nodes. */
  lemma NodesLastFirstStep(env: Env, st: State, st1: State, nodes: seq<Ref>, scope: Value, ctrl: Value)
    requires |nodes| > 0
    requires forall k :: 0 <= k < |nodes| ==> AllQuiet(env, st.dom, nodes[k])
    requires AllQuiet(env, st.dom, nodes[|nodes| - 1])
    requires st1 == AfterLast(env, st, nodes, scope, ctrl)
    requires BindAll(env, st1, nodes[..|nodes| - 1], scope, ctrl).dom == st1.dom
    requires BindAll(env, st1, nodes[..|nodes| - 1], scope, ctrl).log == st1.log + NodeCalls(env, st1.dom, Reversed(nodes[..|nodes| - 1]), scope, ctrl)
    ensures BindAll(env, st, nodes, scope, ctrl).dom == st.dom
    ensures BindAll(env, st, nodes, scope, ctrl).log == st.log + NodeCalls(env, st.dom, Reversed(nodes), scope, ctrl)
  {
    var n := nodes[|nodes| - 1];
    BindNodeQuiet(env, st, n, scope, ctrl);
    NodeCallsLast(env, st.dom, nodes, scope, ctrl);
    AppendAssoc(st.log, AttrCalls(env, n, Reversed(st.dom[n].attrs), scope, ctrl),
                NodeCalls(env, st.dom, Reversed(nodes[..|nodes| - 1]), scope, ctrl));
  }

  /** The captured list is bound last first, every node exactly once. */
  lemma {:induction false} NodesLastFirst(env: Env, st: State, nodes: seq<Ref>, scope: Value, ctrl: Value)
    requires forall k :: 0 <= k < |nodes| ==> AllQuiet(env, st.dom, nodes[k])
    ensures BindAll(env, st, nodes, scope, ctrl).dom == st.dom
    ensures BindAll(env, st, nodes, scope, ctrl).log == st.log + NodeCalls(env, st.dom, Reversed(nodes), scope, ctrl)
    decreases |nodes|
  {
    if |nodes| > 0 {
      assert AllQuiet(env, st.dom, nodes[|nodes| - 1]);
      var st1 := AfterLast(env, st, nodes, scope, ctrl);
      NodesLastFirst(env, st1, nodes[..|nodes| - 1], scope, ctrl);
      NodesLastFirstStep(env, st, st1, nodes, scope, ctrl);
    }
  }

  /**
    With every binding of the template and of its descendants quiet, a
    view leaves the document as it was and records the template's calls,
    then each captured node's from the last to the first, each node's
    attributes the last first.
   */
  lemma ViewBindQuietLog(env: Env, st: State, t: Ref, ctx: string, model: Value, ctrl: Value)
    requires AllQuiet(env, st.dom, t)
    requires forall k :: 0 <= k < |Descendants(st.dom, t)| ==> AllQuiet(env, st.dom, Descendants(st.dom, t)[k])
    ensures ViewBind(env, st, t, ctx, model, ctrl).0.dom == st.dom
    ensures ViewBind(env, st, t, ctx, model, ctrl).0.log
            == st.log + NodeCalls(env, st.dom, [t] + Reversed(Descendants(st.dom, t)), Scope(ctx, model), ctrl)
  {
    var scope := Scope(ctx, model);
    var nodes := Descendants(st.dom, t);
    BindNodeQuiet(env, st, t, scope, ctrl);
    var calls := AttrCalls(env, t, Reversed(st.dom[t].attrs), scope, ctrl);
    var st1 := st.(log := st.log + calls);
    NodesLastFirst(env, st1, nodes, scope, ctrl);
    assert ([t] + Reversed(nodes))[1..] == Reversed(nodes);
    assert NodeCalls(env, st.dom, [t] + Reversed(nodes), scope, ctrl) == calls + NodeCalls(env, st.dom, Reversed(nodes), scope, ctrl);
    AppendAssoc(st.log, calls, NodeCalls(env, st.dom, Reversed(nodes), scope, ctrl));
  }

  /** Creating a view and then calling `update` on an unchanged document runs the same pass twice. */
  lemma CreationIsFirstUpdate(env: Env, st: State, t: Ref, ctx: string, model: Value, ctrl: Value)
    ensures ViewBind(env, st, t, ctx, model, ctrl).0 == Update(env, st, ViewBind(env, st, t, ctx, model, ctrl).1)
  {
  }

  lemma SliceLeft<T>(a: seq<T>, b: seq<T>, i: nat, j: nat)
    requires i <= j <= |a|
    ensures (a + b)[i..j] == a[i..j]
  {
  }

  lemma SliceRight<T>(a: seq<T>, b: seq<T>, i: nat, j: nat)
    requires |a| <= i <= j <= |a| + |b|
    ensures (a + b)[i..j] == b[i - |a|..j - |a|]
  {
  }

  /**
    In the captured list, the descendants of the node at position `k` come
    right after it; scanned last first, they are all bound before it.
   */
  lemma {:induction false} DescendantsFollow(h: Heap, t: Ref, k: nat)
    requires k < |Descendants(h, t)|
    ensures k + 1 + |Descendants(h, Descendants(h, t)[k])| <= |Descendants(h, t)|
    ensures Descendants(h, t)[k + 1..k + 1 + |Descendants(h, Descendants(h, t)[k])|] == Descendants(h, Descendants(h, t)[k])
    decreases |h| - t, 1, 0
  {
    KidsDescendantsFollow(h, t, h[t].children, k);
  }

  lemma {:induction false} KidsDescendantsFollow(h: Heap, p: Ref, kids: seq<Child>, k: nat)
    requires k < |DescendantsOfKids(h, p, kids)|
    ensures var ds := DescendantsOfKids(h, p, kids);
            k + 1 + |Descendants(h, ds[k])| <= |ds| && ds[k + 1..k + 1 + |Descendants(h, ds[k])|] == Descendants(h, ds[k])
    decreases |h| - p, 0, |kids|
  {
    var block := KidBlock(h, p, kids[0]);
    var rest := DescendantsOfKids(h, p, kids[1..]);
    if k < |block| {
      BlockDescendantsFollow(h, p, kids[0], k);
      SliceLeft(block, rest, k + 1, k + 1 + |Descendants(h, block[k])|);
    } else {
      KidsDescendantsFollow(h, p, kids[1..], k - |block|);
      SliceRight(block, rest, k + 1, k + 1 + |Descendants(h, rest[k - |block|])|);
    }
  }

  lemma {:induction false} BlockDescendantsFollow(h: Heap, p: Ref, kid: Child, k: nat)
    requires k < |KidBlock(h, p, kid)|
    ensures var ds := KidBlock(h, p, kid);
            k + 1 + |Descendants(h, ds[k])| <= |ds| && ds[k + 1..k + 1 + |Descendants(h, ds[k])|] == Descendants(h, ds[k])
    decreases |h| - p, 0, 0
  {
    var c := kid.ref;
    var ds := [c] + Descendants(h, c);
    if k > 0 {
      DescendantsFollow(h, c, k - 1);
      SliceRight([c], Descendants(h, c), k + 1, k + 1 + |Descendants(h, ds[k])|);
    } else {
      assert ds[1..1 + |Descendants(h, c)|] == Descendants(h, c);
    }
  }

  // ----- exception isolation -----

  /** Two environments that differ at most in which user handlers throw. */
  predicate SameBindings(e1: Env, e2: Env) {
    e1.reg == e2.reg && e1.root == e2.root
  }

  /**
    A throwing handler is caught: whichever user handlers throw, the
    document comes out of a view's creation the same.
   */
  lemma {:induction false} ViewBindIsolated(e1: Env, e2: Env, s1: State, s2: State, t: Ref, ctx: string, model: Value, ctrl: Value)
    requires SameBindings(e1, e2) && s1.dom == s2.dom
    ensures ViewBind(e1, s1, t, ctx, model, ctrl).0.dom == ViewBind(e2, s2, t, ctx, model, ctrl).0.dom
    decreases Size(Scope(ctx, model)), 4, 0, 0
  {
    var scope := Scope(ctx, model);
    BindNodeIsolated(e1, e2, s1, s2, t, scope, ctrl);
    BindAllIsolated(e1, e2, BindNode(e1, s1, t, scope, ctrl), BindNode(e2, s2, t, scope, ctrl),
                    Descendants(s1.dom, t), scope, ctrl);
  }

  lemma {:induction false} BindAllIsolated(e1: Env, e2: Env, s1: State, s2: State, nodes: seq<Ref>, scope: Value, ctrl: Value)
    requires SameBindings(e1, e2) && s1.dom == s2.dom
    ensures BindAll(e1, s1, nodes, scope, ctrl).dom == BindAll(e2, s2, nodes, scope, ctrl).dom
    decreases Size(scope), 3, |nodes|, 0
  {
    if |nodes| > 0 {
      var n := nodes[|nodes| - 1];
      BindNodeIsolated(e1, e2, s1, s2, n, scope, ctrl);
      BindAllIsolated(e1, e2, BindNode(e1, s1, n, scope, ctrl), BindNode(e2, s2, n, scope, ctrl),
                      nodes[..|nodes| - 1], scope, ctrl);
    }
  }

  lemma {:induction false} BindNodeIsolated(e1: Env, e2: Env, s1: State, s2: State, r: Ref, scope: Value, ctrl: Value)
    requires SameBindings(e1, e2) && s1.dom == s2.dom
    ensures BindNode(e1, s1, r, scope, ctrl).dom == BindNode(e2, s2, r, scope, ctrl).dom
    decreases Size(scope), 2, 0, 0
  {
    if r < |s1.dom| {
      BindAttrsIsolated(e1, e2, s1, s2, r, |s1.dom[r].attrs|, scope, ctrl);
    }
  }

  lemma {:induction false} BindAttrsIsolated(e1: Env, e2: Env, s1: State, s2: State, r: Ref, k: nat, scope: Value, ctrl: Value)
    requires SameBindings(e1, e2) && s1.dom == s2.dom
    ensures BindAttrs(e1, s1, r, k, scope, ctrl).dom == BindAttrs(e2, s2, r, k, scope, ctrl).dom
    decreases Size(scope), 1, k, 0
  {
    if k > 0 {
      var t1 := s1;
      var t2 := s2;
      if r < |s1.dom| && k - 1 < |s1.dom[r].attrs| {
        var a := s1.dom[r].attrs[k - 1];
        InvokeIsolated(e1, e2, s1, s2, r, a, scope, ctrl);
        t1 := Invoke(e1, s1, r, a, scope, ctrl);
        t2 := Invoke(e2, s2, r, a, scope, ctrl);
      }
      BindAttrsIsolated(e1, e2, t1, t2, r, k - 1, scope, ctrl);
    }
  }

  lemma {:induction false} InvokeIsolated(e1: Env, e2: Env, s1: State, s2: State, r: Ref, a: Attr, scope: Value, ctrl: Value)
    requires SameBindings(e1, e2) && s1.dom == s2.dom
    ensures Invoke(e1, s1, r, a, scope, ctrl).dom == Invoke(e2, s2, r, a, scope, ctrl).dom
    decreases Size(scope), 0, 2, 0
  {
    var kind := BindingType(a.name);
    if r < |s1.dom| && HasPrefix(a.name) && Active(e1.reg, kind) {
      if e1.reg[kind].value.Each? {
        EachHandlerIsolated(e1, e2, s1, s2, r, a, scope);
      } else {
        HandlerIsolated(e1, e2, s1, s2, r, a, scope, ctrl);
      }
    }
  }

  /** A handler other than `each` writes the same element whichever user handlers throw. */
  lemma HandlerIsolated(e1: Env, e2: Env, s1: State, s2: State, r: Ref, a: Attr, scope: Value, ctrl: Value)
    requires SameBindings(e1, e2) && s1.dom == s2.dom
    requires r < |s1.dom| && HasPrefix(a.name) && Active(e1.reg, BindingType(a.name))
    requires !e1.reg[BindingType(a.name)].value.Each?
    ensures Invoke(e1, s1, r, a, scope, ctrl).dom == Invoke(e2, s2, r, a, scope, ctrl).dom
  {
    if e1.reg[BindingType(a.name)].value.Custom? {
      CustomCallKeepsDom(e1, s1, r, a, scope, ctrl);
      CustomCallKeepsDom(e2, s2, r, a, scope, ctrl);
    } else {
      BuiltinCommits(e1, s1, r, a, scope, ctrl);
      BuiltinCommits(e2, s2, r, a, scope, ctrl);
    }
  }

  /** A user handler leaves the document alone. */
  lemma CustomCallKeepsDom(env: Env, st: State, r: Ref, a: Attr, scope: Value, ctrl: Value)
    requires r < |st.dom| && HasPrefix(a.name) && Active(env.reg, BindingType(a.name))
    requires env.reg[BindingType(a.name)].value.Custom?
    ensures Invoke(env, st, r, a, scope, ctrl).dom == st.dom
  {
    var id := env.reg[BindingType(a.name)].value.id;
    assert Invoke(env, st, r, a, scope, ctrl) == CallCustom(env, st, r, id, a, Resolve(scope, a.value), ctrl);
  }

  /** A built-in handler other than `each` commits what it makes of the element. */
  lemma BuiltinCommits(env: Env, st: State, r: Ref, a: Attr, scope: Value, ctrl: Value)
    requires r < |st.dom| && HasPrefix(a.name) && Active(env.reg, BindingType(a.name))
    requires !env.reg[BindingType(a.name)].value.Each? && !env.reg[BindingType(a.name)].value.Custom?
    ensures var h := env.reg[BindingType(a.name)].value;
            Invoke(env, st, r, a, scope, ctrl).dom == Commit(st, r, Builtin(h, st.dom[r], a, Resolve(scope, a.value), ctrl)).dom
  {
  }

  lemma {:induction false} EachHandlerIsolated(e1: Env, e2: Env, s1: State, s2: State, r: Ref, a: Attr, scope: Value)
    requires SameBindings(e1, e2) && s1.dom == s2.dom
    ensures EachHandler(e1, s1, r, a, scope).dom == EachHandler(e2, s2, r, a, scope).dom
    decreases Size(scope), 0, 1, 0
  {
    if r < |s1.dom| {
      var data := Resolve(scope, a.value);
      var cache := EachTemplate(s1.dom, r);
      var dom1 := s1.dom[r := s1.dom[r].(cache := Some(cache), children := [])];
      ItemsSmaller(data);
      EachItemsIsolated(e1, e2, s1.(dom := dom1), s2.(dom := dom1), r, ReplaceFirst(a.name, "mns-each-"), Items(data), cache, scope);
    }
  }

  lemma {:induction false} EachItemsIsolated(e1: Env, e2: Env, s1: State, s2: State, r: Ref, ctx: string,
                                             items: seq<Value>, cache: seq<Markup>, scope: Value)
    requires forall k :: 0 <= k < |items| ==> Size(items[k]) + 4 <= Size(scope)
    requires SameBindings(e1, e2) && s1.dom == s2.dom
    ensures EachItems(e1, s1, r, ctx, items, cache, scope).dom == EachItems(e2, s2, r, ctx, items, cache, scope).dom
    decreases Size(scope), 0, 0, |items| + 1
  {
    if |items| > 0 && r < |s1.dom| {
      EachItemIsolated(e1, e2, s1, s2, r, ctx, items[0], cache, scope);
      EachItemsIsolated(e1, e2, EachItem(e1, s1, r, ctx, items[0], cache, scope), EachItem(e2, s2, r, ctx, items[0], cache, scope),
                        r, ctx, items[1..], cache, scope);
    }
  }

  lemma {:induction false} EachItemIsolated(e1: Env, e2: Env, s1: State, s2: State, r: Ref, ctx: string,
                                            item: Value, cache: seq<Markup>, scope: Value)
    requires r < |s1.dom| && Size(item) + 4 <= Size(scope)
    requires SameBindings(e1, e2) && s1.dom == s2.dom
    ensures EachItem(e1, s1, r, ctx, item, cache, scope).dom == EachItem(e2, s2, r, ctx, item, cache, scope).dom
    decreases Size(scope), 0, 0, 1
  {
    ItemViewIsolated(e1, e2, s1, s2, ctx, item, cache, scope);
  }

  lemma {:induction false} ItemViewIsolated(e1: Env, e2: Env, s1: State, s2: State, ctx: string,
                                            item: Value, cache: seq<Markup>, scope: Value)
    requires Size(item) + 4 <= Size(scope)
    requires SameBindings(e1, e2) && s1.dom == s2.dom
    ensures ItemView(e1, s1, ctx, item, cache, scope).dom == ItemView(e2, s2, ctx, item, cache, scope).dom
    decreases Size(scope), 0, 0, 0
  {
    var (dom1, t) := NewDiv(s1.dom, cache);
    var model := ItemModel(item);
    assert Size(model) + 2 <= Size(scope) by {
      SizePositive(item);
      assert Size(Obj([])) == 2;
    }
    ScopeSize(ctx, model);
    ViewBindIsolated(e1, e2, s1.(dom := dom1), s2.(dom := dom1), t, ctx, model, e1.root);
  }

  // ----- the built-in handlers -----

  /** `show` and `hide` always disagree on the same value. */
  lemma ShowHideOpposite(e: Element, data: Value)
    ensures ShowBinding(e, data).display != HideBinding(e, data).display
  {
  }

  /** Binding `on` twice attaches the listener once. */
  lemma OnIdempotent(e: Element, name: string, raw: string, ctrl: Value)
    ensures OnBinding(e, name, raw, ctrl).Ok? ==>
              OnBinding(OnBinding(e, name, raw, ctrl).value, name, raw, ctrl) == OnBinding(e, name, raw, ctrl)
  {
  }

  /**
    Without a controller (a view whose `root` is `undefined` or `null`),
    an `on` attribute throws, and the error is logged with the document kept.
   */
  lemma OnWithoutControllerLogs(env: Env, st: State, r: Ref, a: Attr, scope: Value, ctrl: Value)
    requires r < |st.dom| && HasPrefix(a.name) && Active(env.reg, BindingType(a.name))
    requires env.reg[BindingType(a.name)].value.On?
    requires ctrl.Undefined? || ctrl.Null?
    ensures Invoke(env, st, r, a, scope, ctrl) == st.(log := st.log + [Logged(TypeError("the controller is undefined"))])
  {
  }

  /** Falsy primitives other than `null` render as text: `0` as `"0"`, `false` as `"false"`, `''` as nothing. */
  lemma TextOfFalsyValues(e: Element)
    ensures TextOf(TextBinding(e, Int(0))) == "0"
    ensures TextOf(TextBinding(e, Bool(false))) == "false"
    ensures TextOf(TextBinding(e, Null)) == ""
    ensures TextOf(TextBinding(e, Str(""))) == ""
  {
    assert NatToStr(0) == "0";
  }

  /** `each` over `[]`, `{}` or a path that does not resolve leaves the host empty. */
  lemma EachOfNothingIsEmpty(env: Env, st: State, r: Ref, a: Attr, scope: Value)
    requires r < |st.dom|
    requires Resolve(scope, a.value) in {Null, Arr([]), Obj([])}
    ensures EachHandler(env, st, r, a, scope).dom[r].children == []
  {
  }

  /** A second `each` pass reuses the template cached by the first, whatever the host holds by then. */
  lemma EachCachesOnce(env: Env, st: State, r: Ref, a: Attr, scope: Value, st': State)
    requires r < |st.dom|
    requires |st'.dom| > r && st'.dom[r].cache == EachHandler(env, st, r, a, scope).dom[r].cache
    ensures EachTemplate(st'.dom, r) == EachTemplate(st.dom, r)
  {
  }

  // ----- each, entry by entry -----

  /** The content `innerHTML = s` leaves, as markup. */
  function TextKids(s: string): seq<Markup> {
    if s == "" then [] else [MText(s)]
  }

  /** What `text` shows for a resolved value. */
  function Shown(d: Value): string {
    if d.Null? then "" else ToStr(d)
  }

  /** The only attribute of the template is a `text` binding with a built-in handler. */
  predicate TextBound(env: Env, a: Attr) {
    HasPrefix(a.name) && Active(env.reg, BindingType(a.name)) && env.reg[BindingType(a.name)].value == Text
  }

  /** What entry `item` leaves in the host for the one-element template `<tag a>`: the element showing its text. */
  function Row(tag: string, a: Attr, d: Display, cls: seq<string>, ctx: string, item: Value): Markup {
    MElement(tag, [a], d, cls, TextKids(Shown(Resolve(Scope(ctx, ItemModel(item)), a.value))))
  }

  function Rows(tag: string, a: Attr, d: Display, cls: seq<string>, ctx: string, items: seq<Value>): (rows: seq<Markup>)
    ensures |rows| == |items|
  {
    seq(|items|, k requires 0 <= k < |items| => Row(tag, a, d, cls, ctx, items[k]))
  }

  /**
    A view of a template `t` without attributes whose only descendant is an
    element carrying one built-in `text` binding: just that element's text
    is set.
   */
  lemma LeafViewBind(env: Env, st: State, t: Ref, a: Attr, ctx: string, model: Value)
    requires t + 1 < |st.dom| && st.dom[t].attrs == [] && Descendants(st.dom, t) == [t + 1]
    requires st.dom[t + 1].attrs == [a] && TextBound(env, a)
    ensures ViewBind(env, st, t, ctx, model, env.root).0.dom
            == st.dom[t + 1 := TextBinding(st.dom[t + 1], Resolve(Scope(ctx, model), a.value))]
  {
    var scope := Scope(ctx, model);
    var s1 := st.(dom := st.dom[t + 1 := TextBinding(st.dom[t + 1], Resolve(scope, a.value))]);
    assert Invoke(env, st, t + 1, a, scope, env.root) == s1;
    assert BindAttrs(env, s1, t + 1, 0, scope, env.root) == s1;
    assert BindNode(env, st, t + 1, scope, env.root) == s1;
    assert BindAll(env, st, [t + 1], scope, env.root) == BindAll(env, s1, [], scope, env.root);
  }

  /** Binding the template element of a new `div` against entry `item`: the div then shows that entry's row. */
  lemma ItemViewRow(env: Env, st: State, ctx: string, item: Value, tag: string, a: Attr, d: Display, cls: seq<string>, scope: Value)
    requires Size(item) + 4 <= Size(scope) && TextBound(env, a)
    ensures var st' := ItemView(env, st, ctx, item, [MElement(tag, [a], d, cls, [])], scope);
            SerializeKids(st'.dom, |st.dom|, st'.dom[|st.dom|].children) == [Row(tag, a, d, cls, ctx, item)]
  {
    var leaf := MElement(tag, [a], d, cls, []);
    var t := |st.dom|;
    NewDivLeaf(st.dom, tag, [a], d, cls);
    var (dom1, _) := NewDiv(st.dom, [leaf]);
    var data := Resolve(Scope(ctx, ItemModel(item)), a.value);
    LeafViewBind(env, st.(dom := dom1), t, a, ctx, ItemModel(item));
    var h := dom1[t + 1 := TextBinding(dom1[t + 1], data)];
    assert ItemView(env, st, ctx, item, [leaf], scope).dom == h;
    assert SerializeKids(h, t + 1, h[t + 1].children) == TextKids(Shown(data));
    assert SerializeKids(h, t, [ElementNode(t + 1)]) == [Serialize(h, t + 1)] + SerializeKids(h, t, []);
  }

  /** The parsed markup of a row: an element whose content is at most one non-empty text. */
  lemma RowParsed(tag: string, a: Attr, d: Display, cls: seq<string>, ctx: string, item: Value)
    ensures Row(tag, a, d, cls, ctx, item).MElement? && Parsed(Row(tag, a, d, cls, ctx, item).kids)
  {
    var s := Shown(Resolve(Scope(ctx, ItemModel(item)), a.value));
    assert s != "" ==> [MText(s)][1..] == [];
  }

  /** An entry's step: the host's content gets the new div's content appended. */
  lemma EachItemAppends(env: Env, st: State, r: Ref, ctx: string, item: Value, cache: seq<Markup>, scope: Value)
    requires r < |st.dom| && Size(item) + 4 <= Size(scope)
    ensures EachItem(env, st, r, ctx, item, cache, scope).dom == AppendHtml(ItemView(env, st, ctx, item, cache, scope).dom, r, |st.dom|)
  {
  }

  /**
    One entry appends its row: the host's content is serialised with the
    new div's content after it and parsed back, which leaves the rows as
    they were, and the host's children are fresh nodes again.
   */
  lemma EachItemRow(env: Env, st: State, r: Ref, ctx: string, item: Value, tag: string, a: Attr, d: Display, cls: seq<string>,
                    scope: Value, lo: nat, rows: seq<Markup>)
    requires HostShows(st.dom, r, lo, rows) && ParsedElements(rows)
    requires Size(item) + 4 <= Size(scope) && TextBound(env, a)
    ensures var leaf := MElement(tag, [a], d, cls, []);
            HostShows(EachItem(env, st, r, ctx, item, [leaf], scope).dom, r,
                      |ItemView(env, st, ctx, item, [leaf], scope).dom|, rows + [Row(tag, a, d, cls, ctx, item)])
  {
    var leaf := MElement(tag, [a], d, cls, []);
    var st2 := ItemView(env, st, ctx, item, [leaf], scope);
    ItemViewRow(env, st, ctx, item, tag, a, d, cls, scope);
    RowParsed(tag, a, d, cls, ctx, item);
    RowAppended(st.dom, st2.dom, r, lo, rows, Row(tag, a, d, cls, ctx, item));
    EachItemAppends(env, st, r, ctx, item, [leaf], scope);
  }

  /** The loop over the entries takes the first entry, then loops over the rest. */
  lemma EachItemsUnfold(env: Env, st: State, r: Ref, ctx: string, items: seq<Value>, cache: seq<Markup>, scope: Value)
    requires r < |st.dom| && |items| > 0
    requires forall k :: 0 <= k < |items| ==> Size(items[k]) + 4 <= Size(scope)
    ensures EachItems(env, st, r, ctx, items, cache, scope)
            == EachItems(env, EachItem(env, st, r, ctx, items[0], cache, scope), r, ctx, items[1..], cache, scope)
  {
  }

  /** The rows of the entries are the first entry's row, then the rest's. */
  lemma RowsUnfold(tag: string, a: Attr, d: Display, cls: seq<string>, ctx: string, items: seq<Value>, rows: seq<Markup>)
    requires |items| > 0
    ensures rows + Rows(tag, a, d, cls, ctx, items)
            == (rows + [Row(tag, a, d, cls, ctx, items[0])]) + Rows(tag, a, d, cls, ctx, items[1..])
  {
    assert Rows(tag, a, d, cls, ctx, items) == [Row(tag, a, d, cls, ctx, items[0])] + Rows(tag, a, d, cls, ctx, items[1..]);
    AppendAssoc(rows, [Row(tag, a, d, cls, ctx, items[0])], Rows(tag, a, d, cls, ctx, items[1..]));
  }

  /** The loop over the entries: the host ends with one row per entry, after the rows it had. */
  lemma {:induction false} EachItemsRows(env: Env, st: State, r: Ref, ctx: string, items: seq<Value>,
                                         tag: string, a: Attr, d: Display, cls: seq<string>, scope: Value, lo: nat, rows: seq<Markup>)
    requires HostShows(st.dom, r, lo, rows) && ParsedElements(rows)
    requires forall k :: 0 <= k < |items| ==> Size(items[k]) + 4 <= Size(scope)
    requires TextBound(env, a)
    ensures exists lo' :: HostShows(EachItems(env, st, r, ctx, items, [MElement(tag, [a], d, cls, [])], scope).dom, r, lo',
                                    rows + Rows(tag, a, d, cls, ctx, items))
    decreases |items|
  {
    var leaf := MElement(tag, [a], d, cls, []);
    if |items| == 0 {
      assert rows + Rows(tag, a, d, cls, ctx, items) == rows;
      assert HostShows(EachItems(env, st, r, ctx, items, [leaf], scope).dom, r, lo, rows);
    } else {
      var st1 := EachItem(env, st, r, ctx, items[0], [leaf], scope);
      EachItemRow(env, st, r, ctx, items[0], tag, a, d, cls, scope, lo, rows);
      var lo1 := |ItemView(env, st, ctx, items[0], [leaf], scope).dom|;
      var rows1 := rows + [Row(tag, a, d, cls, ctx, items[0])];
      RowParsed(tag, a, d, cls, ctx, items[0]);
      ParsedElementsAppend(rows, Row(tag, a, d, cls, ctx, items[0]));
      EachItemsRows(env, st1, r, ctx, items[1..], tag, a, d, cls, scope, lo1, rows1);
      RowsUnfold(tag, a, d, cls, ctx, items, rows);
      EachItemsUnfold(env, st, r, ctx, items, [leaf], scope);
    }
  }

  /**
    With a template of one element carrying a built-in `text` binding,
    `each` leaves in its host one copy of that element per entry of the
    collection, in order, copy `k` showing what the binding's path resolves
    to in the view of entry `k`.
   */
  lemma EachShowsEveryEntry(env: Env, st: State, r: Ref, e: Attr, scope: Value,
                            tag: string, a: Attr, d: Display, cls: seq<string>)
    requires r < |st.dom| && EachTemplate(st.dom, r) == [MElement(tag, [a], d, cls, [])] && TextBound(env, a)
    ensures var st' := EachHandler(env, st, r, e, scope);
            SerializeKids(st'.dom, r, st'.dom[r].children)
            == Rows(tag, a, d, cls, ReplaceFirst(e.name, "mns-each-"), Items(Resolve(scope, e.value)))
  {
    var leaf := MElement(tag, [a], d, cls, []);
    var data := Resolve(scope, e.value);
    var st1 := st.(dom := st.dom[r := st.dom[r].(cache := Some([leaf]), children := [])]);
    ItemsSmaller(data);
    assert HostShows(st1.dom, r, |st1.dom|, []);
    EachItemsRows(env, st1, r, ReplaceFirst(e.name, "mns-each-"), Items(data), tag, a, d, cls, scope, |st1.dom|, []);
    assert [] + Rows(tag, a, d, cls, ReplaceFirst(e.name, "mns-each-"), Items(data))
           == Rows(tag, a, d, cls, ReplaceFirst(e.name, "mns-each-"), Items(data));
  }
  /**
    A row whose binding reads field `f` of the context: a truthy entry shows
    its field (nothing when the field is missing or null), a falsy one shows
    nothing, since it is bound as an empty object.
   */
  lemma RowField(tag: string, a: Attr, d: Display, cls: seq<string>, ctx: string, item: Value, f: string)
    requires '.' !in ctx && a.value == ctx + "." + f
    ensures Row(tag, a, d, cls, ctx, item)
            == MElement(tag, [a], d, cls, if Truthy(item) then TextKids(Shown(Resolve(item, f))) else [])
  {
    var m := ItemModel(item);
    ResolveContext(ctx, m);
    ResolveComposes(Scope(ctx, m), ctx, f);
    if !Truthy(item) {
      var segs := Split(f, '.');
      assert Get(Obj([]), segs[0]) == Undefined;
      assert Walk(m, segs) == None;
    }
  }

  /**
    The `each` of the tests, entry by entry: over a template `<li
    mns-text="ctx.f">`, the host shows one `li` per entry, in order, the
    k-th showing field `f` of the k-th entry, or nothing for a falsy entry.
   */
  lemma EachShowsFields(env: Env, st: State, r: Ref, e: Attr, scope: Value,
                        tag: string, a: Attr, d: Display, cls: seq<string>, f: string)
    requires r < |st.dom| && EachTemplate(st.dom, r) == [MElement(tag, [a], d, cls, [])] && TextBound(env, a)
    requires '.' !in ReplaceFirst(e.name, "mns-each-") && a.value == ReplaceFirst(e.name, "mns-each-") + "." + f
    ensures var st' := EachHandler(env, st, r, e, scope);
            var shown := SerializeKids(st'.dom, r, st'.dom[r].children);
            var items := Items(Resolve(scope, e.value));
            && |shown| == |items|
            && forall k :: 0 <= k < |items| ==>
                 shown[k] == MElement(tag, [a], d, cls, if Truthy(items[k]) then TextKids(Shown(Resolve(items[k], f))) else [])
  {
    var ctx := ReplaceFirst(e.name, "mns-each-");
    var items := Items(Resolve(scope, e.value));
    EachShowsEveryEntry(env, st, r, e, scope, tag, a, d, cls);
    forall k | 0 <= k < |items|
      ensures Rows(tag, a, d, cls, ctx, items)[k]
              == MElement(tag, [a], d, cls, if Truthy(items[k]) then TextKids(Shown(Resolve(items[k], f))) else [])
    {
      RowField(tag, a, d, cls, ctx, items[k], f);
    }
  }

  /** A falsy entry is bound exactly as an empty object would be. */
  lemma FalsyEntryIsEmptyObject(env: Env, st: State, r: Ref, ctx: string, item: Value, cache: seq<Markup>, scope: Value)
    requires r < |st.dom| && !Truthy(item) && Size(Obj([])) + 4 <= Size(scope)
    ensures Size(item) + 4 <= Size(scope)
    ensures EachItem(env, st, r, ctx, item, cache, scope) == EachItem(env, st, r, ctx, Obj([]), cache, scope)
  {
    assert Size(item) == 1;
    assert ItemModel(item) == ItemModel(Obj([]));
  }
}

=== FILE: monster.dfy ===
/**
  The binder of `monster` (dist/monster.js), the build that preceded `mnster`.

  A view binds its template element and then the template's element
  children, read from the live `childNodes` list from the last to the first;
  it does not descend further. Handlers live in a fixed table. Nothing is
  caught: an exception raised while binding propagates out of the view's
  constructor and leaves the document as far as binding had got.
 */
module Monster {
  import opened Wrappers
  import opened JsStrings
  import opened JsValues
  import opened Dom
  import opened BindingNames
  import Mnster

  // ----- the path resolver -----

  /**
    `_toProperty(scope, path)`: split the path on `.` and descend while every
    step is defined and non-null; the empty string as soon as one is not.
   */
  function Resolve(scope: Value, path: string): (r: Value)
    ensures !r.Undefined? && !r.Null?
    ensures Walk(scope, Split(path, '.')).None? ==> r == Str("")
    ensures Walk(scope, Split(path, '.')).Some? ==> r == Walk(scope, Split(path, '.')).value && Size(r) + 2 <= Size(scope)
  {
    var segs := Split(path, '.');
    WalkSmaller(scope, segs);
    match Walk(scope, segs)
    case None => Str("")
    case Some(v) =>
      WalkLandsDefined(scope, segs);
      v
  }

  // ----- the handler table -----

  datatype Binding = Text | Attribute | Data | Each | Show | Hide | Class | On

  /** `_bindings`: fixed at load time, no registration. */
  const Bindings: map<string, Binding> :=
    map["text" := Text, "attr" := Attribute, "data" := Data, "each" := Each,
        "show" := Show, "hide" := Hide, "class" := Class, "on" := On]

  const PrefixAttr: string := "mns-attr-"
  const PrefixEach: string := "mns-each-"
  const PrefixOn: string := "mns-on"

  // ----- the handlers, on one element -----

  /** `text`: `innerHTML` becomes `String(value)`; a path that misses shows nothing. */
  function TextBinding(e: Element, data: Value): (r: Element)
    ensures TextOf(r) == ToStr(data)
    ensures NoNewElements(e.children, r.children)
    ensures r == e.(children := r.children)
  {
    SetText(e, ToStr(data))
  }

  /** `attr`: always sets the attribute named by what follows `mns-attr-`, even to `''`. */
  function AttrBinding(e: Element, name: string, data: Value): (r: Result<Element, Fault>)
    ensures r.Err? <==> !ValidName(StripPrefix(name, PrefixAttr))
    ensures r.Ok? ==> GetAttr(r.value.attrs, AsciiLower(StripPrefix(name, PrefixAttr))) == Some(ToStr(data))
    ensures r.Ok? ==> forall n :: n != AsciiLower(StripPrefix(name, PrefixAttr)) ==> GetAttr(r.value.attrs, n) == GetAttr(e.attrs, n)
    ensures r.Ok? ==> r.value == e.(attrs := r.value.attrs)
  {
    SetAttribute(e, StripPrefix(name, PrefixAttr), ToStr(data))
  }

  /** `data`: sets the attribute named by what follows `mns-` (so `data-...`). */
  function DataBinding(e: Element, name: string, data: Value): (r: Result<Element, Fault>)
    ensures r.Err? <==> !ValidName(StripPrefix(name, Prefix))
    ensures r.Ok? ==> GetAttr(r.value.attrs, AsciiLower(StripPrefix(name, Prefix))) == Some(ToStr(data))
    ensures r.Ok? ==> forall n :: n != AsciiLower(StripPrefix(name, Prefix)) ==> GetAttr(r.value.attrs, n) == GetAttr(e.attrs, n)
    ensures r.Ok? ==> r.value == e.(attrs := r.value.attrs)
  {
    SetAttribute(e, StripPrefix(name, Prefix), ToStr(data))
  }

  /**
    `class`: for a non-empty raw value, adds `String(value)` to the class
    list, which throws for an empty or blank-containing token.
   */
  function ClassBinding(e: Element, raw: string, data: Value): (r: Result<Element, Fault>)
    ensures raw == "" ==> r == Ok(e)
    ensures raw != "" ==> (r.Err? <==> ToStr(data) == "" || exists k :: 0 <= k < |ToStr(data)| && IsAsciiWhitespace(ToStr(data)[k]))
    ensures raw != "" && r.Ok? ==> ToStr(data) in r.value.classes
    ensures r.Ok? ==> r.value == e.(classes := r.value.classes)
  {
    if raw == "" then Ok(e) else AddClass(e, ToStr(data))
  }

  /**
    `on`: reads `controller[raw]`, which throws when there is no controller;
    a function found there becomes the element's handler property named
    after `mns-` (so `onclick`).
   */
  function OnBinding(e: Element, name: string, raw: string, ctrl: Value): (r: Result<Element, Fault>)
    ensures r.Err? <==> ctrl.Undefined? || ctrl.Null?
    ensures r.Ok? && Get(ctrl, raw).Fn? ==> r.value == e.(handlers := e.handlers[StripPrefix(name, Prefix) := Get(ctrl, raw).id])
    ensures r.Ok? && !Get(ctrl, raw).Fn? ==> r.value == e
  {
    if ctrl.Undefined? || ctrl.Null? then Err(TypeError("the controller is undefined"))
    else
      var m := Get(ctrl, raw);
      if m.Fn? then Ok(e.(handlers := e.handlers[StripPrefix(name, Prefix) := m.id])) else Ok(e)
  }

  /** Every element child in `after` is one of `before`. */
  predicate NoNewElements(before: seq<Child>, after: seq<Child>) {
    forall k :: 0 <= k < |after| && after[k].ElementNode? ==> after[k] in before
  }

  /**
    What a table handler other than `each` makes of the element. The table
    is called without a controller, so its `on` entry always throws.
   */
  function Builtin(h: Binding, e: Element, a: Attr, data: Value): (r: Result<Element, Fault>)
    requires !h.Each?
    ensures r.Ok? ==> NoNewElements(e.children, r.value.children)
    ensures h.On? ==> r.Err?
  {
    match h
    case Text => Ok(TextBinding(e, data))
    case Attribute => AttrBinding(e, a.name, data)
    case Data => DataBinding(e, a.name, data)
    case Show => Ok(Mnster.ShowBinding(e, data))
    case Hide => Ok(Mnster.HideBinding(e, data))
    case Class => ClassBinding(e, a.value, data)
    case On => OnBinding(e, a.name, a.value, Undefined)
  }

  // ----- views -----

  /** The document, and the exception propagating out of the binder, if one was thrown. */
  datatype State = State(dom: Heap, thrown: Option<Fault>)

  /** A view as its constructor leaves it; it keeps the template, not a node list. */
  datatype View = View(template: Ref, context: string, model: Value, controller: Value)

  /** Element children of `after` that `before` did not have were created at or after `bound`. */
  predicate OldOrFresh(before: seq<Child>, after: seq<Child>, bound: nat) {
    forall k :: 0 <= k < |after| && after[k].ElementNode? ==> after[k] in before || after[k].ref >= bound
  }

  /**
    From `h` to `h'`: nodes are only added, no existing node other than `r`
    changes, and the element children `r` gains are new nodes.
   */
  predicate Confined(h: Heap, h': Heap, r: Ref) {
    && |h'| >= |h|
    && (forall q :: 0 <= q < |h| && q != r ==> h'[q] == h[q])
    && (r < |h| ==> OldOrFresh(h[r].children, h'[r].children, |h|))
  }

  /** As `Confined`, but the element children `t` had in `h` may change as well. */
  predicate ConfinedToKids(h: Heap, h': Heap, t: Ref) {
    && |h'| >= |h|
    && (forall q :: 0 <= q < |h| && q != t && (t >= |h| || ElementNode(q) !in h[t].children) ==> h'[q] == h[q])
    && (t < |h| ==> OldOrFresh(h[t].children, h'[t].children, |h|))
  }

  /** Writes back a handler's element, or starts propagating the exception it threw. */
  function Commit(st: State, r: Ref, res: Result<Element, Fault>): (st': State)
    ensures |st'.dom| == |st.dom|
    ensures forall q :: 0 <= q < |st.dom| && q != r ==> st'.dom[q] == st.dom[q]
    ensures res.Ok? ==> st' == st.(dom := Put(st.dom, r, res.value))
    ensures res.Err? ==> st' == st.(thrown := Some(res.error))
  {
    match res
    case Ok(e) => st.(dom := Put(st.dom, r, e))
    case Err(f) => st.(thrown := Some(f))
  }

  /**
    `new View(...)`: binds the template, then reads how many child nodes it
    has and binds the element ones, the last first.
   */
  function ViewBind(root: Value, st: State, t: Ref, ctx: string, model: Value, ctrl: Value): (r: (State, View))
    ensures ConfinedToKids(st.dom, r.0.dom, t)
    ensures st.thrown.Some? ==> r.0 == st
    ensures r.1 == View(t, ctx, model, ctrl)
    decreases Size(Scope(ctx, model)), 4, 0, 0
  {
    var scope := Scope(ctx, model);
    var st1 := BindNode(root, st, t, scope, ctrl);
    var count := if t < |st1.dom| then |st1.dom[t].children| else 0;
    (BindKids(root, st1, t, count, scope, ctrl), View(t, ctx, model, ctrl))
  }

  /**
    The `while (nodesCount)` loop: child node `k - 1` of `t`, read from the
    live list, is bound when it is an element; an index past the end of the
    list reads `undefined`, which throws.
   */
  function BindKids(root: Value, st: State, t: Ref, k: nat, scope: Value, ctrl: Value): (st': State)
    ensures ConfinedToKids(st.dom, st'.dom, t)
    ensures st.thrown.Some? ==> st' == st
    decreases Size(scope), 3, k, 0
  {
    if k == 0 || st.thrown.Some? then st
    else
      var kids := if t < |st.dom| then st.dom[t].children else [];
      if k - 1 >= |kids| then st.(thrown := Some(TypeError("the node is undefined")))
      else
        var st1 := if kids[k - 1].ElementNode? then BindNode(root, st, kids[k - 1].ref, scope, ctrl) else st;
        BindKids(root, st1, t, k - 1, scope, ctrl)
  }

  /** `view.bindNode(node)`: the node's attributes, the last one first. */
  function BindNode(root: Value, st: State, r: Ref, scope: Value, ctrl: Value): (st': State)
    ensures Confined(st.dom, st'.dom, r)
    ensures st.thrown.Some? || r >= |st.dom| || st.dom[r].attrs == [] ==> st' == st
    decreases Size(scope), 2, 0, 0
  {
    if r < |st.dom| then BindAttrs(root, st, r, |st.dom[r].attrs|, scope, ctrl) else st
  }

  /**
    Attributes `k - 1` down to `0` of node `r`, each read from the live
    attribute list; the first exception stops the loop.
   */
  function BindAttrs(root: Value, st: State, r: Ref, k: nat, scope: Value, ctrl: Value): (st': State)
    ensures Confined(st.dom, st'.dom, r)
    ensures st.thrown.Some? ==> st' == st
    decreases Size(scope), 1, k, 0
  {
    if k == 0 || st.thrown.Some? then st
    else if r >= |st.dom| || k - 1 >= |st.dom[r].attrs| then st.(thrown := Some(TypeError("the attribute is undefined")))
    else BindAttrs(root, Invoke(root, st, r, st.dom[r].attrs[k - 1], scope, ctrl), r, k - 1, scope, ctrl)
  }

  /**
    One attribute: a `mns-` name whose derived type is in the table calls
    that handler (without a controller); otherwise a name starting with
    `mns-on` calls `on` with the view's controller; anything else is skipped.
   */
  function Invoke(root: Value, st: State, r: Ref, a: Attr, scope: Value, ctrl: Value): (st': State)
    requires r < |st.dom|
    ensures Confined(st.dom, st'.dom, r)
    ensures !HasPrefix(a.name) ==> st' == st
    decreases Size(scope), 0, 2, 0
  {
    var kind := BindingType(a.name);
    if HasPrefix(a.name) && kind in Bindings then
      match Bindings[kind]
      case Each => EachHandler(root, st, r, a, scope)
      case h => Commit(st, r, Builtin(h, st.dom[r], a, Resolve(scope, a.value)))
    else if StartsWith(a.name, PrefixOn) then Commit(st, r, OnBinding(st.dom[r], a.name, a.value, ctrl))
    else st
  }

  /**
    The template `each` keeps on its host: the one kept earlier, or a deep
    clone of the host's first element child; `None` when there is neither
    (reading `children[0]` then gives `undefined`).
   */
  function EachTemplate(h: Heap, r: Ref): (m: Option<Markup>)
    requires r < |h|
    ensures h[r].clone.Some? ==> m == h[r].clone
    ensures h[r].clone.None? ==> (m.Some? <==> FirstElementChild(h, r).Some?)
  {
    if h[r].clone.Some? then h[r].clone
    else
      match FirstElementChild(h, r)
      case Some(c) => Some(Serialize(h, c))
      case None => None
  }

  /**
    `each`: keeps the template on the host, empties the host and, for every
    entry of the collection, binds a fresh copy of the template as a view of
    that entry and appends it.
   */
  function EachHandler(root: Value, st: State, r: Ref, a: Attr, scope: Value): (st': State)
    requires r < |st.dom|
    ensures Confined(st.dom, st'.dom, r)
    ensures EachTemplate(st.dom, r).None? ==> st' == st.(thrown := Some(TypeError("the host has no element child")))
    ensures EachTemplate(st.dom, r).Some? ==>
              st'.dom[r] == st.dom[r].(clone := EachTemplate(st.dom, r), children := st'.dom[r].children)
    ensures EachTemplate(st.dom, r).Some? && st'.thrown.None? ==>
              |st'.dom[r].children| == |Items(Resolve(scope, a.value))|
    decreases Size(scope), 0, 1, 0
  {
    var data := Resolve(scope, a.value);
    match EachTemplate(st.dom, r)
    case None => st.(thrown := Some(TypeError("the host has no element child")))
    case Some(tpl) =>
      var st1 := st.(dom := st.dom[r := st.dom[r].(clone := Some(tpl), children := [])]);
      ItemsSmaller(data);
      EachItems(root, st1, r, StripPrefix(a.name, PrefixEach), Items(data), tpl, scope)
  }

  /** The `for...in` loop of `each`, stopped by the first exception. */
  function EachItems(root: Value, st: State, r: Ref, ctx: string, items: seq<Value>, tpl: Markup, scope: Value): (st': State)
    requires r < |st.dom|
    requires forall k :: 0 <= k < |items| ==> Size(items[k]) + 4 <= Size(scope)
    ensures Confined(st.dom, st'.dom, r)
    ensures st'.dom[r] == st.dom[r].(children := st'.dom[r].children)
    ensures st.thrown.None? && st'.thrown.None? ==> |st'.dom[r].children| == |st.dom[r].children| + |items|
    decreases Size(scope), 0, 0, |items|
  {
    if |items| == 0 || st.thrown.Some? then st
    else
      var st1 := EachItem(root, st, r, ctx, items[0], tpl, scope);
      EachItems(root, st1, r, ctx, items[1..], tpl, scope)
  }

  /**
    One entry: a fresh copy of the template is bound as a view of the entry
    (an empty object for a falsy one) under the global controller, then
    appended to the host. A copy that is not an element throws.
   */
  function EachItem(root: Value, st: State, r: Ref, ctx: string, item: Value, tpl: Markup, scope: Value): (st': State)
    requires r < |st.dom| && Size(item) + 4 <= Size(scope)
    ensures Confined(st.dom, st'.dom, r)
    ensures st'.dom[r] == st.dom[r].(children := st'.dom[r].children)
    ensures st'.thrown.None? ==> st'.dom[r].children == st.dom[r].children + [ElementNode(|st.dom|)]
    ensures st'.thrown.None? ==> tpl.MElement?
    decreases Size(scope), 0, 0, 0
  {
    var (dom1, c) := AllocOne(st.dom, tpl);
    if !c.ElementNode? then st.(thrown := Some(TypeError("the template is not an element")))
    else
      var model := ItemModel(item);
      assert Size(model) + 2 <= Size(scope) by {
        SizePositive(item);
        assert Size(Obj([])) == 2;
      }
      ScopeSize(ctx, model);
      var st2 := ViewBind(root, st.(dom := dom1), c.ref, ctx, model, root).0;
      if st2.thrown.Some? then st2
      else st2.(dom := st2.dom[r := st2.dom[r].(children := st2.dom[r].children + [c])])
  }

  // ----- view.update -----

  /**
    `view.update()`: reads how many child nodes the template has, then binds
    them from the first to the last, again from the live list. There is no
    element check here: a text or comment child has no attribute list, and
    reading its length throws.
   */
  function Update(root: Value, st: State, v: View): (st': State)
    ensures ConfinedToKids(st.dom, st'.dom, v.template)
  {
    var len := if v.template < |st.dom| then |st.dom[v.template].children| else 0;
    UpdateKids(root, st, v.template, 0, len, Scope(v.context, v.model), v.controller)
  }

  /** Child nodes `i` up to `len - 1` of `t`, the first first. */
  function UpdateKids(root: Value, st: State, t: Ref, i: nat, len: nat, scope: Value, ctrl: Value): (st': State)
    ensures ConfinedToKids(st.dom, st'.dom, t)
    ensures st.thrown.Some? ==> st' == st
    decreases len - i
  {
    if i >= len || st.thrown.Some? then st
    else
      var kids := if t < |st.dom| then st.dom[t].children else [];
      if i >= |kids| then st.(thrown := Some(TypeError("the node is undefined")))
      else if !kids[i].ElementNode? then st.(thrown := Some(TypeError("the node has no attributes")))
      else UpdateKids(root, BindNode(root, st, kids[i].ref, scope, ctrl), t, i + 1, len, scope, ctrl)
  }

  // ----- monster.view -----

  const TemplateInvalid := "monster.view: You must pass a valid template as a first argument"
  const OptionsInvalid := "monster.view: You must specify a context and a model"

  /** What `monster.view` does: logs and returns nothing, throws, or returns a view. */
  datatype Outcome = Logged(message: string) | Threw(dom: Heap, fault: Fault) | Created(dom: Heap, view: View)

  predicate ValidTemplate(dom: Heap, template: TemplateArg) {
    template.ElementArg? && template.ref < |dom|
  }

  /** `monster.view(template, opt)`, with `root` the global object. */
  function CreateView(root: Value, dom: Heap, template: TemplateArg, opt: Value): (r: Outcome)
    ensures !ValidTemplate(dom, template) ==> r == Logged(TemplateInvalid)
    ensures ValidTemplate(dom, template) && (opt.Undefined? || opt.Null?) ==> r.Threw? && r.dom == dom
    ensures (ValidTemplate(dom, template) && !(opt.Undefined? || opt.Null?)
             && !(Truthy(Get(opt, "context")) && Truthy(Get(opt, "model")))) ==> r == Logged(OptionsInvalid)
    ensures r.Logged? <==> !ValidTemplate(dom, template)
                           || (!(opt.Undefined? || opt.Null?) && !(Truthy(Get(opt, "context")) && Truthy(Get(opt, "model"))))
    ensures r.Threw? <==> ValidTemplate(dom, template)
                          && ((opt.Undefined? || opt.Null?)
                              || (Truthy(Get(opt, "context")) && Truthy(Get(opt, "model"))
                                  && ViewBind(root, State(dom, None), template.ref, ToStr(Get(opt, "context")), Get(opt, "model"),
                                              if Truthy(Get(opt, "controller")) then Get(opt, "controller") else root).0.thrown.Some?))
    ensures r.Created? ==> r.view == View(template.ref, ToStr(Get(opt, "context")), Get(opt, "model"),
                                          if Truthy(Get(opt, "controller")) then Get(opt, "controller") else root)
    ensures r.Created? || r.Threw? ==> ConfinedToKids(dom, r.dom, template.ref)
  {
    if !ValidTemplate(dom, template) then Logged(TemplateInvalid)
    else if opt.Undefined? || opt.Null? then Threw(dom, TypeError("the options are undefined"))
    else if !Truthy(Get(opt, "context")) || !Truthy(Get(opt, "model")) then Logged(OptionsInvalid)
    else
      var ctrl := if Truthy(Get(opt, "controller")) then Get(opt, "controller") else root;
      var (st, v) := ViewBind(root, State(dom, None), template.ref, ToStr(Get(opt, "context")), Get(opt, "model"), ctrl);
      if st.thrown.Some? then Threw(st.dom, st.thrown.value) else Created(st.dom, v)
  }
}

=== FILE: monster_proofs.dfy ===
/**
  Properties of the `monster` binder: how it differs from `mnster` on paths
  that miss, how attribute names are routed to `on`, what an exception does,
  and reference definitions of its two child loops.
 */
module MonsterProofs {
  import opened Wrappers
  import opened JsStrings
  import opened JsValues
  import opened Dom
  import opened BindingNames
  import opened Monster
  import opened Sequences
  import Mnster
  import MnsterProofs
  import opened DomProofs

  // ----- the resolver, against mnster's -----

  /** Where `mnster` resolves a missing path to `null`, `monster` resolves it to `''`; otherwise they agree. */
  lemma ResolveAcrossBuilds(scope: Value, path: string)
    ensures Monster.Resolve(scope, path) == (if Mnster.Resolve(scope, path).Null? then Str("") else Mnster.Resolve(scope, path))
  {
  }

  /** Both builds render the same text for every path, found or not. */
  lemma TextAcrossBuilds(e: Element, scope: Value, path: string)
    ensures Monster.TextBinding(e, Monster.Resolve(scope, path)) == Mnster.TextBinding(e, Mnster.Resolve(scope, path))
  {
    ResolveAcrossBuilds(scope, path);
  }

  /**
    On a path that misses, `monster` writes the attribute with an empty
    value, where `mnster` leaves the element as it was.
   */
  lemma AttrOnMissAcrossBuilds(e: Element, name: string, scope: Value, path: string)
    requires Walk(scope, Split(path, '.')).None?
    requires ValidName(StripPrefix(name, PrefixAttr))
    ensures Monster.AttrBinding(e, name, Monster.Resolve(scope, path)).Ok?
    ensures GetAttr(Monster.AttrBinding(e, name, Monster.Resolve(scope, path)).value.attrs,
                    AsciiLower(StripPrefix(name, PrefixAttr))) == Some("")
    ensures Mnster.AttrBinding(e, name, Mnster.Resolve(scope, path)) == Ok(e)
  {
    assert Monster.Resolve(scope, path) == Str("");
    assert Mnster.Resolve(scope, path).Null?;
  }

  /** `class` on a path that misses adds the token `''`, which the class list rejects. */
  lemma ClassOnMissThrows(e: Element, raw: string, scope: Value)
    requires raw != "" && Walk(scope, Split(raw, '.')).None?
    ensures ClassBinding(e, raw, Monster.Resolve(scope, raw)) == Err(SyntaxError(""))
  {
    assert ToStr(Monster.Resolve(scope, raw)) == "";
  }

  // ----- routing -----

  /**
    A name whose derived type is `on` (such as `mns-on-click`) reaches the
    table's `on`, which has no controller: binding it always throws.
   */
  lemma TableOnThrows(root: Value, st: State, r: Ref, a: Attr, scope: Value, ctrl: Value)
    requires r < |st.dom| && HasPrefix(a.name) && BindingType(a.name) == "on"
    ensures Invoke(root, st, r, a, scope, ctrl) == st.(thrown := Some(TypeError("the controller is undefined")))
  {
  }

  /** `mns-on-<event>` derives the type `on`, so it throws. */
  lemma QualifiedOnThrows(root: Value, st: State, r: Ref, q: string, raw: string, scope: Value, ctrl: Value)
    requires r < |st.dom| && IsQualifier(q)
    ensures Invoke(root, st, r, Attr(Prefix + "on" + q, raw), scope, ctrl).thrown.Some?
  {
    assert NoSegment("on");
    QualifiedNameRoutes("on", q);
    assert StartsWith(Prefix + "on" + q, Prefix);
    TableOnThrows(root, st, r, Attr(Prefix + "on" + q, raw), scope, ctrl);
  }

  /**
    A name `mns-<type>` whose type starts with `on`, has no segment and is
    not in the table falls through to `on` with the view's controller: a
    function found under the raw value becomes the handler property `<type>`.
   */
  lemma PlainOnAttaches(root: Value, st: State, r: Ref, ty: string, raw: string, scope: Value, ctrl: Value)
    requires r < |st.dom| && StartsWith(ty, "on") && NoSegment(ty) && ty !in Bindings
    requires !ctrl.Undefined? && !ctrl.Null? && Get(ctrl, raw).Fn?
    ensures Invoke(root, st, r, Attr(Prefix + ty, raw), scope, ctrl)
         == st.(dom := st.dom[r := st.dom[r].(handlers := st.dom[r].handlers[ty := Get(ctrl, raw).id])])
  {
    var name := Prefix + ty;
    PlainNameRoutes(ty);
    assert StartsWith(name, PrefixOn) by {
      assert name[..|PrefixOn|] == Prefix + ty[..2];
    }
    assert StripPrefix(name, Prefix) == ty;
  }

  /** The attribute names of a click handler, as far as routing goes. */
  lemma ClickNames()
    ensures StartsWith("onclick", "on") && NoSegment("onclick") && "onclick" !in Bindings
    ensures Prefix + "onclick" == "mns-onclick"
    ensures IsQualifier("-click") && Prefix + "on" + "-click" == "mns-on-click"
  {
    forall j: nat | j < |"onclick"|
      ensures !SegmentAt("onclick", j)
    {
      assert "onclick"[j] != '-';
    }
  }

  /** The two spellings side by side: `mns-onclick` attaches, `mns-on-click` throws. */
  lemma ClickSpellings(root: Value, st: State, r: Ref, raw: string, scope: Value, ctrl: Value)
    requires r < |st.dom| && !ctrl.Undefined? && !ctrl.Null? && Get(ctrl, raw).Fn?
    ensures Invoke(root, st, r, Attr("mns-onclick", raw), scope, ctrl)
         == st.(dom := st.dom[r := st.dom[r].(handlers := st.dom[r].handlers["onclick" := Get(ctrl, raw).id])])
    ensures Invoke(root, st, r, Attr("mns-on-click", raw), scope, ctrl).thrown.Some?
  {
    ClickNames();
    PlainOnAttaches(root, st, r, "onclick", raw, scope, ctrl);
    QualifiedOnThrows(root, st, r, "-click", raw, scope, ctrl);
  }

  // ----- exceptions -----

  /** An exception raised by one attribute ends the node: the attributes before it are never bound. */
  lemma ThrowEndsNode(root: Value, st: State, r: Ref, k: nat, scope: Value, ctrl: Value)
    requires r < |st.dom| && 0 < k <= |st.dom[r].attrs| && st.thrown.None?
    requires Invoke(root, st, r, st.dom[r].attrs[k - 1], scope, ctrl).thrown.Some?
    ensures BindAttrs(root, st, r, k, scope, ctrl) == Invoke(root, st, r, st.dom[r].attrs[k - 1], scope, ctrl)
  {
  }

  // ----- the view's loop, against a fold over a snapshot -----

  /** The references of the element children in `cs`, in order. */
  function ElementRefs(cs: seq<Child>): (rs: seq<Ref>)
    ensures forall k :: 0 <= k < |rs| ==> ElementNode(rs[k]) in cs
  {
    if |cs| == 0 then []
    else
      var last := cs[|cs| - 1];
      var init := ElementRefs(cs[..|cs| - 1]);
      assert forall k :: 0 <= k < |init| ==> ElementNode(init[k]) in cs by {
        forall k | 0 <= k < |init| ensures ElementNode(init[k]) in cs {
          assert ElementNode(init[k]) in cs[..|cs| - 1];
        }
      }
      if last.ElementNode? then init + [last.ref] else init
  }

  /** Binds the nodes in `refs` in order, as long as nothing has been thrown. */
  function BindSeq(root: Value, st: State, refs: seq<Ref>, scope: Value, ctrl: Value): (st': State)
    ensures st.thrown.Some? ==> st' == st
    decreases |refs|
  {
    if |refs| == 0 || st.thrown.Some? then st
    else BindSeq(root, BindNode(root, st, refs[0], scope, ctrl), refs[1..], scope, ctrl)
  }

  /** One step of `KidsLastFirst`, given the claim for the first `k - 1` children. */
  lemma KidsLastFirstStep(root: Value, st: State, st1: State, t: Ref, k: nat, scope: Value, ctrl: Value)
    requires t < |st.dom| && 0 < k <= |st.dom[t].children|
    requires st.thrown.None?
    requires var c := st.dom[t].children[k - 1];
             st1 == if c.ElementNode? then BindNode(root, st, c.ref, scope, ctrl) else st
    requires t < |st1.dom| && st1.dom[t] == st.dom[t]
    requires BindKids(root, st1, t, k - 1, scope, ctrl)
          == BindSeq(root, st1, Reversed(ElementRefs(st1.dom[t].children[..k - 1])), scope, ctrl)
    ensures BindKids(root, st, t, k, scope, ctrl)
         == BindSeq(root, st, Reversed(ElementRefs(st.dom[t].children[..k])), scope, ctrl)
  {
    var kids := st.dom[t].children;
    var c := kids[k - 1];
    var rest := Reversed(ElementRefs(kids[..k - 1]));
    assert kids[..k][..k - 1] == kids[..k - 1];
    if c.ElementNode? {
      assert ElementRefs(kids[..k]) == ElementRefs(kids[..k - 1]) + [c.ref];
      ReversedSnoc(ElementRefs(kids[..k - 1]), c.ref);
      assert ([c.ref] + rest)[1..] == rest;
    } else {
      assert ElementRefs(kids[..k]) == ElementRefs(kids[..k - 1]);
    }
  }

  /** Binding a node other than `t` leaves `t` as it was. */
  lemma OtherNodeKeeps(root: Value, st: State, t: Ref, c: Child, scope: Value, ctrl: Value)
    requires t < |st.dom| && c != ElementNode(t)
    ensures var st1 := if c.ElementNode? then BindNode(root, st, c.ref, scope, ctrl) else st;
            t < |st1.dom| && st1.dom[t] == st.dom[t]
  {
  }

  /**
    When the template is not its own child, the view's loop over the live
    child list binds exactly the element children of the first `k`, the
    last first, as a fold over a snapshot taken before the loop would.
   */
  lemma {:induction false} KidsLastFirst(root: Value, st: State, t: Ref, k: nat, scope: Value, ctrl: Value)
    requires t < |st.dom| && ElementNode(t) !in st.dom[t].children && k <= |st.dom[t].children|
    ensures BindKids(root, st, t, k, scope, ctrl)
         == BindSeq(root, st, Reversed(ElementRefs(st.dom[t].children[..k])), scope, ctrl)
    decreases k, 1
  {
    if k == 0 {
      assert st.dom[t].children[..k] == [];
    } else if st.thrown.None? {
      KidsLastFirstMore(root, st, t, k, scope, ctrl);
    }
  }

  /** The inductive case of `KidsLastFirst`: bind child `k - 1`, then the first `k - 1`. */
  lemma {:induction false} KidsLastFirstMore(root: Value, st: State, t: Ref, k: nat, scope: Value, ctrl: Value)
    requires t < |st.dom| && ElementNode(t) !in st.dom[t].children && 0 < k <= |st.dom[t].children|
    requires st.thrown.None?
    ensures BindKids(root, st, t, k, scope, ctrl)
         == BindSeq(root, st, Reversed(ElementRefs(st.dom[t].children[..k])), scope, ctrl)
    decreases k, 0
  {
    var c := st.dom[t].children[k - 1];
    var st1 := if c.ElementNode? then BindNode(root, st, c.ref, scope, ctrl) else st;
    OtherNodeKeeps(root, st, t, c, scope, ctrl);
    KidsLastFirst(root, st1, t, k - 1, scope, ctrl);
    KidsLastFirstStep(root, st, st1, t, k, scope, ctrl);
  }


  /**
    A view binds its template, then the template's element children as
    they are after that, the last first; nothing deeper.
   */
  lemma ViewIsFold(root: Value, st: State, t: Ref, ctx: string, model: Value, ctrl: Value)
    requires t < |st.dom| && ElementNode(t) !in st.dom[t].children
    ensures var st1 := BindNode(root, st, t, Scope(ctx, model), ctrl);
            ViewBind(root, st, t, ctx, model, ctrl).0
            == BindSeq(root, st1, Reversed(ElementRefs(st1.dom[t].children)), Scope(ctx, model), ctrl)
  {
    var scope := Scope(ctx, model);
    var st1 := BindNode(root, st, t, scope, ctrl);
    assert ElementNode(t) !in st1.dom[t].children;
    KidsLastFirst(root, st1, t, |st1.dom[t].children|, scope, ctrl);
    assert st1.dom[t].children[..|st1.dom[t].children|] == st1.dom[t].children;
  }

  // ----- update, against a fold over a snapshot -----

  /** Binds the child nodes in `cs` in order; a node that is not an element throws. */
  function UpdateSeq(root: Value, st: State, cs: seq<Child>, scope: Value, ctrl: Value): (st': State)
    ensures st.thrown.Some? ==> st' == st
    decreases |cs|
  {
    if |cs| == 0 || st.thrown.Some? then st
    else if !cs[0].ElementNode? then st.(thrown := Some(TypeError("the node has no attributes")))
    else UpdateSeq(root, BindNode(root, st, cs[0].ref, scope, ctrl), cs[1..], scope, ctrl)
  }

  /** One step of `UpdateFirstLast`, given the claim from child `i + 1` on. */
  lemma UpdateFirstLastStep(root: Value, st: State, st1: State, t: Ref, i: nat, len: nat, scope: Value, ctrl: Value)
    requires t < |st.dom| && i < len <= |st.dom[t].children| && st.thrown.None?
    requires st.dom[t].children[i].ElementNode?
    requires st1 == BindNode(root, st, st.dom[t].children[i].ref, scope, ctrl)
    requires t < |st1.dom| && st1.dom[t] == st.dom[t]
    requires UpdateKids(root, st1, t, i + 1, len, scope, ctrl) == UpdateSeq(root, st1, st1.dom[t].children[i + 1..len], scope, ctrl)
    ensures UpdateKids(root, st, t, i, len, scope, ctrl) == UpdateSeq(root, st, st.dom[t].children[i..len], scope, ctrl)
  {
    var kids := st.dom[t].children;
    assert kids[i..len][0] == kids[i];
    assert kids[i..len][1..] == kids[i + 1..len];
  }

  /**
    When the template is not its own child, `update` binds its children from
    the first to the last, and the first one that is not an element throws.
   */
  lemma {:induction false} UpdateFirstLast(root: Value, st: State, t: Ref, i: nat, len: nat, scope: Value, ctrl: Value)
    requires t < |st.dom| && ElementNode(t) !in st.dom[t].children && i <= len <= |st.dom[t].children|
    ensures UpdateKids(root, st, t, i, len, scope, ctrl) == UpdateSeq(root, st, st.dom[t].children[i..len], scope, ctrl)
    decreases len - i
  {
    var kids := st.dom[t].children;
    if i < len && st.thrown.None? && kids[i].ElementNode? {
      var st1 := BindNode(root, st, kids[i].ref, scope, ctrl);
      OtherNodeKeeps(root, st, t, kids[i], scope, ctrl);
      UpdateFirstLast(root, st1, t, i + 1, len, scope, ctrl);
      UpdateFirstLastStep(root, st, st1, t, i, len, scope, ctrl);
    } else {
      UpdateFirstLastStop(root, st, t, i, len, scope, ctrl);
    }
  }

  /** Where `UpdateFirstLast` stops: the end, an exception, or a child that is not an element. */
  lemma UpdateFirstLastStop(root: Value, st: State, t: Ref, i: nat, len: nat, scope: Value, ctrl: Value)
    requires t < |st.dom| && i <= len <= |st.dom[t].children|
    requires !(i < len && st.thrown.None? && st.dom[t].children[i].ElementNode?)
    ensures UpdateKids(root, st, t, i, len, scope, ctrl) == UpdateSeq(root, st, st.dom[t].children[i..len], scope, ctrl)
  {
    if i < len && st.thrown.None? {
      assert st.dom[t].children[i..len][0] == st.dom[t].children[i];
    }
  }

  lemma UpdateIsFold(root: Value, st: State, v: View)
    requires v.template < |st.dom| && ElementNode(v.template) !in st.dom[v.template].children
    ensures Update(root, st, v)
         == UpdateSeq(root, st, st.dom[v.template].children, Scope(v.context, v.model), v.controller)
  {
    var kids := st.dom[v.template].children;
    UpdateFirstLast(root, st, v.template, 0, |kids|, Scope(v.context, v.model), v.controller);
    assert kids[0..|kids|] == kids;
  }

  // ----- each -----

  /** The second `each` on a host reuses the template the first one kept. */
  lemma EachKeepsTemplate(root: Value, st: State, r: Ref, a: Attr, scope: Value)
    requires r < |st.dom| && EachTemplate(st.dom, r).Some?
    ensures var st' := EachHandler(root, st, r, a, scope);
            EachTemplate(st'.dom, r) == EachTemplate(st.dom, r)
  {
  }

  /** `each` over a path that misses empties the host and keeps its template. */
  lemma EachOnMissEmpties(root: Value, st: State, r: Ref, a: Attr, scope: Value)
    requires r < |st.dom| && EachTemplate(st.dom, r).Some? && st.thrown.None?
    requires Walk(scope, Split(a.value, '.')).None?
    ensures EachHandler(root, st, r, a, scope)
         == st.(dom := st.dom[r := st.dom[r].(clone := EachTemplate(st.dom, r), children := [])])
  {
    assert Items(Monster.Resolve(scope, a.value)) == [];
  }

  // ----- the scan order, against the first binder -----

  /**
    The attributes of a node are read last to first, so of two text
    bindings on one node the earlier one decides the text.
   */
  lemma EarlierTextWins(root: Value, st: State, t: Ref, a1: Attr, a2: Attr, scope: Value, ctrl: Value)
    requires t < |st.dom| && st.thrown.None? && st.dom[t].attrs == [a1, a2]
    requires HasPrefix(a1.name) && BindingType(a1.name) in Bindings && Bindings[BindingType(a1.name)] == Text
    requires HasPrefix(a2.name) && BindingType(a2.name) in Bindings && Bindings[BindingType(a2.name)] == Text
    ensures var b := BindNode(root, st, t, scope, ctrl);
            t < |b.dom| && b.thrown.None? && TextOf(b.dom[t]) == ToStr(Monster.Resolve(scope, a1.value))
  {
    var st1 := Invoke(root, st, t, a2, scope, ctrl);
    assert st1 == st.(dom := Put(st.dom, t, TextBinding(st.dom[t], Monster.Resolve(scope, a2.value))));
    assert st1.dom[t].attrs == [a1, a2];
    var st2 := Invoke(root, st1, t, a1, scope, ctrl);
    assert st2 == st1.(dom := Put(st1.dom, t, TextBinding(st1.dom[t], Monster.Resolve(scope, a1.value))));
    assert BindAttrs(root, st2, t, 0, scope, ctrl) == st2;
    assert BindAttrs(root, st1, t, 1, scope, ctrl) == st2;
    assert BindNode(root, st, t, scope, ctrl) == BindAttrs(root, st, t, 2, scope, ctrl) == st2;
  }

  // ----- each, entry by entry -----

  /** An attribute the fixed table routes to `text`. */
  predicate TextBound(a: Attr) {
    HasPrefix(a.name) && BindingType(a.name) in Bindings && Bindings[BindingType(a.name)] == Text
  }

  /** A copy of `<tag a>` with no content is one new element at the end of the heap. */
  lemma AllocLeaf(h: Heap, tag: string, a: Attr, d: Display, cls: seq<string>)
    ensures AllocOne(h, MElement(tag, [a], d, cls, []))
            == (h + [Element(tag, [a], [], d, cls, {}, map[], None, None)], ElementNode(|h|))
  {
    var h1 := h + [Element(tag, [a], [], d, cls, {}, map[], None, None)];
    assert AllocSeq(h1, []) == (h1, []);
    assert h1[|h| := h1[|h|].(children := [])] == h1;
  }

  /** A loop over children that are all text binds nothing. */
  lemma {:induction false} TextKidsBindNothing(root: Value, st: State, t: Ref, k: nat, scope: Value, ctrl: Value)
    requires t < |st.dom| && st.thrown.None? && k <= |st.dom[t].children|
    requires forall j :: 0 <= j < |st.dom[t].children| ==> st.dom[t].children[j].TextNode?
    ensures BindKids(root, st, t, k, scope, ctrl) == st
    decreases k
  {
    if k > 0 {
      TextKidsBindNothing(root, st, t, k - 1, scope, ctrl);
    }
  }

  /**
    A view of an element whose one attribute is a text binding: the element
    shows the value of the binding's path in the view's scope, and nothing
    else changes or throws.
   */
  lemma LeafViewBind(root: Value, st: State, c: Ref, a: Attr, ctx: string, model: Value)
    requires c < |st.dom| && st.thrown.None? && st.dom[c].attrs == [a] && TextBound(a)
    ensures ViewBind(root, st, c, ctx, model, root).0
            == st.(dom := st.dom[c := TextBinding(st.dom[c], Monster.Resolve(Scope(ctx, model), a.value))])
  {
    var scope := Scope(ctx, model);
    var st1 := Invoke(root, st, c, a, scope, root);
    assert st1 == st.(dom := Put(st.dom, c, TextBinding(st.dom[c], Monster.Resolve(scope, a.value))));
    assert BindAttrs(root, st1, c, 0, scope, root) == st1;
    assert BindNode(root, st, c, scope, root) == st1;
    TextKidsBindNothing(root, st1, c, |st1.dom[c].children|, scope, root);
  }

  /**
    One entry over the template `<tag a>`: no exception, one new node at
    the end of the heap, appended to the host, showing the value of `a`'s
    path in the entry's scope.
   */
  lemma EachItemLeaf(root: Value, st: State, r: Ref, ctx: string, item: Value,
                     tag: string, a: Attr, d: Display, cls: seq<string>, scope: Value)
    requires r < |st.dom| && st.thrown.None? && Size(item) + 4 <= Size(scope) && TextBound(a)
    ensures var st' := EachItem(root, st, r, ctx, item, MElement(tag, [a], d, cls, []), scope);
            st'.thrown.None? && Appended(st.dom, st'.dom, r, [EntryText(ctx, a, item)])
  {
    var leaf := MElement(tag, [a], d, cls, []);
    AllocLeaf(st.dom, tag, a, d, cls);
    var dom1 := st.dom + [Element(tag, [a], [], d, cls, {}, map[], None, None)];
    LeafViewBind(root, st.(dom := dom1), |st.dom|, a, ctx, ItemModel(item));
  }

  /** The text an entry's node shows: `a`'s path resolved in the entry's scope. */
  function EntryText(ctx: string, a: Attr, item: Value): string {
    ToStr(Monster.Resolve(Scope(ctx, ItemModel(item)), a.value))
  }

  /** The texts the entries show, in order. */
  function EntryTexts(ctx: string, a: Attr, items: seq<Value>): (ts: seq<string>)
    ensures |ts| == |items| && forall k :: 0 <= k < |items| ==> ts[k] == EntryText(ctx, a, items[k])
  {
    seq(|items|, k requires 0 <= k < |items| => EntryText(ctx, a, items[k]))
  }

  lemma EntryTextsCons(ctx: string, a: Attr, items: seq<Value>)
    requires |items| > 0
    ensures EntryTexts(ctx, a, items) == [EntryText(ctx, a, items[0])] + EntryTexts(ctx, a, items[1..])
  {
  }

  /**
    The loop over the entries with the template `<tag a>`: no exception,
    one new node per entry appended to the host in order, the k-th showing
    the value of `a`'s path in the k-th entry's scope.
   */
  lemma {:induction false} EachItemsLeaves(root: Value, st: State, r: Ref, ctx: string, items: seq<Value>,
                                           tag: string, a: Attr, d: Display, cls: seq<string>, scope: Value)
    requires r < |st.dom| && st.thrown.None? && TextBound(a)
    requires forall k :: 0 <= k < |items| ==> Size(items[k]) + 4 <= Size(scope)
    ensures var st' := EachItems(root, st, r, ctx, items, MElement(tag, [a], d, cls, []), scope);
            st'.thrown.None? && Appended(st.dom, st'.dom, r, EntryTexts(ctx, a, items))
    decreases |items|
  {
    var leaf := MElement(tag, [a], d, cls, []);
    if |items| == 0 {
      assert st.dom[r].children + Fresh(|st.dom|, 0) == st.dom[r].children;
    } else {
      var st1 := EachItem(root, st, r, ctx, items[0], leaf, scope);
      EachItemLeaf(root, st, r, ctx, items[0], tag, a, d, cls, scope);
      EachItemsLeaves(root, st1, r, ctx, items[1..], tag, a, d, cls, scope);
      var st2 := EachItems(root, st1, r, ctx, items[1..], leaf, scope);
      assert EachItems(root, st, r, ctx, items, leaf, scope) == st2;
      assert st2.dom[|st.dom|] == st1.dom[|st.dom|];
      AppendedCons(st.dom, st1.dom, st2.dom, r, EntryText(ctx, a, items[0]), EntryTexts(ctx, a, items[1..]));
      EntryTextsCons(ctx, a, items);
    }
  }

  /**
    `each` over the template `<tag a>`, entry by entry: no exception, the
    host holds exactly one new node per entry, in order, and the k-th shows
    the value of `a`'s path in the k-th entry's scope.
   */
  lemma EachShowsEveryEntry(root: Value, st: State, r: Ref, e: Attr, scope: Value,
                            tag: string, a: Attr, d: Display, cls: seq<string>)
    requires r < |st.dom| && st.thrown.None? && TextBound(a)
    requires EachTemplate(st.dom, r) == Some(MElement(tag, [a], d, cls, []))
    ensures var st' := EachHandler(root, st, r, e, scope);
            var items := Items(Monster.Resolve(scope, e.value));
            && st'.thrown.None?
            && st'.dom[r].children == Fresh(|st.dom|, |items|)
            && |st'.dom| == |st.dom| + |items|
            && forall k :: 0 <= k < |items| ==>
                 TextOf(st'.dom[|st.dom| + k])
                 == ToStr(Monster.Resolve(Scope(StripPrefix(e.name, PrefixEach), ItemModel(items[k])), a.value))
  {
    var leaf := MElement(tag, [a], d, cls, []);
    var data := Monster.Resolve(scope, e.value);
    var ctx := StripPrefix(e.name, PrefixEach);
    var st1 := st.(dom := st.dom[r := st.dom[r].(clone := Some(leaf), children := [])]);
    ItemsSmaller(data);
    EachItemsLeaves(root, st1, r, ctx, Items(data), tag, a, d, cls, scope);
    assert EachHandler(root, st, r, e, scope) == EachItems(root, st1, r, ctx, Items(data), leaf, scope);
    assert [] + Fresh(|st.dom|, |Items(data)|) == Fresh(|st.dom|, |Items(data)|);
  }

  /**
    An entry's text when the binding reads field `f` of the context: a
    truthy entry shows its field (nothing when the field is missing), a
    falsy one nothing, since it is bound as an empty object.
   */
  lemma EntryField(ctx: string, a: Attr, item: Value, f: string)
    requires '.' !in ctx && a.value == ctx + "." + f
    ensures EntryText(ctx, a, item) == if Truthy(item) then ToStr(Monster.Resolve(item, f)) else ""
  {
    var m := ItemModel(item);
    ResolveAcrossBuilds(Scope(ctx, m), a.value);
    ResolveAcrossBuilds(m, f);
    MnsterProofs.ResolveContext(ctx, m);
    MnsterProofs.ResolveComposes(Scope(ctx, m), ctx, f);
    if !Truthy(item) {
      var segs := Split(f, '.');
      assert Get(Obj([]), segs[0]) == Undefined;
      assert Walk(m, segs) == None;
    }
  }

  /**
    The `each` of the tests, entry by entry: over a template `<li
    mns-text="ctx.f">`, the host holds one new `li` per entry, in order, the
    k-th showing field `f` of the k-th entry, or nothing for a falsy entry
    or a missing field.
   */
  lemma EachShowsFields(root: Value, st: State, r: Ref, e: Attr, scope: Value,
                        tag: string, a: Attr, d: Display, cls: seq<string>, f: string)
    requires r < |st.dom| && st.thrown.None? && TextBound(a)
    requires EachTemplate(st.dom, r) == Some(MElement(tag, [a], d, cls, []))
    requires '.' !in StripPrefix(e.name, PrefixEach) && a.value == StripPrefix(e.name, PrefixEach) + "." + f
    ensures var st' := EachHandler(root, st, r, e, scope);
            var items := Items(Monster.Resolve(scope, e.value));
            && st'.thrown.None?
            && st'.dom[r].children == Fresh(|st.dom|, |items|)
            && |st'.dom| == |st.dom| + |items|
            && forall k :: 0 <= k < |items| ==>
                 TextOf(st'.dom[|st.dom| + k]) == if Truthy(items[k]) then ToStr(Monster.Resolve(items[k], f)) else ""
  {
    var items := Items(Monster.Resolve(scope, e.value));
    EachShowsEveryEntry(root, st, r, e, scope, tag, a, d, cls);
    forall k | 0 <= k < |items|
      ensures EntryText(StripPrefix(e.name, PrefixEach), a, items[k])
              == if Truthy(items[k]) then ToStr(Monster.Resolve(items[k], f)) else ""
    {
      EntryField(StripPrefix(e.name, PrefixEach), a, items[k], f);
    }
  }

  /** A falsy entry is bound exactly as an empty object would be. */
  lemma FalsyEntryIsEmptyObject(root: Value, st: State, r: Ref, ctx: string, item: Value, tpl: Markup, scope: Value)
    requires r < |st.dom| && !Truthy(item) && Size(Obj([])) + 4 <= Size(scope)
    ensures Size(item) + 4 <= Size(scope)
    ensures EachItem(root, st, r, ctx, item, tpl, scope) == EachItem(root, st, r, ctx, Obj([]), tpl, scope)
  {
    assert Size(item) == 1;
    assert ItemModel(item) == ItemModel(Obj([]));
  }
}

=== FILE: monster_src.dfy ===
/**
  The first binder, `src/monster.js`, from which both builds grew.

  A view binds the element descendants of its template, as
  `querySelectorAll('*')` lists them when binding starts, from the first to
  the last; it does not bind the template itself. The handler table knows
  `text`, `attr` and `each`; any other `mns-` type calls an undefined table
  entry and throws. Paths resolve to `false` as soon as a step is falsy.
  A view's constructor logs and returns early when it has no template or no
  model, and those log lines are part of the state because `each` constructs
  a view per entry.

  Every function takes `bindRoot`. With `false` it binds as the file is
  written; with `true` it also binds the template element itself before its
  descendants, as both later builds do. The difference is the finding of
  this model: as written, an `each` item template never has its own
  bindings applied.
 */
module MonsterSource {
  import opened Wrappers
  import opened JsStrings
  import opened JsValues
  import opened Dom
  import opened BindingNames
  import Monster

  // ----- the path resolver -----

  /**
    The loop of `_toProperty`: a step keeps the property when it is truthy
    and becomes `false` otherwise; later steps from `false` stay `false`.
   */
  function TruthyWalk(v: Value, segs: seq<string>): (r: Value)
    ensures |segs| == 0 ==> r == v
    ensures |segs| >= 1 ==> r == Bool(false) || (Truthy(r) && Size(r) + 2 * |segs| <= Size(v))
    decreases |segs|
  {
    if |segs| == 0 then v
    else
      var w := Get(v, segs[0]);
      GetSmaller(v, segs[0]);
      TruthyWalk(if Truthy(w) then w else Bool(false), segs[1..])
  }

  /** `_toProperty(scope, path)`: a truthy value found along the path, or `false`. */
  function Resolve(scope: Value, path: string): (r: Value)
    ensures r == Bool(false) || (Truthy(r) && Size(r) + 2 * |Split(path, '.')| <= Size(scope))
  {
    TruthyWalk(scope, Split(path, '.'))
  }

  // ----- the handlers, on one element -----

  /** `text`: `innerHTML` becomes the value, or `''` when the value is falsy. */
  function TextBinding(e: Element, data: Value): (r: Element)
    ensures TextOf(r) == (if Truthy(data) then ToStr(data) else "")
    ensures forall k :: 0 <= k < |r.children| ==> r.children[k].TextNode?
    ensures r == e.(children := r.children)
  {
    SetText(e, if Truthy(data) then ToStr(data) else "")
  }

  /** `attr`: sets the attribute named by what follows `mns-attr-` to the value, or to `''`. */
  function AttrBinding(e: Element, name: string, data: Value): (r: Result<Element, Fault>)
    ensures r.Err? <==> !ValidName(StripPrefix(name, Monster.PrefixAttr))
    ensures r.Ok? ==> GetAttr(r.value.attrs, AsciiLower(StripPrefix(name, Monster.PrefixAttr)))
                      == Some(if Truthy(data) then ToStr(data) else "")
    ensures r.Ok? ==> forall n :: n != AsciiLower(StripPrefix(name, Monster.PrefixAttr)) ==> GetAttr(r.value.attrs, n) == GetAttr(e.attrs, n)
    ensures r.Ok? ==> r.value == e.(attrs := r.value.attrs)
  {
    SetAttribute(e, StripPrefix(name, Monster.PrefixAttr), if Truthy(data) then ToStr(data) else "")
  }

  /**
    How many times `for (i = 0; i < data.length; i++)` runs for a given
    `length`: a number counts itself (none when not positive), `true` counts
    as one, and `undefined`, `null` and `false` stop the loop at once.
   */
  function LoopBound(length: Value): (n: nat)
    ensures length.Int? ==> n == (if length.i > 0 then length.i else 0)
    ensures !length.Int? && n > 0 ==> length == Bool(true) && n == 1
  {
    match length
    case Int(i) => if i > 0 then i else 0
    case Bool(b) => if b then 1 else 0
    case _ => 0
  }

  // ----- views -----

  /** The document, the lines logged so far, and the exception propagating out, if any. */
  datatype State = State(dom: Heap, log: seq<string>, thrown: Option<Fault>)

  /**
    A bound view: its template, its `context` property (`undefined` for an
    unwrapped model), the scope its paths resolve against, and the node list
    it bound.
   */
  datatype View = View(template: Ref, context: Value, scope: Value, nodes: seq<Ref>)

  const TemplateMissing := "You must specify a template for this view"
  const ModelMissing := "You must specify a model for this view"

  /** `q` is neither `t` nor an element below it. */
  predicate Outside(h: Heap, t: Ref, q: Ref) {
    q != t && q !in Descendants(h, t)
  }

  /** From `h` to `h'`: nodes are only added, and nothing outside `t`'s subtree changes. */
  predicate Framed(h: Heap, h': Heap, t: Ref) {
    |h'| >= |h| && forall q :: 0 <= q < |h| && Outside(h, t, q) ==> h'[q] == h[q]
  }

  /** From `h` to `h'`: nodes are only added, and no existing node other than `r` changes. */
  predicate Only(h: Heap, h': Heap, r: Ref) {
    |h'| >= |h| && forall q :: 0 <= q < |h| && q != r ==> h'[q] == h[q]
  }

  /** Writes back a handler's element, or starts propagating the exception it threw. */
  function Commit(st: State, r: Ref, res: Result<Element, Fault>): (st': State)
    ensures Only(st.dom, st'.dom, r) && |st'.dom| == |st.dom| && st'.log == st.log
    ensures res.Ok? ==> st' == st.(dom := Put(st.dom, r, res.value))
    ensures res.Err? ==> st' == st.(thrown := Some(res.error))
  {
    match res
    case Ok(e) => st.(dom := Put(st.dom, r, e))
    case Err(f) => st.(thrown := Some(f))
  }

  /**
    `new view({template, context, model})`: logs and stops without a
    template or without a model; wraps the model as `{[context]: model}`
    unless the context is exactly `''`; then binds. A template that is not
    an element has no `querySelectorAll`, which throws. A throw while
    binding leaves `new` with no view to return.
   */
  function Construct(bindRoot: bool, st: State, template: TemplateArg, context: Value, model: Value): (r: (State, Option<View>))
    ensures template.FalsyArg? ==> r == (st.(log := st.log + [TemplateMissing]), None)
    ensures !template.FalsyArg? && !Truthy(model) ==> r == (st.(log := st.log + [ModelMissing]), None)
    ensures !template.FalsyArg? && Truthy(model) && !(template.ElementArg? && template.ref < |st.dom|) ==>
              r == (st.(thrown := Some(TypeError("the template has no querySelectorAll"))), None)
    ensures r.1.Some? <==> template.ElementArg? && template.ref < |st.dom| && Truthy(model) && r.0.thrown.None?
    ensures r.1.Some? ==> r.1.value.template == template.ref
                          && r.1.value.context == (if context == Str("") then Undefined else context)
                          && r.1.value.scope == (if context == Str("") then model else Scope(ToStr(context), model))
                          && r.1.value.nodes == Descendants(st.dom, template.ref)
    ensures template.ElementArg? ==> Framed(st.dom, r.0.dom, template.ref)
    ensures !template.ElementArg? ==> r.0.dom == st.dom
    decreases Size(model) + 2, 5, 0
  {
    if template.FalsyArg? then (st.(log := st.log + [TemplateMissing]), None)
    else if !Truthy(model) then (st.(log := st.log + [ModelMissing]), None)
    else if !(template.ElementArg? && template.ref < |st.dom|) then
      (st.(thrown := Some(TypeError("the template has no querySelectorAll"))), None)
    else
      var ctxv := if context == Str("") then Undefined else context;
      var scope := if context == Str("") then model else Scope(ToStr(context), model);
      ScopeSize(ToStr(context), model);
      var (st', nodes) := ViewBind(bindRoot, st, template.ref, scope, ctxv);
      if st'.thrown.Some? then (st', None) else (st', Some(View(template.ref, ctxv, scope, nodes)))
  }

  /**
    `view.bindModel()`: snapshots the template's element descendants, then
    binds them in document order (after the template itself, with `bindRoot`).
   */
  function ViewBind(bindRoot: bool, st: State, t: Ref, scope: Value, ctxv: Value): (r: (State, seq<Ref>))
    requires t < |st.dom|
    ensures r.1 == Descendants(st.dom, t)
    ensures Framed(st.dom, r.0.dom, t)
    ensures !bindRoot ==> r.0.dom[t] == st.dom[t]
    decreases Size(scope), 4, 0
  {
    var nodes := Descendants(st.dom, t);
    var st1 := if bindRoot then BindNode(bindRoot, st, t, scope, ctxv) else st;
    (BindAll(bindRoot, st1, nodes, scope, ctxv), nodes)
  }

  /** The `for` loop of `bindModel` over the snapshot, stopped by the first exception. */
  function BindAll(bindRoot: bool, st: State, nodes: seq<Ref>, scope: Value, ctxv: Value): (st': State)
    ensures |st'.dom| >= |st.dom|
    ensures forall q :: 0 <= q < |st.dom| && q !in nodes ==> st'.dom[q] == st.dom[q]
    ensures st.thrown.Some? ==> st' == st
    decreases Size(scope), 3, |nodes|
  {
    if |nodes| == 0 || st.thrown.Some? then st
    else BindAll(bindRoot, BindNode(bindRoot, st, nodes[0], scope, ctxv), nodes[1..], scope, ctxv)
  }

  /** `view.bindNode(node)`: reads the attribute count once, then the attributes, the first first. */
  function BindNode(bindRoot: bool, st: State, r: Ref, scope: Value, ctxv: Value): (st': State)
    ensures Only(st.dom, st'.dom, r)
    ensures st.thrown.Some? || r >= |st.dom| || st.dom[r].attrs == [] ==> st' == st
    decreases Size(scope), 2, 0
  {
    if r < |st.dom| then BindAttrs(bindRoot, st, r, 0, |st.dom[r].attrs|, scope, ctxv) else st
  }

  /**
    Attributes `i` to `len - 1` of node `r`, each read from the live
    attribute list; an index past its end reads `undefined`, which throws.
   */
  function BindAttrs(bindRoot: bool, st: State, r: Ref, i: nat, len: nat, scope: Value, ctxv: Value): (st': State)
    ensures Only(st.dom, st'.dom, r)
    ensures st.thrown.Some? ==> st' == st
    decreases Size(scope), 1, len - i
  {
    if i >= len || st.thrown.Some? then st
    else if r >= |st.dom| || i >= |st.dom[r].attrs| then st.(thrown := Some(TypeError("the attribute is undefined")))
    else BindAttrs(bindRoot, Invoke(bindRoot, st, r, st.dom[r].attrs[i], scope, ctxv), r, i + 1, len, scope, ctxv)
  }

  /** The table `src/monster.js` has. */
  predicate IsSourceBinding(ty: string) {
    ty == "text" || ty == "attr" || ty == "each"
  }

  /**
    One attribute: a `mns-` name calls the table entry its derived type
    names, and a type the table lacks throws; other names are skipped.
   */
  function Invoke(bindRoot: bool, st: State, r: Ref, a: Attr, scope: Value, ctxv: Value): (st': State)
    requires r < |st.dom|
    ensures Only(st.dom, st'.dom, r)
    ensures !HasPrefix(a.name) ==> st' == st
    ensures HasPrefix(a.name) && !IsSourceBinding(SourceBindingType(a.name)) ==>
              st' == st.(thrown := Some(TypeError("the binding is not a function")))
    decreases Size(scope), 0, 2
  {
    if !HasPrefix(a.name) then st
    else
      var ty := SourceBindingType(a.name);
      if ty == "text" then st.(dom := Put(st.dom, r, TextBinding(st.dom[r], Resolve(scope, a.value))))
      else if ty == "attr" then Commit(st, r, AttrBinding(st.dom[r], a.name, Resolve(scope, a.value)))
      else if ty == "each" then EachHandler(bindRoot, st, r, a, scope, ctxv)
      else st.(thrown := Some(TypeError("the binding is not a function")))
  }

  /** The path `each` resolves: the view's context, a dot, and what follows `mns-each-`. */
  function EachPath(ctxv: Value, name: string): (p: string)
    ensures |Split(p, '.')| >= 2
  {
    var p := ToStr(ctxv) + "." + StripPrefix(name, Monster.PrefixEach);
    assert p[|ToStr(ctxv)|] == '.';
    p
  }

  /**
    `each`: keeps the template on the host (`monsterTmp`), empties the host
    and runs the counting loop over the collection, each entry a new view of
    a fresh copy of the template whose context is the attribute's value.
   */
  function EachHandler(bindRoot: bool, st: State, r: Ref, a: Attr, scope: Value, ctxv: Value): (st': State)
    requires r < |st.dom|
    ensures Only(st.dom, st'.dom, r)
    ensures Monster.EachTemplate(st.dom, r).None? ==> st' == st.(thrown := Some(TypeError("the host has no element child")))
    ensures Monster.EachTemplate(st.dom, r).Some? ==>
              st'.dom[r] == st.dom[r].(clone := Monster.EachTemplate(st.dom, r), children := st'.dom[r].children)
    ensures Monster.EachTemplate(st.dom, r).Some? && st.thrown.None? && st'.thrown.None? ==>
              |st'.dom[r].children| == LoopBound(Get(Resolve(scope, EachPath(ctxv, a.name)), "length"))
    decreases Size(scope), 0, 1
  {
    var data := Resolve(scope, EachPath(ctxv, a.name));
    var len := LoopBound(Get(data, "length"));
    GetSmaller(data, "length");
    match Monster.EachTemplate(st.dom, r)
    case None => st.(thrown := Some(TypeError("the host has no element child")))
    case Some(tpl) =>
      var st1 := st.(dom := st.dom[r := st.dom[r].(clone := Some(tpl), children := [])]);
      EachItems(bindRoot, st1, r, a.value, data, 0, len, tpl, scope)
  }

  /** Entries `i` to `len - 1` of the collection, stopped by the first exception. */
  function EachItems(bindRoot: bool, st: State, r: Ref, ctx: string, data: Value, i: nat, len: nat, tpl: Markup, scope: Value): (st': State)
    requires r < |st.dom|
    requires i < len ==> (data.Obj? || data.Arr?) && Size(data) + 4 <= Size(scope)
    ensures Only(st.dom, st'.dom, r)
    ensures st'.dom[r] == st.dom[r].(children := st'.dom[r].children)
    ensures st.thrown.None? && st'.thrown.None? ==>
              |st'.dom[r].children| == |st.dom[r].children| + (if i < len then len - i else 0)
    decreases Size(scope), 0, 0, len - i
  {
    if i >= len || st.thrown.Some? then st
    else
      var item := Get(data, NatToStr(i));
      GetSmaller(data, NatToStr(i));
      var st1 := EachItem(bindRoot, st, r, ctx, item, tpl, scope);
      EachItems(bindRoot, st1, r, ctx, data, i + 1, len, tpl, scope)
  }

  /**
    One entry: a fresh copy of the template becomes a view of the entry,
    then is appended to the host whatever the view did, unless it threw. A
    falsy entry only logs, and a copy that is not an element throws once
    the view tries to bind it.
   */
  function EachItem(bindRoot: bool, st: State, r: Ref, ctx: string, item: Value, tpl: Markup, scope: Value): (st': State)
    requires r < |st.dom| && Size(item) + 4 <= Size(scope)
    ensures Only(st.dom, st'.dom, r)
    ensures st'.dom[r] == st.dom[r].(children := st'.dom[r].children)
    ensures st'.thrown.None? ==> |st'.dom[r].children| == |st.dom[r].children| + 1
    ensures st'.thrown.None? && tpl.MElement? ==> st'.dom[r].children == st.dom[r].children + [ElementNode(|st.dom|)]
    ensures !Truthy(item) ==> st'.log == st.log + [ModelMissing] && st'.thrown == st.thrown
    decreases Size(scope), 0, 0, 0
  {
    var (dom1, c) := AllocOne(st.dom, tpl);
    var template := if c.ElementNode? then ElementArg(c.ref) else OtherNodeArg;
    var (st2, _) := Construct(bindRoot, st.(dom := dom1), template, Str(ctx), item);
    if st2.thrown.Some? then st2
    else st2.(dom := st2.dom[r := st2.dom[r].(children := st2.dom[r].children + [c])])
  }

  // ----- monster.view -----

  /**
    `monster.view(template, opt)`: reads `opt.context`, which throws without
    options, and constructs a view. The view is `None` when the constructor
    returned before binding or threw.
   */
  function CreateView(bindRoot: bool, dom: Heap, template: TemplateArg, opt: Value): (r: (State, Option<View>))
    ensures opt.Undefined? || opt.Null? ==> r == (State(dom, [], Some(TypeError("the options are undefined"))), None)
    ensures !(opt.Undefined? || opt.Null?) && template.FalsyArg? ==> r == (State(dom, [TemplateMissing], None), None)
    ensures !(opt.Undefined? || opt.Null?) && !template.FalsyArg? && !Truthy(Get(opt, "model")) ==>
              r == (State(dom, [ModelMissing], None), None)
    ensures !(opt.Undefined? || opt.Null?) && !template.FalsyArg? && Truthy(Get(opt, "model"))
            && !(template.ElementArg? && template.ref < |dom|) ==>
              r == (State(dom, [], Some(TypeError("the template has no querySelectorAll"))), None)
    ensures r.1.Some? <==> !(opt.Undefined? || opt.Null?) && template.ElementArg? && template.ref < |dom|
                           && Truthy(Get(opt, "model")) && r.0.thrown.None?
    ensures r.1.Some? ==> r.1.value.template == template.ref
                          && r.1.value.context == (if Get(opt, "context") == Str("") then Undefined else Get(opt, "context"))
                          && r.1.value.nodes == Descendants(dom, template.ref)
    ensures r.1.Some? ==> r.1.value.scope == (if Get(opt, "context") == Str("") then Get(opt, "model")
                                              else Scope(ToStr(Get(opt, "context")), Get(opt, "model")))
    ensures template.ElementArg? ==> Framed(dom, r.0.dom, template.ref)
  {
    if opt.Undefined? || opt.Null? then (State(dom, [], Some(TypeError("the options are undefined"))), None)
    else
      assert [] + [TemplateMissing] == [TemplateMissing] && [] + [ModelMissing] == [ModelMissing];
      Construct(bindRoot, State(dom, [], None), template, Get(opt, "context"), Get(opt, "model"))
  }
}

=== FILE: monster_src_proofs.dfy ===
/**
  Properties of the first binder: how its resolver relates to the later
  one, which attribute names it can bind, what an unwrapped view makes of
  `each`, and the template element an item view leaves unbound.
 */
module MonsterSourceProofs {
  import opened Wrappers
  import opened JsStrings
  import opened JsValues
  import opened Dom
  import opened BindingNames
  import opened MonsterSource
  import Monster
  import opened Sequences
  import opened DomProofs

  // ----- the resolver, against the later builds -----

  /** A walk stopped by a falsy step gives `false` here, where the later walk gives that step or nothing. */
  lemma {:induction false} TruthyWalkAgrees(v: Value, segs: seq<string>)
    requires |segs| >= 1
    ensures TruthyWalk(v, segs) == (var w := Walk(v, segs); if w.Some? && Truthy(w.value) then w.value else Bool(false))
    decreases |segs|
  {
    var w := Get(v, segs[0]);
    var rest := segs[1..];
    if Truthy(w) {
      if |rest| >= 1 {
        TruthyWalkAgrees(w, rest);
      }
    } else if !(w.Undefined? || w.Null?) && |rest| >= 1 {
      assert Get(w, rest[0]).Undefined?;
    }
  }

  /**
    `_toProperty` here keeps what the later resolver finds when it is truthy
    and gives `false` otherwise, including for `0`, `''` and `false` found
    along the path.
   */
  lemma ResolveAcrossBuilds(scope: Value, path: string)
    ensures MonsterSource.Resolve(scope, path) ==
            (var m := Monster.Resolve(scope, path); if Truthy(m) then m else Bool(false))
  {
    TruthyWalkAgrees(scope, Split(path, '.'));
  }

  /** The text bindings of the two builds agree except that this one blanks a falsy value. */
  lemma TextAcrossBuilds(e: Element, scope: Value, path: string)
    ensures TextOf(MonsterSource.TextBinding(e, MonsterSource.Resolve(scope, path))) ==
            (var m := Monster.Resolve(scope, path);
             if Truthy(m) then TextOf(Monster.TextBinding(e, m)) else "")
  {
    ResolveAcrossBuilds(scope, path);
  }

  // ----- attribute names -----

  /** A binding name without a hyphen after `mns-` is its own type. */
  lemma SourceTypeOfPlain(t: string)
    requires '-' !in t
    ensures SourceBindingType(Prefix + t) == t
  {
    assert StripPrefix(Prefix + t, Prefix) == t;
  }

  /** `mns-text` binds text, while `mns-show`, which the later builds bind, is not in this table. */
  lemma SourceNames()
    ensures SourceBindingType("mns-text") == "text"
    ensures SourceBindingType("mns-show") == "show" && !IsSourceBinding("show")
  {
    SourceTypeOfPlain("text");
    SourceTypeOfPlain("show");
  }

  /**
    A binding type outside the table, such as `mns-show`, throws while the
    view binds, so `monster.view` returns no view. Shown with the template
    itself bound, which carries the attribute.
   */
  lemma UnknownBindingNoView(dom: Heap, t: Ref, a: Attr, opt: Value)
    requires t < |dom| && dom[t].attrs == [a] && HasPrefix(a.name) && !IsSourceBinding(SourceBindingType(a.name))
    requires !(opt.Undefined? || opt.Null?) && Truthy(Get(opt, "model"))
    ensures var r := CreateView(true, dom, ElementArg(t), opt);
            r.0.thrown == Some(TypeError("the binding is not a function")) && r.1.None?
  {
    var ctx := Get(opt, "context");
    var model := Get(opt, "model");
    var ctxv := if ctx == Str("") then Undefined else ctx;
    var scope := if ctx == Str("") then model else Scope(ToStr(ctx), model);
    var st := State(dom, [], None);
    var st0 := Invoke(true, st, t, a, scope, ctxv);
    assert st0 == st.(thrown := Some(TypeError("the binding is not a function")));
    assert BindAttrs(true, st0, t, 1, 1, scope, ctxv) == st0;
    var st1 := BindNode(true, st, t, scope, ctxv);
    assert st.dom[t].attrs[0] == a && |st.dom[t].attrs| == 1;
    assert st1 == BindAttrs(true, st, t, 0, 1, scope, ctxv);
    assert st1 == BindAttrs(true, st0, t, 1, 1, scope, ctxv);
    assert st1.thrown == Some(TypeError("the binding is not a function"));
    assert ViewBind(true, st, t, scope, ctxv).0 == BindAll(true, st1, Descendants(dom, t), scope, ctxv);
  }

  // ----- paths -----

  /** A dotted pair of dot-free names splits into the two names. */
  lemma SplitPair(p: string, q: string)
    requires '.' !in p && '.' !in q
    ensures Split(p + "." + q, '.') == [p, q]
  {
    SplitConcat(p, q, '.');
    assert p + "." + q == p + ['.'] + q;
  }

  /**
    `each` resolves its collection under the view's context, whatever the
    attribute's value says; a context naming no truthy property of the scope
    leaves the host empty and throws nothing.
   */
  lemma EachMissEmpties(bindRoot: bool, st: State, r: Ref, a: Attr, scope: Value, ctxv: Value)
    requires r < |st.dom| && st.thrown.None? && Monster.EachTemplate(st.dom, r).Some?
    requires '.' !in ToStr(ctxv) && !Truthy(Get(scope, ToStr(ctxv)))
    ensures var st' := EachHandler(bindRoot, st, r, a, scope, ctxv);
            st'.thrown.None? && st'.dom[r].children == [] && st'.dom[r].clone == Monster.EachTemplate(st.dom, r)
  {
    var c := ToStr(ctxv);
    var x := StripPrefix(a.name, Monster.PrefixEach);
    var path := EachPath(ctxv, a.name);
    assert path == c + ['.'] + x;
    SplitConcat(c, x, '.');
    var segs := Split(path, '.');
    assert segs == [c] + Split(x, '.');
    assert segs[1..] == Split(x, '.');
    assert MonsterSource.Resolve(scope, path) == TruthyWalk(Bool(false), segs[1..]);
  }

  /**
    A view made with the context `''` has no context, so its `each`
    bindings look under the key `"undefined"` and, for a model without it,
    render nothing.
   */
  lemma UnwrappedEachEmpties(bindRoot: bool, st: State, r: Ref, a: Attr, model: Value)
    requires r < |st.dom| && st.thrown.None? && Monster.EachTemplate(st.dom, r).Some?
    requires !Truthy(Get(model, "undefined"))
    ensures var st' := EachHandler(bindRoot, st, r, a, model, Undefined);
            st'.thrown.None? && st'.dom[r].children == []
  {
    assert '.' !in "undefined";
    EachMissEmpties(bindRoot, st, r, a, model, Undefined);
  }

  // ----- the item template's own bindings -----

  /** An item template `<li mns-text="{path}"></li>`. */
  function ItemTemplate(path: string): Markup {
    MElement("li", [Attr("mns-text", path)], Unset, [], [])
  }

  /** A path `ctx.field` in an item view whose context is `ctx` reads the item's `field`. */
  lemma ItemFieldResolves(ctx: string, field: string, item: Value)
    requires '.' !in ctx && '.' !in field && Truthy(item)
    ensures var d := Get(item, field);
            MonsterSource.Resolve(Scope(ctx, item), ctx + "." + field) == (if Truthy(d) then d else Bool(false))
  {
    SplitPair(ctx, field);
    var d := Get(item, field);
    assert Get(Scope(ctx, item), ctx) == item;
    assert [ctx, field][1..] == [field];
    assert [field][1..] == [];
    assert TruthyWalk(Scope(ctx, item), [ctx, field]) == TruthyWalk(item, [field]);
    assert TruthyWalk(item, [field]) == TruthyWalk(if Truthy(d) then d else Bool(false), []);
  }

  /** `mns-text="p"` on node `t` sets its text to what `p` resolves to. */
  lemma TextAttrInvoke(bindRoot: bool, st: State, t: Ref, p: string, scope: Value, ctxv: Value)
    requires t < |st.dom|
    ensures Invoke(bindRoot, st, t, Attr("mns-text", p), scope, ctxv) ==
            st.(dom := Put(st.dom, t, TextBinding(st.dom[t], MonsterSource.Resolve(scope, p))))
  {
    SourceNames();
    assert "mns-text" == Prefix + "text";
  }

  /** Binding a node whose only attribute is `mns-text="p"` sets its text and nothing else. */
  lemma TextOnlyNode(bindRoot: bool, st: State, t: Ref, p: string, scope: Value, ctxv: Value)
    requires t < |st.dom| && st.thrown.None? && st.dom[t].attrs == [Attr("mns-text", p)]
    ensures BindNode(bindRoot, st, t, scope, ctxv) ==
            st.(dom := Put(st.dom, t, TextBinding(st.dom[t], MonsterSource.Resolve(scope, p))))
  {
    TextAttrInvoke(bindRoot, st, t, p, scope, ctxv);
    var st2 := Invoke(bindRoot, st, t, Attr("mns-text", p), scope, ctxv);
    assert BindAttrs(bindRoot, st2, t, 1, 1, scope, ctxv) == st2;
  }

  /**
    With the template bound first, a template carrying only
    `mns-text="p"` shows what `p` resolves to, whatever its descendants do.
   */
  lemma CorrectedRootBound(st: State, t: Ref, p: string, scope: Value, ctxv: Value)
    requires t < |st.dom| && st.thrown.None? && st.dom[t].attrs == [Attr("mns-text", p)]
    ensures var d := MonsterSource.Resolve(scope, p);
            TextOf(ViewBind(true, st, t, scope, ctxv).0.dom[t]) == (if Truthy(d) then ToStr(d) else "")
  {
    TextOnlyNode(true, st, t, p, scope, ctxv);
    var st1 := BindNode(true, st, t, scope, ctxv);
    var nodes := Descendants(st.dom, t);
    assert t !in nodes;
    assert ViewBind(true, st, t, scope, ctxv).0 == BindAll(true, st1, nodes, scope, ctxv);
  }

  /** A fresh copy of an item template is one new element with no children. */
  lemma AllocItem(h: Heap, path: string)
    ensures var (h1, c) := AllocOne(h, ItemTemplate(path));
            && c == ElementNode(|h|)
            && |h1| == |h| + 1
            && h1[|h|].attrs == [Attr("mns-text", path)]
            && h1[|h|].children == []
  {
    var e := Element("li", [Attr("mns-text", path)], [], Unset, [], {}, map[], None, None);
    assert AllocSeq(h + [e], []) == (h + [e], []);
  }

  /** An element without children has no descendants. */
  lemma LeafDescendants(h: Heap, t: Ref)
    requires t < |h| && h[t].children == []
    ensures Descendants(h, t) == []
  {
  }

  /** As written, an item view of a leaf template binds nothing at all. */
  lemma LeafViewAsWritten(st: State, t: Ref, ctx: string, item: Value)
    requires t < |st.dom| && Descendants(st.dom, t) == [] && Truthy(item)
    ensures Construct(false, st, ElementArg(t), Str(ctx), item).0 == st
  {
    var ctxv := if ctx == "" then Undefined else Str(ctx);
    var sc := if ctx == "" then item else Scope(ctx, item);
    assert ViewBind(false, st, t, sc, ctxv).0 == BindAll(false, st, [], sc, ctxv);
  }

  /**
    As written, an item view never binds the item element: an
    `<li mns-text="song.title">` made for an entry is appended empty.
   */
  lemma EachItemAsWritten(st: State, r: Ref, ctx: string, field: string, item: Value, scope: Value)
    requires r < |st.dom| && st.thrown.None? && Truthy(item) && Size(item) + 4 <= Size(scope)
    ensures var st' := EachItem(false, st, r, ctx, item, ItemTemplate(ctx + "." + field), scope);
            && st'.thrown.None?
            && |st'.dom| == |st.dom| + 1
            && st'.dom[r].children == st.dom[r].children + [ElementNode(|st.dom|)]
            && TextOf(st'.dom[|st.dom|]) == ""
  {
    AllocItem(st.dom, ctx + "." + field);
    var (dom1, c) := AllocOne(st.dom, ItemTemplate(ctx + "." + field));
    LeafDescendants(dom1, c.ref);
    LeafViewAsWritten(st.(dom := dom1), c.ref, ctx, item);
  }

  /** Binding the item element as well, the same `<li>` shows the entry's field. */
  lemma EachItemCorrected(st: State, r: Ref, ctx: string, field: string, item: Value, scope: Value)
    requires r < |st.dom| && st.thrown.None? && Truthy(item) && Size(item) + 4 <= Size(scope)
    requires ctx != "" && '.' !in ctx && '.' !in field
    ensures var st' := EachItem(true, st, r, ctx, item, ItemTemplate(ctx + "." + field), scope);
            var d := Get(item, field);
            && st'.thrown.None?
            && |st'.dom| == |st.dom| + 1
            && st'.dom[r].children == st.dom[r].children + [ElementNode(|st.dom|)]
            && TextOf(st'.dom[|st.dom|]) == (if Truthy(d) then ToStr(d) else "")
  {
    var path := ctx + "." + field;
    AllocItem(st.dom, path);
    var (dom1, c) := AllocOne(st.dom, ItemTemplate(path));
    var st1 := st.(dom := dom1);
    LeafDescendants(dom1, c.ref);
    var sc := Scope(ctx, item);
    ItemFieldResolves(ctx, field, item);
    TextOnlyNode(true, st1, c.ref, path, sc, Str(ctx));
    var st2 := BindNode(true, st1, c.ref, sc, Str(ctx));
    assert ViewBind(true, st1, c.ref, sc, Str(ctx)).0 == st2;
  }

  // ----- the scan order -----

  /** The captured node list is folded in order: binding `a + b` binds `a`, then `b`. */
  lemma {:induction false} BindAllSplits(bindRoot: bool, st: State, a: seq<Ref>, b: seq<Ref>, scope: Value, ctxv: Value)
    ensures BindAll(bindRoot, st, a + b, scope, ctxv) == BindAll(bindRoot, BindAll(bindRoot, st, a, scope, ctxv), b, scope, ctxv)
    decreases |a|
  {
    if |a| == 0 {
      assert a + b == b;
    } else if st.thrown.None? {
      var st1 := BindNode(bindRoot, st, a[0], scope, ctxv);
      assert (a + b)[0] == a[0] && (a + b)[1..] == a[1..] + b;
      assert BindAll(bindRoot, st, a + b, scope, ctxv) == BindAll(bindRoot, st1, a[1..] + b, scope, ctxv);
      assert BindAll(bindRoot, st, a, scope, ctxv) == BindAll(bindRoot, st1, a[1..], scope, ctxv);
      BindAllSplits(bindRoot, st1, a[1..], b, scope, ctxv);
    }
  }

  /**
    The attributes of a node are read first to last, so of two text
    bindings on one node the later one decides the text.
   */
  lemma LaterTextWins(bindRoot: bool, st: State, t: Ref, a1: Attr, a2: Attr, scope: Value, ctxv: Value)
    requires t < |st.dom| && st.thrown.None? && st.dom[t].attrs == [a1, a2]
    requires HasPrefix(a1.name) && SourceBindingType(a1.name) == "text"
    requires HasPrefix(a2.name) && SourceBindingType(a2.name) == "text"
    ensures var b := BindNode(bindRoot, st, t, scope, ctxv);
            var d := MonsterSource.Resolve(scope, a2.value);
            t < |b.dom| && b.thrown.None? && TextOf(b.dom[t]) == (if Truthy(d) then ToStr(d) else "")
  {
    var st1 := Invoke(bindRoot, st, t, a1, scope, ctxv);
    assert st1 == st.(dom := Put(st.dom, t, TextBinding(st.dom[t], MonsterSource.Resolve(scope, a1.value))));
    assert st1.dom[t].attrs == [a1, a2];
    var st2 := Invoke(bindRoot, st1, t, a2, scope, ctxv);
    assert st2 == st1.(dom := Put(st1.dom, t, TextBinding(st1.dom[t], MonsterSource.Resolve(scope, a2.value))));
    assert BindAttrs(bindRoot, st2, t, 2, 2, scope, ctxv) == st2;
    assert BindAttrs(bindRoot, st1, t, 1, 2, scope, ctxv) == st2;
    assert BindNode(bindRoot, st, t, scope, ctxv) == BindAttrs(bindRoot, st, t, 0, 2, scope, ctxv) == st2;
  }

  // ----- each, entry by entry -----

  /**
    What an entry's `<li mns-text="ctx.field">` shows: nothing as written;
    with the item element bound, the entry's field, or nothing for a falsy
    entry or field.
   */
  function ItemText(bindRoot: bool, item: Value, field: string): string {
    if bindRoot && Truthy(item) then
      var d := Get(item, field);
      if Truthy(d) then ToStr(d) else ""
    else ""
  }

  function ItemTexts(bindRoot: bool, items: seq<Value>, field: string): (ts: seq<string>)
    ensures |ts| == |items| && forall k :: 0 <= k < |items| ==> ts[k] == ItemText(bindRoot, items[k], field)
  {
    seq(|items|, k requires 0 <= k < |items| => ItemText(bindRoot, items[k], field))
  }

  lemma ItemTextsCons(bindRoot: bool, items: seq<Value>, i: nat, field: string)
    requires i < |items|
    ensures ItemTexts(bindRoot, items[i..], field) == [ItemText(bindRoot, items[i], field)] + ItemTexts(bindRoot, items[i + 1..], field)
  {
  }

  /**
    One entry over `<li mns-text="ctx.field">`: no exception, and one new
    node at the end of the heap, appended to the host, showing the entry's
    text. A falsy entry only logs, but its copy is appended all the same.
   */
  lemma EachItemLeaf(bindRoot: bool, st: State, r: Ref, ctx: string, field: string, item: Value, scope: Value)
    requires r < |st.dom| && st.thrown.None? && Size(item) + 4 <= Size(scope)
    requires bindRoot ==> ctx != "" && '.' !in ctx && '.' !in field
    ensures var st' := EachItem(bindRoot, st, r, ctx, item, ItemTemplate(ctx + "." + field), scope);
            st'.thrown.None? && Appended(st.dom, st'.dom, r, [ItemText(bindRoot, item, field)])
  {
    var tpl := ItemTemplate(ctx + "." + field);
    var st' := EachItem(bindRoot, st, r, ctx, item, tpl, scope);
    AllocItem(st.dom, ctx + "." + field);
    var (dom1, c) := AllocOne(st.dom, tpl);
    if !Truthy(item) {
      assert st'.dom == dom1[r := dom1[r].(children := dom1[r].children + [c])];
      assert TextOf(st'.dom[|st.dom|]) == "";
    } else if bindRoot {
      EachItemCorrected(st, r, ctx, field, item, scope);
    } else {
      EachItemAsWritten(st, r, ctx, field, item, scope);
    }
    assert TextOf(st'.dom[|st.dom| + 0]) == [ItemText(bindRoot, item, field)][0];
    assert Fresh(|st.dom|, 1) == [ElementNode(|st.dom|)];
  }

  /**
    The counting loop over an array of entries, from entry `i`: no
    exception, and one new node per entry appended to the host in order,
    each showing its entry's text.
   */
  lemma {:induction false} EachItemsLeaves(bindRoot: bool, st: State, r: Ref, ctx: string, field: string,
                                           items: seq<Value>, i: nat, scope: Value)
    requires r < |st.dom| && st.thrown.None? && i <= |items| && Size(Arr(items)) + 4 <= Size(scope)
    requires bindRoot ==> ctx != "" && '.' !in ctx && '.' !in field
    ensures var st' := EachItems(bindRoot, st, r, ctx, Arr(items), i, |items|, ItemTemplate(ctx + "." + field), scope);
            st'.thrown.None? && Appended(st.dom, st'.dom, r, ItemTexts(bindRoot, items[i..], field))
    decreases |items| - i
  {
    var tpl := ItemTemplate(ctx + "." + field);
    if i == |items| {
      assert st.dom[r].children + Fresh(|st.dom|, 0) == st.dom[r].children;
    } else {
      ArrayIndexKey(items, i);
      GetSmaller(Arr(items), NatToStr(i));
      var st1 := EachItem(bindRoot, st, r, ctx, items[i], tpl, scope);
      EachItemLeaf(bindRoot, st, r, ctx, field, items[i], scope);
      EachItemsLeaves(bindRoot, st1, r, ctx, field, items, i + 1, scope);
      var st2 := EachItems(bindRoot, st1, r, ctx, Arr(items), i + 1, |items|, tpl, scope);
      assert EachItems(bindRoot, st, r, ctx, Arr(items), i, |items|, tpl, scope) == st2;
      assert st2.dom[|st.dom|] == st1.dom[|st.dom|];
      AppendedCons(st.dom, st1.dom, st2.dom, r, ItemText(bindRoot, items[i], field), ItemTexts(bindRoot, items[i + 1..], field));
      ItemTextsCons(bindRoot, items, i, field);
    }
  }

  /**
    `each` over an array with the item template `<li mns-text="ctx.field">`,
    where `ctx` is the attribute's value: no exception, and the host holds
    exactly one new node per entry, in order, the k-th showing the k-th
    entry's text.
   */
  lemma EachShowsEveryEntry(bindRoot: bool, st: State, r: Ref, a: Attr, scope: Value, ctxv: Value,
                            items: seq<Value>, field: string)
    requires r < |st.dom| && st.thrown.None?
    requires Monster.EachTemplate(st.dom, r) == Some(ItemTemplate(a.value + "." + field))
    requires MonsterSource.Resolve(scope, EachPath(ctxv, a.name)) == Arr(items)
    requires bindRoot ==> a.value != "" && '.' !in a.value && '.' !in field
    ensures var st' := EachHandler(bindRoot, st, r, a, scope, ctxv);
            && st'.thrown.None?
            && |st'.dom| == |st.dom| + |items|
            && st'.dom[r].children == Fresh(|st.dom|, |items|)
            && forall k :: 0 <= k < |items| ==> TextOf(st'.dom[|st.dom| + k]) == ItemText(bindRoot, items[k], field)
  {
    var tpl := ItemTemplate(a.value + "." + field);
    var st1 := st.(dom := st.dom[r := st.dom[r].(clone := Some(tpl), children := [])]);
    assert LoopBound(Get(Arr(items), "length")) == |items|;
    EachItemsLeaves(bindRoot, st1, r, a.value, field, items, 0, scope);
    assert items[0..] == items;
    assert EachHandler(bindRoot, st, r, a, scope, ctxv) == EachItems(bindRoot, st1, r, a.value, Arr(items), 0, |items|, tpl, scope);
    assert [] + Fresh(|st.dom|, |items|) == Fresh(|st.dom|, |items|);
  }

  /** As written, every entry's `<li>` is appended empty. */
  lemma EachShowsNothingAsWritten(st: State, r: Ref, a: Attr, scope: Value, ctxv: Value, items: seq<Value>, field: string)
    requires r < |st.dom| && st.thrown.None?
    requires Monster.EachTemplate(st.dom, r) == Some(ItemTemplate(a.value + "." + field))
    requires MonsterSource.Resolve(scope, EachPath(ctxv, a.name)) == Arr(items)
    ensures var st' := EachHandler(false, st, r, a, scope, ctxv);
            && st'.thrown.None?
            && st'.dom[r].children == Fresh(|st.dom|, |items|)
            && |st'.dom| == |st.dom| + |items|
            && forall n :: |st.dom| <= n < |st'.dom| ==> TextOf(st'.dom[n]) == ""
  {
    EachShowsEveryEntry(false, st, r, a, scope, ctxv, items, field);
    var st' := EachHandler(false, st, r, a, scope, ctxv);
    forall n | |st.dom| <= n < |st'.dom| ensures TextOf(st'.dom[n]) == "" {
      assert TextOf(st'.dom[|st.dom| + (n - |st.dom|)]) == ItemText(false, items[n - |st.dom|], field);
    }
  }

  /**
    With the item element bound, the k-th `<li>` shows field `field` of the
    k-th entry, and nothing for a falsy entry or field.
   */
  lemma EachShowsFieldsCorrected(st: State, r: Ref, a: Attr, scope: Value, ctxv: Value, items: seq<Value>, field: string)
    requires r < |st.dom| && st.thrown.None?
    requires Monster.EachTemplate(st.dom, r) == Some(ItemTemplate(a.value + "." + field))
    requires MonsterSource.Resolve(scope, EachPath(ctxv, a.name)) == Arr(items)
    requires a.value != "" && '.' !in a.value && '.' !in field
    ensures var st' := EachHandler(true, st, r, a, scope, ctxv);
            && st'.thrown.None?
            && st'.dom[r].children == Fresh(|st.dom|, |items|)
            && |st'.dom| == |st.dom| + |items|
            && forall k :: 0 <= k < |items| ==>
                 TextOf(st'.dom[|st.dom| + k])
                 == if Truthy(items[k]) && Truthy(Get(items[k], field)) then ToStr(Get(items[k], field)) else ""
  {
    EachShowsEveryEntry(true, st, r, a, scope, ctxv, items, field);
  }
}

=== FILE: names.dfy ===
/**
  How a binding attribute's name becomes a binding type.

  Both distributed builds strip the prefix `/^(mns-)/` and then the first match
  of `/(\-[a-zA-Z0-9]+)+/`: a run of `-segment` pieces wherever it first
  occurs. The oldest source strips the first match of `(-)([a-zA-Z])` starred
  instead: one hyphen and the letters right after it.
 */
module BindingNames {
  import opened Wrappers
  import opened JsStrings

  const Prefix: string := "mns-"

  /** `/^(mns-)/.test(name)` */
  predicate HasPrefix(name: string) {
    StartsWith(name, Prefix)
  }

  // ----- /(\-[a-zA-Z0-9]+)+/ -----

  /** A `-` followed by an alphanumeric character starts at `i`. */
  predicate SegmentAt(s: string, i: nat) {
    i + 1 < |s| && s[i] == '-' && IsAlnum(s[i + 1])
  }

  /** The leftmost position at or after `from` where a segment starts. */
  function FirstSegment(s: string, from: nat): (r: Option<nat>)
    ensures r.Some? ==> from <= r.value && SegmentAt(s, r.value)
    ensures r.Some? ==> forall j: nat :: from <= j < r.value ==> !SegmentAt(s, j)
    ensures r.None? ==> forall j: nat :: from <= j ==> !SegmentAt(s, j)
    decreases |s| - from
  {
    if from + 1 >= |s| then None
    else if SegmentAt(s, from) then Some(from)
    else FirstSegment(s, from + 1)
  }

  /** The end of the alphanumeric run starting at `j` (greedy `[a-zA-Z0-9]*`). */
  function AlnumEnd(s: string, j: nat): (e: nat)
    requires j <= |s|
    ensures j <= e <= |s|
    ensures e == |s| || !IsAlnum(s[e])
    ensures forall k :: j <= k < e ==> IsAlnum(s[k])
    decreases |s| - j
  {
    if j == |s| || !IsAlnum(s[j]) then j else AlnumEnd(s, j + 1)
  }

  /** The end of the greedy match of `(\-[a-zA-Z0-9]+)+` starting at `i`. */
  function RunEnd(s: string, i: nat): (e: nat)
    requires SegmentAt(s, i)
    ensures i + 2 <= e <= |s|
    ensures e == |s| || !IsAlnum(s[e])
    ensures !SegmentAt(s, e)
    decreases |s| - i
  {
    var e := AlnumEnd(s, i + 1);
    if SegmentAt(s, e) then RunEnd(s, e) else e
  }

  /** `s.replace(/(\-[a-zA-Z0-9]+)+/, '')` */
  function StripSegments(s: string): string {
    match FirstSegment(s, 0)
    case None => s
    case Some(i) => s[..i] + s[RunEnd(s, i)..]
  }

  /** `name.replace(prefix, '').replace(suffix, '')` in both distributed builds. */
  function BindingType(name: string): string {
    StripSegments(StripPrefix(name, Prefix))
  }

  // ----- (-)([a-zA-Z]), starred -----

  /** The end of the run of ASCII letters starting at `j`. */
  function LetterEnd(s: string, j: nat): (e: nat)
    requires j <= |s|
    ensures j <= e <= |s|
    ensures e == |s| || !IsAsciiLetter(s[e])
    ensures forall k :: j <= k < e ==> IsAsciiLetter(s[k])
    decreases |s| - j
  {
    if j == |s| || !IsAsciiLetter(s[j]) then j else LetterEnd(s, j + 1)
  }

  // `s.replace` with the source pattern `(-)([a-zA-Z])`, starred
  function StripDashLetters(s: string): string {
    if '-' in s then
      var i := FirstIndexOf(s, '-');
      s[..i] + s[LetterEnd(s, i + 1)..]
    else s
  }

  /** `name.replace(prefix, '').replace(suffix, '')` in the oldest source. */
  function SourceBindingType(name: string): string {
    StripDashLetters(StripPrefix(name, Prefix))
  }

  // ----- lemmas -----

  /** A qualifier: one or more `-segment` pieces, each segment alphanumeric. */
  predicate IsQualifier(q: string) {
    && |q| >= 2 && q[0] == '-'
    && (forall k :: 0 <= k < |q| ==> q[k] == '-' || IsAlnum(q[k]))
    && (forall k :: 0 <= k < |q| && q[k] == '-' ==> k + 1 < |q| && IsAlnum(q[k + 1]))
  }

  /** No `-` in `t` is followed by an alphanumeric character. */
  predicate NoSegment(t: string) {
    forall j: nat :: j < |t| ==> !SegmentAt(t, j)
  }

  lemma {:induction false} RunEndReachesEnd(s: string, start: nat, i: nat)
    requires start <= i && SegmentAt(s, i)
    requires forall k :: start <= k < |s| ==> s[k] == '-' || IsAlnum(s[k])
    requires forall k :: start <= k < |s| && s[k] == '-' ==> k + 1 < |s| && IsAlnum(s[k + 1])
    ensures RunEnd(s, i) == |s|
    decreases |s| - i
  {
    var e := AlnumEnd(s, i + 1);
    if e < |s| {
      assert s[e] == '-';
      assert SegmentAt(s, e);
      RunEndReachesEnd(s, start, e);
    }
  }

  /**
    Routing: a name made of the prefix, a type without segments and a
    qualifier derives exactly that type, so `mns-attr-product-id` and
    `mns-attr-name-one` both route to `attr`.
   */
  lemma QualifiedNameRoutes(t: string, q: string)
    requires NoSegment(t) && IsQualifier(q)
    ensures BindingType(Prefix + t + q) == t
  {
    var name := Prefix + t + q;
    assert StartsWith(name, Prefix);
    var rest := StripPrefix(name, Prefix);
    assert rest == t + q;
    assert SegmentAt(rest, |t|);
    forall j: nat | j < |t|
      ensures !SegmentAt(rest, j)
    {
      if j + 1 < |t| {
        assert rest[j] == t[j] && rest[j + 1] == t[j + 1];
        assert !SegmentAt(t, j);
      } else {
        assert rest[j + 1] == q[0] == '-';
      }
    }
    assert FirstSegment(rest, 0) == Some(|t|);
    RunEndReachesEnd(rest, |t|, |t|);
    assert rest[..|t|] == t;
  }

  /** A name with no qualifier derives its own unprefixed text, when that has no segment. */
  lemma PlainNameRoutes(t: string)
    requires NoSegment(t)
    ensures BindingType(Prefix + t) == t
  {
    assert StripPrefix(Prefix + t, Prefix) == t;
  }

  predicate AllAlnum(s: string) {
    forall k :: 0 <= k < |s| ==> IsAlnum(s[k])
  }

  /**
    Unreachability: no attribute name derives a type of the form `a-b` with
    alphanumeric `a` and `b`, so a handler registered under such a name is
    never dispatched.
   */
  lemma HyphenatedTypeUnreachable(name: string, a: string, b: string)
    requires |a| >= 1 && |b| >= 1 && AllAlnum(a) && AllAlnum(b)
    ensures BindingType(name) != a + "-" + b
  {
    var t := a + "-" + b;
    var rest := StripPrefix(name, Prefix);
    var r := BindingType(name);
    assert SegmentAt(t, |a|);
    match FirstSegment(rest, 0)
    case None =>
      assert r == rest;
      assert !SegmentAt(r, |a|);
    case Some(i) =>
      var e := RunEnd(rest, i);
      assert r == rest[..i] + rest[e..];
      if i > |a| + 1 {
        // the leftmost segment of the stripped text lies before `i`
        assert r[|a|] == rest[|a|] && r[|a| + 1] == rest[|a| + 1];
        assert !SegmentAt(rest, |a|);
        assert !SegmentAt(r, |a|);
      } else if i == |a| {
        // the hyphen of `t` would have to extend the removed run
        if |r| >= i + 2 {
          assert r[i] == rest[e] && r[i + 1] == rest[e + 1];
          assert !SegmentAt(r, i);
        }
      } else if |r| > i {
        // the character after the removed run would have to be alphanumeric
        assert r[i] == rest[e];
        assert !IsAlnum(r[i]);
        assert IsAlnum(t[i]);
      }
  }

  /** Source rule: one hyphen and the letters after it are removed, the rest is kept. */
  lemma SourceStripsOneSegment(t: string, w: string, u: string)
    requires '-' !in t
    requires forall k :: 0 <= k < |w| ==> IsAsciiLetter(w[k])
    requires |u| == 0 || !IsAsciiLetter(u[0])
    ensures SourceBindingType(Prefix + t + "-" + w + u) == t + u
  {
    var rest := t + "-" + w + u;
    assert StripPrefix(Prefix + t + "-" + w + u, Prefix) == rest;
    assert rest[|t|] == '-';
    assert '-' in rest;
    assert rest[..|t|] == t;
    FirstIndexOfAt(rest, '-', |t|);
    assert LetterEnd(rest, |t| + 1) == |t| + 1 + |w| by {
      LetterEndOf(rest, |t| + 1, |t| + 1 + |w|);
    }
    assert rest[..|t|] == t;
    assert rest[|t| + 1 + |w|..] == u;
  }

  lemma {:induction false} LetterEndOf(s: string, j: nat, e: nat)
    requires j <= e <= |s|
    requires forall k :: j <= k < e ==> IsAsciiLetter(s[k])
    requires e == |s| || !IsAsciiLetter(s[e])
    ensures LetterEnd(s, j) == e
    decreases e - j
  {
    if j < e {
      LetterEndOf(s, j + 1, e);
    }
  }
}

=== FILE: seqs.dfy ===
/** Generic sequence helpers: reversal, used to state the binders' last-first scans. */
module Sequences {
  function Reversed<T>(s: seq<T>): (r: seq<T>)
    ensures |r| == |s|
  {
    if |s| == 0 then [] else [s[|s| - 1]] + Reversed(s[..|s| - 1])
  }

  /** Reversing a prefix: its last element comes first. */
  lemma ReversedLast<T>(s: seq<T>, k: nat)
    requires 0 < k <= |s|
    ensures Reversed(s[..k]) == [s[k - 1]] + Reversed(s[..k - 1])
  {
    assert s[..k][..k - 1] == s[..k - 1];
  }

  /** Reversing a sequence with one more element at the end puts that element first. */
  lemma ReversedSnoc<T>(s: seq<T>, x: T)
    ensures Reversed(s + [x]) == [x] + Reversed(s)
  {
    assert (s + [x])[..|s|] == s;
  }

  lemma AppendAssoc<T>(a: seq<T>, b: seq<T>, c: seq<T>)
    ensures (a + b) + c == a + (b + c)
  {
  }
}

=== FILE: strings.dfy ===
/**
  The string operations the binder relies on, with JavaScript's meaning:
  `String.prototype.split` on a one-character separator, `replace` with a
  string pattern (first occurrence only), an anchored `^prefix` regular
  expression replace, decimal rendering of integers and ASCII lower-casing.
 */
module JsStrings {
  import opened Wrappers

  predicate IsDigit(c: char) {
    '0' <= c <= '9'
  }

  predicate IsAsciiLetter(c: char) {
    ('a' <= c <= 'z') || ('A' <= c <= 'Z')
  }

  /** The character class `[a-zA-Z0-9]`. */
  predicate IsAlnum(c: char) {
    IsAsciiLetter(c) || IsDigit(c)
  }

  predicate StartsWith(s: string, p: string) {
    |p| <= |s| && s[..|p|] == p
  }

  /** `s.replace(/^(p)/, '')`: removes `p` when `s` starts with it. */
  function StripPrefix(s: string, p: string): (r: string)
    ensures StartsWith(s, p) ==> p + r == s
    ensures !StartsWith(s, p) ==> r == s
  {
    if StartsWith(s, p) then
      assert s == s[..|p|] + s[|p|..];
      s[|p|..]
    else s
  }

  /** True when `p` occurs in `s` at position `i`. */
  predicate OccursAt(s: string, p: string, i: nat) {
    i + |p| <= |s| && s[i..i + |p|] == p
  }

  /** The first position at or after `from` where `p` occurs in `s`. */
  function IndexOfFrom(s: string, p: string, from: nat): (r: Option<nat>)
    ensures r.Some? ==> from <= r.value && OccursAt(s, p, r.value)
    ensures r.Some? ==> forall j: nat :: from <= j < r.value ==> !OccursAt(s, p, j)
    ensures r.None? ==> forall j: nat :: from <= j ==> !OccursAt(s, p, j)
    decreases |s| - from
  {
    if from + |p| > |s| then None
    else if s[from..from + |p|] == p then Some(from)
    else IndexOfFrom(s, p, from + 1)
  }

  /** `s.replace(p, '')` with a string pattern: removes the first occurrence of `p`, if any. */
  function ReplaceFirst(s: string, p: string): (r: string)
    ensures (forall j: nat :: !OccursAt(s, p, j)) ==> r == s
    ensures forall i: nat :: OccursAt(s, p, i) && (forall j: nat :: j < i ==> !OccursAt(s, p, j))
                        ==> r == s[..i] + s[i + |p|..]
  {
    match IndexOfFrom(s, p, 0)
    case None => s
    case Some(i) => s[..i] + s[i + |p|..]
  }

  /** The first index of `c` in `s`. */
  function FirstIndexOf(s: string, c: char): (i: nat)
    requires c in s
    ensures i < |s| && s[i] == c && c !in s[..i]
  {
    if s[0] == c then 0 else 1 + FirstIndexOf(s[1..], c)
  }

  /** The first index of `c` is the position before which `c` does not occur. */
  lemma {:induction false} FirstIndexOfAt(s: string, c: char, i: nat)
    requires i < |s| && s[i] == c && c !in s[..i]
    ensures FirstIndexOf(s, c) == i
  {
    if i > 0 {
      assert s[0] in s[..i];
      assert s[1..][..i - 1] == s[1..i];
      forall k | 0 <= k < i - 1
        ensures s[1..i][k] != c
      {
        assert s[1..i][k] == s[..i][k + 1];
      }
      FirstIndexOfAt(s[1..], c, i - 1);
    }
  }

  /** `s.split(sep)` for a one-character separator. */
  function Split(s: string, sep: char): (parts: seq<string>)
    ensures |parts| >= 1
    ensures forall k :: 0 <= k < |parts| ==> sep !in parts[k]
    decreases |s|
  {
    if sep in s then
      var i := FirstIndexOf(s, sep);
      [s[..i]] + Split(s[i + 1..], sep)
    else [s]
  }

  /** `parts.join(sep)`. */
  function Join(parts: seq<string>, sep: char): string {
    if |parts| == 0 then ""
    else if |parts| == 1 then parts[0]
    else parts[0] + [sep] + Join(parts[1..], sep)
  }

  /** Joining the pieces of a split restores the original string. */
  lemma {:induction false} JoinSplit(s: string, sep: char)
    ensures Join(Split(s, sep), sep) == s
    decreases |s|
  {
    if sep in s {
      var i := FirstIndexOf(s, sep);
      JoinSplit(s[i + 1..], sep);
      assert Split(s, sep) == [s[..i]] + Split(s[i + 1..], sep);
      assert s == s[..i] + [sep] + s[i + 1..];
    }
  }

  /** Splitting a join of separator-free pieces gives the pieces back. */
  lemma {:induction false} SplitJoin(parts: seq<string>, sep: char)
    requires |parts| >= 1
    requires forall k :: 0 <= k < |parts| ==> sep !in parts[k]
    ensures Split(Join(parts, sep), sep) == parts
  {
    if |parts| > 1 {
      var s := Join(parts, sep);
      var rest := Join(parts[1..], sep);
      assert s == parts[0] + [sep] + rest;
      assert s[|parts[0]|] == sep;
      assert s[..|parts[0]|] == parts[0];
      assert FirstIndexOf(s, sep) == |parts[0]|;
      assert s[|parts[0]| + 1..] == rest;
      SplitJoin(parts[1..], sep);
    }
  }

  /** Splitting at a separator placed between two strings splits each of them. */
  lemma {:induction false} SplitConcat(p: string, q: string, sep: char)
    ensures Split(p + [sep] + q, sep) == Split(p, sep) + Split(q, sep)
    decreases |p|
  {
    if sep in p {
      var i := FirstIndexOf(p, sep);
      SplitConcat(p[i + 1..], q, sep);
      SplitConcatStep(p, q, sep, i);
    } else {
      SplitConcatLast(p, q, sep);
    }
  }

  lemma SplitConcatStep(p: string, q: string, sep: char, i: nat)
    requires i < |p| && p[i] == sep && sep !in p[..i]
    requires Split(p[i + 1..] + [sep] + q, sep) == Split(p[i + 1..], sep) + Split(q, sep)
    ensures Split(p + [sep] + q, sep) == Split(p, sep) + Split(q, sep)
  {
    var s := p + [sep] + q;
    ConcatSlices(p, q, sep, i);
    SplitUnfold(s, sep, i);
    SplitUnfold(p, sep, i);
    ConsAssoc(p[..i], Split(p[i + 1..], sep), Split(q, sep));
  }

  /** Cutting `p + [sep] + q` around a position inside `p`. */
  lemma ConcatSlices(p: string, q: string, sep: char, i: nat)
    requires i < |p|
    ensures (p + [sep] + q)[i] == p[i]
    ensures (p + [sep] + q)[..i] == p[..i]
    ensures (p + [sep] + q)[i + 1..] == p[i + 1..] + [sep] + q
  {
  }

  lemma ConsAssoc<T>(x: T, a: seq<T>, b: seq<T>)
    ensures [x] + (a + b) == ([x] + a) + b
  {
  }

  lemma SplitConcatLast(p: string, q: string, sep: char)
    requires sep !in p
    ensures Split(p + [sep] + q, sep) == Split(p, sep) + Split(q, sep)
  {
    var s := p + [sep] + q;
    assert s[..|p|] == p;
    assert s[|p| + 1..] == q;
    SplitUnfold(s, sep, |p|);
  }

  /** One step of `Split`: the first separator at `i` ends the first part. */
  lemma SplitUnfold(s: string, sep: char, i: nat)
    requires i < |s| && s[i] == sep && sep !in s[..i]
    ensures Split(s, sep) == [s[..i]] + Split(s[i + 1..], sep)
  {
    FirstIndexOfAt(s, sep, i);
  }

  /** The decimal digit character for `d`. */
  function DigitChar(d: nat): (c: char)
    requires d < 10
    ensures IsDigit(c)
  {
    ['0', '1', '2', '3', '4', '5', '6', '7', '8', '9'][d]
  }

  function DigitValue(c: char): (d: nat)
    requires IsDigit(c)
    ensures d < 10
  {
    (c as int - '0' as int) as nat
  }

  lemma DigitRoundTrip(d: nat)
    requires d < 10
    ensures DigitValue(DigitChar(d)) == d
  {
  }

  predicate AllDigits(s: string) {
    forall k :: 0 <= k < |s| ==> IsDigit(s[k])
  }

  /** A canonical decimal numeral: non-empty, digits only, no leading zero. */
  predicate Canonical(s: string) {
    |s| >= 1 && AllDigits(s) && (|s| == 1 || s[0] != '0')
  }

  /** `String(n)` for a natural number. */
  function NatToStr(n: nat): (s: string)
    ensures Canonical(s)
  {
    if n < 10 then [DigitChar(n)]
    else
      var s := NatToStr(n / 10) + [DigitChar(n % 10)];
      assert s[0] == NatToStr(n / 10)[0];
      s
  }

  /** The value of a string of decimal digits. */
  function ParseDigits(s: string): nat
    requires AllDigits(s)
  {
    if |s| == 0 then 0
    else ParseDigits(s[..|s| - 1]) * 10 + DigitValue(s[|s| - 1])
  }

  /** `String(i)` for an integer. */
  function IntToStr(i: int): string {
    if i < 0 then "-" + NatToStr(-i) else NatToStr(i)
  }

  /** Parsing the rendering of `n` gives `n` back. */
  lemma {:induction false} ParseNatToStr(n: nat)
    ensures ParseDigits(NatToStr(n)) == n
  {
    if n >= 10 {
      var s := NatToStr(n / 10);
      ParseNatToStr(n / 10);
      assert (s + [DigitChar(n % 10)])[..|s|] == s;
      DigitRoundTrip(n % 10);
    } else {
      DigitRoundTrip(n);
    }
  }

  lemma {:induction false} ParseZeroAllZero(s: string)
    requires AllDigits(s) && |s| >= 1 && s[0] != '0'
    ensures ParseDigits(s) > 0
  {
    if |s| > 1 {
      ParseZeroAllZero(s[..|s| - 1]);
    } else {
      assert DigitValue(s[0]) > 0;
    }
  }

  /** Rendering the value of a canonical numeral gives the numeral back. */
  lemma {:induction false} NatToStrParse(s: string)
    requires Canonical(s)
    ensures NatToStr(ParseDigits(s)) == s
    decreases |s|
  {
    var n := ParseDigits(s);
    var last := s[|s| - 1];
    if |s| == 1 {
      assert s[..|s| - 1] == [];
      assert n == ParseDigits(s[..|s| - 1]) * 10 + DigitValue(last);
      assert DigitChar(DigitValue(last)) == last;
    } else {
      var init := s[..|s| - 1];
      assert init[0] == s[0];
      ParseZeroAllZero(init);
      NatToStrParse(init);
      assert n / 10 == ParseDigits(init) && n % 10 == DigitValue(last);
      assert DigitChar(DigitValue(last)) == last;
      assert s == init + [last];
    }
  }

  /** ASCII lower-casing, as HTML's `setAttribute` applies to attribute names. */
  function AsciiLower(s: string): (r: string)
    ensures |r| == |s|
    ensures forall k :: 0 <= k < |s| ==> (if 'A' <= s[k] <= 'Z' then r[k] as int == s[k] as int + 32 else r[k] == s[k])
  {
    if |s| == 0 then ""
    else
      var c := s[0];
      [if 'A' <= c <= 'Z' then (c as int + 32) as char else c] + AsciiLower(s[1..])
  }

  predicate IsAsciiWhitespace(c: char) {
    c == ' ' || c == '\t' || c == '\n' || c == '\r' || c == '\U{000C}'
  }
}

=== FILE: values.dfy ===
/**
  JavaScript values as the binder sees them: models, scopes, controllers and
  the values a path resolves to. Objects are ordered lists of own properties
  (their `for...in` enumeration order); their keys are assumed distinct.
 */
module JsValues {
  import opened Wrappers
  import opened JsStrings

  datatype Value =
    | Undefined
    | Null
    | Bool(b: bool)
    | Int(i: int)
    | Str(s: string)
    | Obj(fields: seq<(string, Value)>)
    | Arr(elems: seq<Value>)
    | Fn(id: nat)

  /** JavaScript truthiness (`!!v`). */
  predicate Truthy(v: Value) {
    match v
    case Undefined => false
    case Null => false
    case Bool(b) => b
    case Int(i) => i != 0
    case Str(s) => s != ""
    case _ => true
  }

  /** `String(v)`, equivalently `v + ''`. Functions render as a fixed placeholder. */
  function ToStr(v: Value): string
    decreases v, 1
  {
    match v
    case Undefined => "undefined"
    case Null => "null"
    case Bool(b) => if b then "true" else "false"
    case Int(i) => IntToStr(i)
    case Str(s) => s
    case Obj(_) => "[object Object]"
    case Arr(xs) => JoinElems(xs)
    case Fn(_) => "function"
  }

  /** `Array.prototype.join(',')`: `null` and `undefined` elements render empty. */
  function JoinElems(xs: seq<Value>): string
    decreases xs, 0
  {
    if |xs| == 0 then ""
    else
      var first := if xs[0].Undefined? || xs[0].Null? then "" else ToStr(xs[0]);
      if |xs| == 1 then first else first + "," + JoinElems(xs[1..])
  }

  /** The object `{[ctx]: model}` a view resolves its paths against. */
  function Scope(ctx: string, model: Value): Value {
    Obj([(ctx, model)])
  }

  /**
    A size measure: an object weighs two plus its contents, an array three
    plus its contents (so that even its `length` is lighter by two).
   */
  function Size(v: Value): nat
    decreases v, 1
  {
    match v
    case Obj(fs) => 2 + FieldsSize(fs)
    case Arr(xs) => 3 + ElemsSize(xs)
    case _ => 1
  }

  function FieldsSize(fs: seq<(string, Value)>): nat
    decreases fs, 0
  {
    if |fs| == 0 then 0
    else
      var (_, w) := fs[0];
      assert fs[0] in fs && w < fs[0];
      Size(w) + FieldsSize(fs[1..])
  }

  function ElemsSize(xs: seq<Value>): nat
    decreases xs, 0
  {
    if |xs| == 0 then 0 else Size(xs[0]) + ElemsSize(xs[1..])
  }

  /** A scope weighs its model plus two. */
  lemma ScopeSize(ctx: string, model: Value)
    ensures Size(Scope(ctx, model)) == Size(model) + 2
  {
    assert [(ctx, model)][1..] == [];
    assert FieldsSize([(ctx, model)]) == Size(model) + FieldsSize([]);
  }

  lemma SizePositive(v: Value)
    ensures Size(v) >= 1
  {
  }

  /** Own property lookup in an object's property list; `undefined` when absent. */
  function Lookup(fs: seq<(string, Value)>, key: string): Value {
    if |fs| == 0 then Undefined
    else if fs[0].0 == key then fs[0].1
    else Lookup(fs[1..], key)
  }

  /** The array index a property key denotes, if it is a canonical numeral. */
  function CanonicalIndex(key: string): Option<nat> {
    if Canonical(key) then Some(ParseDigits(key)) else None
  }

  /**
    Property access `v[key]`. Arrays answer their indices and `length`;
    primitives and functions have no properties in this model.
   */
  function Get(v: Value, key: string): Value {
    match v
    case Obj(fs) => Lookup(fs, key)
    case Arr(xs) =>
      var index := CanonicalIndex(key);
      if key == "length" then Int(|xs|)
      else if index.Some? && index.value < |xs| then xs[index.value]
      else Undefined
    case _ => Undefined
  }

  /** The model the view of an `each` entry binds: the entry, or an empty object for a falsy one. */
  function ItemModel(item: Value): Value {
    if Truthy(item) then item else Obj([])
  }

  /** The values `for (var i in v)` visits: array elements or object property values, in order. */
  function Items(v: Value): seq<Value> {
    match v
    case Arr(xs) => xs
    case Obj(fs) => seq(|fs|, k requires 0 <= k < |fs| => fs[k].1)
    case _ => []
  }

  /** Descends `v` along `segs` while every step is neither `undefined` nor `null`. */
  function Walk(v: Value, segs: seq<string>): Option<Value>
    decreases |segs|
  {
    if |segs| == 0 then Some(v)
    else
      var w := Get(v, segs[0]);
      if w.Undefined? || w.Null? then None else Walk(w, segs[1..])
  }

  // ----- lemmas -----

  lemma {:induction false} LookupSmaller(fs: seq<(string, Value)>, key: string)
    ensures Lookup(fs, key).Undefined? || Size(Lookup(fs, key)) <= FieldsSize(fs)
  {
    if |fs| > 0 && fs[0].0 != key {
      LookupSmaller(fs[1..], key);
    }
  }

  lemma {:induction false} ElemSmaller(xs: seq<Value>, n: nat)
    requires n < |xs|
    ensures Size(xs[n]) <= ElemsSize(xs)
  {
    if n > 0 {
      ElemSmaller(xs[1..], n - 1);
    }
  }

  lemma {:induction false} FieldSmaller(fs: seq<(string, Value)>, n: nat)
    requires n < |fs|
    ensures Size(fs[n].1) <= FieldsSize(fs)
  {
    if n > 0 {
      FieldSmaller(fs[1..], n - 1);
    }
  }

  /** A property that exists is lighter than its owner by at least two. */
  lemma GetSmaller(v: Value, key: string)
    ensures !Get(v, key).Undefined? ==> Size(Get(v, key)) + 2 <= Size(v)
    ensures !(v.Obj? || v.Arr?) ==> Get(v, key).Undefined?
  {
    match v
    case Obj(fs) => LookupSmaller(fs, key);
    case Arr(xs) =>
      if key != "length" && CanonicalIndex(key).Some? && CanonicalIndex(key).value < |xs| {
        ElemSmaller(xs, CanonicalIndex(key).value);
      }
    case _ =>
  }

  /** Every value a `for...in` visits is smaller than the collection by at least two. */
  lemma ItemsSmaller(v: Value)
    ensures forall k :: 0 <= k < |Items(v)| ==> Size(Items(v)[k]) + 2 <= Size(v)
  {
    forall k | 0 <= k < |Items(v)|
      ensures Size(Items(v)[k]) + 2 <= Size(v)
    {
      match v
      case Arr(xs) => ElemSmaller(xs, k);
      case Obj(fs) => FieldSmaller(fs, k);
    }
  }

  /** A successful walk lands on a value that lost at least two units of size per step. */
  lemma {:induction false} WalkSmaller(v: Value, segs: seq<string>)
    ensures Walk(v, segs).Some? ==> Size(Walk(v, segs).value) + 2 * |segs| <= Size(v)
    decreases |segs|
  {
    if |segs| > 0 {
      GetSmaller(v, segs[0]);
      WalkSmaller(Get(v, segs[0]), segs[1..]);
    }
  }

  /** Walking a concatenated path is walking its first part, then the rest from where it landed. */
  lemma {:induction false} WalkAppend(v: Value, a: seq<string>, b: seq<string>)
    ensures Walk(v, a + b) == (if Walk(v, a).None? then None else Walk(Walk(v, a).value, b))
    decreases |a|
  {
    if |a| > 0 {
      assert (a + b)[0] == a[0];
      assert (a + b)[1..] == a[1..] + b;
      WalkAppend(Get(v, a[0]), a[1..], b);
    } else {
      assert a + b == b;
    }
  }

  /** A walk of at least one step that succeeds lands on a defined, non-null value. */
  lemma {:induction false} WalkLandsDefined(v: Value, segs: seq<string>)
    requires |segs| >= 1 && Walk(v, segs).Some?
    ensures !Walk(v, segs).value.Undefined? && !Walk(v, segs).value.Null?
    decreases |segs|
  {
    if |segs| > 1 {
      WalkLandsDefined(Get(v, segs[0]), segs[1..]);
    }
  }

  /** Array index keys: `a[String(n)]` is the `n`-th element. */
  lemma ArrayIndexKey(xs: seq<Value>, n: nat)
    requires n < |xs|
    ensures Get(Arr(xs), NatToStr(n)) == xs[n]
  {
    ParseNatToStr(n);
    assert NatToStr(n) != "length" by {
      assert IsDigit(NatToStr(n)[0]);
    }
  }

  /** A key is an array index exactly when it is the rendering of that index. */
  lemma CanonicalIndexIff(key: string, n: nat)
    ensures CanonicalIndex(key) == Some(n) <==> key == NatToStr(n)
  {
    if key == NatToStr(n) {
      ParseNatToStr(n);
    }
    if CanonicalIndex(key) == Some(n) {
      NatToStrParse(key);
    }
  }
}

=== FILE: wrappers.dfy ===
/** Failure-compatible wrappers used throughout the model. */
module Wrappers {

  /** A value that may be absent. */
  datatype Option<+T> = None | Some(value: T)

  /** The outcome of an operation that either returns a value or throws an error. */
  datatype Result<+T, +E> = Ok(value: T) | Err(error: E) {
    predicate IsFailure() {
      Err?
    }
  }
}
